=== FILE: README.md ===
# Sidecar request-decision core in Dafny

This project models the request-decision core of an API sidecar written in
Java with Spring WebFlux. The code exists in two variants, jarvis and
wingbank. The sidecar sits in front of one backend service. For every
request it decides, in order:

- whether the request is logged, and how its query, form or multipart
  parameters are recorded (`LoggingFilter`, `ServerContext`);
- which authentication manager validates the bearer token: the JWT manager
  when the value looks like a signed JWT, otherwise opaque-token
  introspection (`CustomAuthenticationManagerResolver`);
- what authorities the token grants (the JWT and opaque role converters),
  and how any authentication failure becomes a 401
  (`DelegateReactiveAuthenticationManager`);
- whether the token's service claim names this service
  (`ServiceAccessFilter`, one per variant);
- which access rule the route chain applies. The chain is built from the
  policy file (`SecurityUtil`, `SecurityResourceService`, `SecurityEntity`),
  followed by the fixed method denies, excluded paths and catch-all
  (`SecurityConfig`);
- how the request is forwarded (`ProxyService`): identity headers taken
  from whatever authentication the thread-local security context holds,
  the body only for DELETE, POST and PUT, and the
  rate-limit and circuit-breaker fallbacks;
- how request and response bodies are captured
  (`AceServerHttpRequestDecorator`, `AceServerHttpResponseDecorator`);
- how errors are rendered (`CustomErrorAttribute`,
  `CustomAuthenticationEntryPoint`, `CustomAccessDeniedHandler`);
- whether the logging filter exists at all (`OnEnvironmentCondition`).

Everything is modelled with immutable datatypes and pure functions.
Several things the program gets from outside become parameters. They
include:
- the Ant-style path matcher;
- the outcome of each call to the identity provider or the backend;
- the resilience gate and the trace id;
- URL encoding, URI parsing and JSON re-rendering;
- the parsed multipart parts.

"## Left out" lists them all. The order in which a `HashSet` is
enumerated also becomes a parameter, so every property about the policy
table holds for every enumeration.

Modules:

- `Wrappers`, `Strings` and `Http`: the Java, Spring and HTTP vocabulary.
- `Failures`, `Identity` and `Replies`: exceptions, authentications and
  JSON envelopes.
- `SecurityEntity`, `PolicyLoader`, `PolicyTable` and `Authorization`: the
  policy.
- `TokenResolver`, `Authentication` and `ServiceAccess`: the security
  filters.
- `ServerContext`, `LoggingFilter` and `Decorators`: logging and body
  capture.
- `Proxy`, `ErrorRendering` and `EnvironmentCondition`.
- `Glob`: one concrete segment matcher, which instantiates the chain's matcher in `Authorization.SegmentMatcherTail`.

Where the two variants differ, both are modelled and lemmas show an input
on which they disagree.

## Model

| member | source | states |
|---|---|---|
| SecurityEntity.NewRule | src/main/java/com/wingbank/sidecar/model/SecurityEntity.java:7-14 | A fresh rule has its id, order -1, null flags and empty endpoint, role and method collections. |
| SecurityEntity.GettersNullSafe | src/main/java/com/wingbank/sidecar/model/SecurityEntity.java:56-78 | The three collection getters never yield null: a null field reads as empty, and a present one reads unchanged. |
| SecurityEntity.EqualsIsIdEquality | src/main/java/com/wingbank/sidecar/model/SecurityEntity.java:85-90 | Two rules are equal exactly when both carry the same non-null id. Flags, order and collections play no part, equality is symmetric, and null equals nothing. |
| SecurityEntity.NullIdEqualsNothing | src/main/java/com/wingbank/sidecar/model/SecurityEntity.java:86-90 | A rule without an id equals nothing, not even itself. |
| SecurityEntity.HashCode | src/main/java/com/wingbank/sidecar/model/SecurityEntity.java:80-83 | The hash lies in the 32-bit int range. |
| SecurityEntity.HashConsistentWithEquals | src/main/java/com/wingbank/sidecar/model/SecurityEntity.java:80-90 | Equal rules have equal hash codes. |
| PolicyLoader.SortByOrder | src/main/java/com/wingbank/sidecar/util/SecurityUtil.java:87 | The sorted rule list is ordered by `order` and is a permutation of the loaded list. |
| PolicyLoader.SortIsStable | src/main/java/com/wingbank/sidecar/util/SecurityUtil.java:87 | Rules with equal `order` keep their relative order from the file. |
| PolicyLoader.AnyStableSortAgrees | src/main/java/com/wingbank/sidecar/util/SecurityUtil.java:87 | Any stable ordering of the rules by `order` equals this one, so the model's sort is the list sort's result. |
| PolicyLoader.Load | src/main/java/com/wingbank/sidecar/util/SecurityUtil.java:74-92 | An unset or empty SECURITY_CONFIG gives no rules. A missing file or a directory fails with the 'file ... not exist' message, and an unreadable document fails. Otherwise the result is the document's rules sorted by order, with rules of equal order kept in file order (the stable sort). |
| PolicyLoader.LoadIsStableSort | src/main/java/com/wingbank/sidecar/util/SecurityUtil.java:87 | Any sorted list that keeps each order group in file order is exactly what loading yields. |
| PolicyLoader.EmptyPathLoadsNothing | src/main/java/com/jarvis/sidecar/service/SecurityResourceService.java:122-140 | With SECURITY_CONFIG unset or empty, loading reads nothing and gives the empty rule list. |
| PolicyTable.FirstCovering | src/main/java/com/jarvis/sidecar/service/SecurityResourceService.java:67-69 | Gives the first rule in visiting order with an endpoint pattern matching the path. No earlier rule has one, and none is found only when no rule has one. |
| PolicyTable.AnyMethodMatches | src/main/java/com/jarvis/sidecar/service/SecurityResourceService.java:72-73 | True exactly when some declared method equals the request method ignoring case. |
| PolicyTable.Match | src/main/java/com/jarvis/sidecar/service/SecurityResourceService.java:66-78 | The nested loop answers false when no pattern matches. Otherwise it gives the first covering rule's verdict: its flag alone when it declares no methods or the method is empty, else its flag and a declared method. |
| PolicyTable.IsPermit | src/main/java/com/jarvis/sidecar/service/SecurityResourceService.java:54-56 | `isPermit` is the first covering rule's verdict on `permitAll`. |
| PolicyTable.IsDeny | src/main/java/com/jarvis/sidecar/service/SecurityResourceService.java:62-64 | `isDeny` is the first covering rule's verdict on `denyAll`. |
| PolicyTable.UnmatchedPathNeither | src/main/java/com/jarvis/sidecar/service/SecurityResourceService.java:66-77 | A path that no endpoint pattern matches is neither permitted nor denied. |
| PolicyTable.LaterRulesNotConsulted | src/main/java/com/jarvis/sidecar/service/SecurityResourceService.java:67-73 | Rules after the first covering rule never change the answer. |
| PolicyTable.MethodMismatchDoesNotFallThrough | src/main/java/com/jarvis/sidecar/service/SecurityResourceService.java:72-73 | A covering rule whose declared methods exclude the request's answers false, whatever later rules say. |
| PolicyTable.PermitAndDenyShareRule | src/main/java/com/jarvis/sidecar/service/SecurityResourceService.java:54-64 | Both queries are true only when the one deciding rule sets both flags. |
| PolicyTable.VisitingOrderDecides | src/main/java/com/jarvis/sidecar/service/SecurityResourceService.java:31 | The same rule set answers differently under two enumerations, so the hash-set order, not the sort, decides. |
| PolicyTable.Add | src/main/java/com/jarvis/sidecar/service/SecurityResourceService.java:37-39 | A null rule, or one equal to a stored rule, leaves the table unchanged. Any other rule is stored. |
| PolicyTable.AddKeepsDistinct | src/main/java/com/jarvis/sidecar/service/SecurityResourceService.java:37-39 | Adding keeps the set invariant that no two stored rules are equal. |
| PolicyTable.AddAll | src/main/java/com/jarvis/sidecar/service/SecurityResourceService.java:41-44 | A null or empty collection leaves the table unchanged. |
| PolicyTable.AddEachSpec | src/main/java/com/jarvis/sidecar/service/SecurityResourceService.java:41-44 | Adding a collection keeps the invariant and every stored rule. It stores only offered rules, and every offered rule with an id ends up represented. |
| PolicyTable.Build | src/main/java/com/jarvis/sidecar/service/SecurityResourceService.java:33-44 | The constructed table holds distinct rules, all taken from the loaded list. Every loaded rule with an id is represented by an equal rule, and every loaded rule without an id is stored. |
| Authorization.FirstHit | src/main/java/com/jarvis/sidecar/config/SecurityConfig.java:51-58 | The registrations are tried in order, and the first whose matcher hits the request decides. |
| Authorization.DecideAppend | src/main/java/com/jarvis/sidecar/config/SecurityConfig.java:51-58 | A prefix of the chain that decides nothing is passed over, and a prefix that decides wins. |
| Authorization.MethodEntriesDecide | src/main/java/com/jarvis/sidecar/service/SecurityResourceService.java:99-117 | The per-method registrations decide a request exactly when its method is declared and an endpoint matches. |
| Authorization.RuleEntriesDecide | src/main/java/com/wingbank/sidecar/util/SecurityUtil.java:33-69 | A rule's registrations decide a request exactly when the rule applies, with the effect deny > permit > authenticated > roles. |
| Authorization.PolicyDecidesByFirstApplicable | src/main/java/com/wingbank/sidecar/util/SecurityUtil.java:33-70 | The policy registrations decide as the first rule that applies. Unlike the table's `match`, a method mismatch falls through to the next rule. |
| Authorization.AllRuleEntriesDecide | src/main/java/com/jarvis/sidecar/service/SecurityResourceService.java:82-118 | The concatenated registrations of all rules decide by the first applicable rule. |
| Authorization.WingbankChain | src/main/java/com/wingbank/sidecar/config/SecurityConfig.java:47-55 | A load failure stops the configuration. A loaded rule with no endpoints makes `pathMatchers` refuse the configuration with `matchers cannot be empty`. Otherwise the chain starts with the policy registrations, followed by the static tail. |
| Authorization.ChainAccepted | src/main/java/com/wingbank/sidecar/util/SecurityUtil.java:30-72 | Every registration of the chain has a non-empty matcher exactly when every rule declares at least one endpoint. |
| Authorization.ConfigureChain | src/main/java/com/wingbank/sidecar/util/SecurityUtil.java:30-72 | Configuration succeeds exactly when every rule has endpoints, and then yields the chain. Otherwise it fails with the empty-matchers argument error. |
| Authorization.JarvisChain | src/main/java/com/jarvis/sidecar/config/SecurityConfig.java:51-58 | For a table enumerated in visiting order: a load failure stops the configuration. The chain is built from the visiting order, and succeeds exactly when every visited rule has endpoints, so always when every loaded rule has them. |
| Authorization.StaticTailDecides | src/main/java/com/jarvis/sidecar/config/SecurityConfig.java:52-58 | When the policy does not decide: DELETE, PUT, PATCH, HEAD and TRACE are denied even on excluded paths. Otherwise excluded paths are permitted and every other path is denied. |
| Authorization.ChainAlwaysDecides | src/main/java/com/jarvis/sidecar/config/SecurityConfig.java:58 | Every request receives an access rule, because the catch-all matches any exchange. |
| Authorization.EmptyPolicyShadowsTail | src/main/java/com/jarvis/sidecar/service/SecurityResourceService.java:81 | With no rules, the catch-all authenticated registration decides every request, so the static denies and permits are never reached. |
| Authorization.SegmentMatcherTail | src/main/java/com/jarvis/sidecar/config/SecurityConfig.java:51-58 | With a segment matcher on an absolute path: an empty policy requires authentication, and a denied method the policy leaves undecided is refused. |
| Authorization.PolicyOverridesMethodDeny | src/main/java/com/wingbank/sidecar/config/SecurityConfig.java:48-50 | A rule that applies decides before the static method denies, so it can permit a PUT or DELETE. |
| Authorization.NoRolesAdmitsNobody | src/main/java/com/wingbank/sidecar/util/SecurityUtil.java:45-48 | A rule with no flags and no roles registers an authority check that no identity passes. |
| Authorization.NullFlagsActAsFalse | src/main/java/com/wingbank/sidecar/util/SecurityUtil.java:36-42 | A null flag selects the same effect as a false one. |
| Authorization.Route | src/main/java/com/jarvis/sidecar/config/SecurityConfig.java:46-61 | A request proceeds exactly when the chain's access rule grants its authentication. A refused request is challenged (401) exactly when there is no authentication, and forbidden (403) otherwise. |
| TokenResolver.MatchesJwtPatternIsLanguage | src/main/java/com/jarvis/sidecar/security/CustomAuthenticationManagerResolver.java:33 | The computed test accepts exactly the language of the token pattern: two non-empty parts over letters, digits and `-_=`, then a possibly empty tail that may also contain `.+/`. |
| TokenResolver.MatchesJwtPatternSound | src/main/java/com/jarvis/sidecar/security/CustomAuthenticationManagerResolver.java:33 | Whatever the test accepts is in the pattern's language. |
| TokenResolver.MatchesJwtPatternComplete | src/main/java/com/jarvis/sidecar/security/CustomAuthenticationManagerResolver.java:33 | Everything in the pattern's language passes the test. |
| TokenResolver.NewResolver | src/main/java/com/jarvis/sidecar/security/CustomAuthenticationManagerResolver.java:44-56 | Construction succeeds exactly when all four settings have text. Otherwise it fails on the first one without text, with that setting's message. |
| TokenResolver.Resolve | src/main/java/com/jarvis/sidecar/security/CustomAuthenticationManagerResolver.java:68-76 | The JWT manager is chosen exactly when the Authorization value is a JWT; otherwise the opaque manager. |
| TokenResolver.TokenAccepted | src/main/java/com/jarvis/sidecar/security/CustomAuthenticationManagerResolver.java:78-83 | A value without the prefix whose first two dots split it into valid parts is taken for a JWT. |
| TokenResolver.SignedTokenGoesToJwt | src/main/java/com/jarvis/sidecar/security/CustomAuthenticationManagerResolver.java:78-83 | `x.y.z` is a JWT with or without `Bearer `. |
| TokenResolver.EmptyTailGoesToJwt | src/main/java/com/jarvis/sidecar/security/CustomAuthenticationManagerResolver.java:33 | `a.b.` is a JWT: the tail may be empty. |
| TokenResolver.DottedTailGoesToJwt | src/main/java/com/jarvis/sidecar/security/CustomAuthenticationManagerResolver.java:33 | `a.b.c.d` is a JWT: the tail may contain dots. |
| TokenResolver.BlankTokensGoToOpaque | src/main/java/com/jarvis/sidecar/security/CustomAuthenticationManagerResolver.java:79-82 | No header, an empty one, or a bare `Bearer ` is not a JWT. |
| TokenResolver.DotlessTokenGoesToOpaque | src/main/java/com/jarvis/sidecar/security/CustomAuthenticationManagerResolver.java:82 | A value without dots is not a JWT. |
| TokenResolver.LowerCasePrefixKept | src/main/java/com/jarvis/sidecar/security/CustomAuthenticationManagerResolver.java:80-82 | A lower-case `bearer ` prefix is not stripped. Its space keeps the value out of the pattern. |
| Authentication.RoleClaimName | src/main/java/com/jarvis/sidecar/security/CustomAuthenticationManagerResolver.java:86 | The role claim is ROLE_CLAIM, or `roles` when it is unset. |
| Authentication.NewConverter | src/main/java/com/jarvis/sidecar/security/CustomJwtGrantedAuthoritiesConverter.java:26-30 | A converter is built exactly when the claim name has text; otherwise the message 'role claim cannot be null or empty'. |
| Authentication.Authorities | src/main/java/com/jarvis/sidecar/security/CustomJwtGrantedAuthoritiesConverter.java:39-43 | Names become authorities unchanged. A name without text fails, as the authority constructor does. |
| Authentication.JwtRoleNames | src/main/java/com/jarvis/sidecar/security/CustomJwtGrantedAuthoritiesConverter.java:34-43 | A collection claim gives its elements. A missing claim gives the single name `null`. Any other claim gives the comma-separated parts of its string form. |
| Authentication.StringClaimRoles | src/main/java/com/jarvis/sidecar/security/CustomJwtGrantedAuthoritiesConverter.java:34-43 | A string claim that joins comma-free names by commas gives exactly those names. The authorities exist exactly when every name has text. |
| Authentication.JwtAuthorities | src/main/java/com/jarvis/sidecar/security/CustomJwtGrantedAuthoritiesConverter.java:34-46 | The JWT authorities are the role names, and conversion succeeds exactly when every name has text. |
| Authentication.StringRolesAreSplit | src/main/java/com/jarvis/sidecar/security/CustomJwtGrantedAuthoritiesConverter.java:41-43 | The string claim `admin,user` gives the authorities admin and user. |
| Authentication.MissingJwtClaimGivesNull | src/main/java/com/jarvis/sidecar/security/CustomJwtGrantedAuthoritiesConverter.java:36-43 | A token without the claim gets the single authority `null`. |
| Authentication.OpaqueConvert | src/main/java/com/wingbank/sidecar/security/CustomOpaqueTokenAuthenticationConverter.java:37-48 | The principal carries the claims unchanged. Only a collection claim gives authorities (its elements), and a missing or other claim gives none. |
| Authentication.ConvertersDisagreeOnStrings | src/main/java/com/wingbank/sidecar/security/CustomOpaqueTokenAuthenticationConverter.java:42-45 | A comma-separated string gives roles to a JWT but none to an introspected token. |
| Authentication.Delegate | src/main/java/com/wingbank/sidecar/security/DelegateReactiveAuthenticationManager.java:20-24 | Success passes through unchanged. Any failure becomes a 401 AccessTokenFailed with the reason 'unauthorized access' and the original failure as cause. |
| Authentication.DelegateKeepsRootCause | src/main/java/com/wingbank/sidecar/security/DelegateReactiveAuthenticationManager.java:22-23 | The normalised failure has the same root cause as the original. |
| Authentication.AuthenticateJwt | src/main/java/com/jarvis/sidecar/security/CustomAuthenticationManagerResolver.java:85-96 | The JWT manager succeeds exactly when decoding and conversion do, giving a JWT authentication. Any failure is a 401. |
| Authentication.AuthenticateOpaque | src/main/java/com/jarvis/sidecar/security/CustomAuthenticationManagerResolver.java:98-105 | The opaque manager succeeds exactly when introspection and conversion do, giving a bearer authentication. Any failure is a 401. |
| ServiceAccess.ServiceClaimName | src/main/java/com/jarvis/sidecar/filter/ServiceAccessFilter.java:58 | The service claim is SERVICE_CLAIM, or `services` when it is unset. |
| ServiceAccess.JarvisConfig | src/main/java/com/jarvis/sidecar/filter/ServiceAccessFilter.java:54-61 | The service id is SERVICE_ID when it has text, otherwise the application name. |
| ServiceAccess.WingbankConfig | src/main/java/com/wingbank/sidecar/filter/ServiceAccessFilter.java:51-57 | Construction succeeds exactly when the service id has text; otherwise it fails with its message. |
| ServiceAccess.EmptyServiceIdRefused | src/main/java/com/wingbank/sidecar/config/SecurityConfig.java:24-25 | An empty SERVICE_ID is passed as it is, and the filter then refuses it. |
| ServiceAccess.JarvisServices | src/main/java/com/jarvis/sidecar/filter/ServiceAccessFilter.java:85-91 | A collection claim is taken as it is, a missing claim gives no services, and any other value gives its comma-separated pieces. |
| ServiceAccess.WingbankServices | src/main/java/com/wingbank/sidecar/filter/ServiceAccessFilter.java:79-83 | Only a collection claim gives services; anything else gives none. |
| ServiceAccess.JarvisFilter | src/main/java/com/jarvis/sidecar/filter/ServiceAccessFilter.java:63-102 | A policy deny gives 403 first. The request continues exactly when it is not denied and is either permitted, on an excluded path, or from a token naming the service. The 401 answer happens exactly when no authentication reaches the check. |
| ServiceAccess.WingbankFilter | src/main/java/com/wingbank/sidecar/filter/ServiceAccessFilter.java:59-94 | The request continues exactly when its path is excluded or its token's collection claim names the service. Without authentication the answer is 401; otherwise it is 403 'no access scope'. |
| ServiceAccess.JarvisDenyBeatsExclusion | src/main/java/com/jarvis/sidecar/filter/ServiceAccessFilter.java:65-66 | A policy deny gives 403 even on an excluded path. |
| ServiceAccess.StringClaimOnlyCountsInJarvis | src/main/java/com/wingbank/sidecar/filter/ServiceAccessFilter.java:81-85 | A comma-separated string claim admits the request in jarvis and refuses it in wingbank. |
| ServiceAccess.NullClaimNamesNull | src/main/java/com/jarvis/sidecar/filter/ServiceAccessFilter.java:90-91 | A null claim reads in jarvis as the single service `null`. |
| ServiceAccess.OtherAuthenticationRefused | src/main/java/com/wingbank/sidecar/filter/ServiceAccessFilter.java:71-85 | An authentication that is neither a JWT nor a bearer token gives 403 outside the excluded paths. |
| Decorators.RequestHeaders | src/main/java/com/wingbank/sidecar/server/AceServerHttpRequestDecorator.java:27-39 | JSON and multipart headers are unchanged. Otherwise a non-empty body sets Content-Length and leaves every other header, Transfer-Encoding included, as it was. An empty body sets Transfer-Encoding chunked and leaves every other header, Content-Length included, as it was. |
| Decorators.ContentLengthMatchesBody | src/main/java/com/wingbank/sidecar/server/AceServerHttpRequestDecorator.java:34-35 | The Content-Length value reads back as the number of bytes replayed. |
| Decorators.ReplayBody | src/main/java/com/wingbank/sidecar/server/AceServerHttpRequestDecorator.java:41-46 | A non-empty captured body is replayed as exactly those bytes; otherwise the original body is used. |
| Decorators.CaptureChunk | src/main/java/com/wingbank/sidecar/server/AceServerHttpResponseDecorator.java:39-45 | A JSON chunk is appended. The attribute and, when there is a record, its response body then hold the whole capture. A non-JSON chunk changes nothing. |
| Decorators.WriteAll | src/main/java/com/wingbank/sidecar/server/AceServerHttpResponseDecorator.java:26-29 | Every chunk is forwarded, one output per input. |
| Decorators.WriteAllSpec | src/main/java/com/wingbank/sidecar/server/AceServerHttpResponseDecorator.java:18-45 | After any writes: the capture is the JSON chunks' text in order; every chunk is forwarded unchanged; once a JSON chunk is seen, the attribute and record hold the whole capture; and a never-JSON response captures nothing. |
| LoggingFilter.QuietPaths | src/main/java/com/jarvis/sidecar/filter/LoggingFilter.java:37-45 | The root path and the two token-check paths are never logged. |
| LoggingFilter.EntryPairsMembers | src/main/java/com/jarvis/sidecar/filter/LoggingFilter.java:155-161 | A pair comes from a key exactly when it is that key with one of its values that has text. |
| LoggingFilter.QueryPairsMembers | src/main/java/com/jarvis/sidecar/filter/LoggingFilter.java:154-162 | The pairs are exactly the key/value combinations of the parameters whose value has text. |
| LoggingFilter.QueryParamOf | src/main/java/com/jarvis/sidecar/filter/LoggingFilter.java:149-170 | No parameters give no query. Parameters without any text value fail. Otherwise the raw and encoded queries are the `&`-joined `key=value` pairs, values encoded and keys not. |
| LoggingFilter.AppendEntry | src/main/java/com/jarvis/sidecar/filter/LoggingFilter.java:155-161 | The inner loop adds `key=value&` to both builders for every value with text. |
| LoggingFilter.GetQueryParam | src/main/java/com/jarvis/sidecar/filter/LoggingFilter.java:149-170 | The builder loop followed by the last-character cut computes the joined form, including the failure on an empty builder. |
| LoggingFilter.BlankQueryFails | src/main/java/com/jarvis/sidecar/filter/LoggingFilter.java:163-164 | `?y=` makes the cut of the empty builder fail. |
| LoggingFilter.RawQueryRoundTrip | src/main/java/com/jarvis/sidecar/filter/LoggingFilter.java:154-168 | When no key or value contains `&`, the raw query splits back at `&` into the pairs; it equals the encoded query when encoding changes nothing. |
| LoggingFilter.AddValue | src/main/java/com/jarvis/sidecar/filter/LoggingFilter.java:181-183 | Appending a value keeps keys distinct and extends that key's values. |
| LoggingFilter.CollectLookup | src/main/java/com/jarvis/sidecar/filter/LoggingFilter.java:176-184 | The built map holds, for every key, the values of its kept segments in body order. |
| LoggingFilter.BuildParameter | src/main/java/com/jarvis/sidecar/filter/LoggingFilter.java:172-186 | A body without text gives the empty map. Otherwise each key maps to the values of the segments kept under it, in order, with keys distinct. |
| LoggingFilter.KeptSegment | src/main/java/com/jarvis/sidecar/filter/LoggingFilter.java:178-182 | A segment `k=v` with a non-empty value is kept as `v` under `k`. |
| LoggingFilter.EmptyValueDropped | src/main/java/com/jarvis/sidecar/filter/LoggingFilter.java:178-180 | A segment `k=` is dropped. |
| LoggingFilter.FormBodyExample | src/main/java/com/jarvis/sidecar/filter/LoggingFilter.java:172-186 | `a=1&b=2&b=` gives `a` the value 1 and `b` the value 2. |
| LoggingFilter.RebuildUri | src/main/java/com/jarvis/sidecar/filter/LoggingFilter.java:130-142 | The URI changes only when both queries have text. It becomes the text before the first `?`, then `?` and the encoded query. |
| LoggingFilter.QueryReplaced | src/main/java/com/jarvis/sidecar/filter/LoggingFilter.java:133-139 | `base?rest` is forwarded as `base?` followed by the encoded query. |
| LoggingFilter.FieldPairs | src/main/java/com/jarvis/sidecar/filter/LoggingFilter.java:116-122 | The pairs come from field parts only, and there are none exactly when there is no field part. |
| LoggingFilter.MultipartSummary | src/main/java/com/jarvis/sidecar/filter/LoggingFilter.java:112-128 | Succeeds exactly when some field part exists. The parameter is the `&`-joined field pairs, and the file list is null exactly when there are no files. |
| LoggingFilter.FilesOnlyUploadFails | src/main/java/com/jarvis/sidecar/filter/LoggingFilter.java:124 | An upload of files alone fails at the cut. |
| LoggingFilter.Record | src/main/java/com/jarvis/sidecar/filter/LoggingFilter.java:87-110 | JSON bodies are recorded verbatim, and form bodies are appended to the parameter. For multipart bodies the field pairs are appended to the parameter and the file list becomes the files; the summary's failure is the result's. Other bodies are not recorded. The first compatible type wins. |
| LoggingFilter.WildcardTakenForJson | src/main/java/com/jarvis/sidecar/filter/LoggingFilter.java:98-100 | A wildcard content type is taken for JSON. |
| LoggingFilter.Prepare | src/main/java/com/jarvis/sidecar/filter/LoggingFilter.java:67-85 | A failing query stops the request. Otherwise the logging flag is `shouldLog` and the record's address is the chosen client IP. |
| LoggingFilter.TraceIdHeader | src/main/java/com/jarvis/sidecar/filter/LoggingFilter.java:72 | The response header `trace-id` reads as the trace id, replacing any earlier value. Every other response header reads as before. |
| LoggingFilter.FormParameterFollowsQuery | src/main/java/com/jarvis/sidecar/filter/LoggingFilter.java:67-103 | For a form post, the parameter is the raw query and the body joined by `&`, keeping only the non-empty ones. |
| ServerContext.FirstAcceptable | src/main/java/com/wingbank/sidecar/model/ServerContext.java:93-101 | Finds the first candidate header whose first value is non-empty and not `unknown`, and only such a one. |
| ServerContext.ClientIp | src/main/java/com/wingbank/sidecar/model/ServerContext.java:91-104 | The IP is the first acceptable candidate header. Only when none is acceptable is it the remote host. |
| ServerContext.ClientIpIsFirstAcceptable | src/main/java/com/wingbank/sidecar/model/ServerContext.java:91-104 | When candidate j is acceptable and none before it is, the IP is the first value of candidate j. |
| ServerContext.ForwardedForWins | src/main/java/com/wingbank/sidecar/model/ServerContext.java:24-29 | An acceptable X-Forwarded-For is the IP. |
| ServerContext.UnknownIsPassedOver | src/main/java/com/wingbank/sidecar/model/ServerContext.java:96-98 | `UNKNOWN` is passed over in any case, and the next candidate is used. |
| ServerContext.NonEmpty | src/main/java/com/wingbank/sidecar/model/ServerContext.java:134-139 | Keeps only the non-empty arguments. |
| ServerContext.AppendAllIsJoin | src/main/java/com/wingbank/sidecar/model/ServerContext.java:134-139 | Repeated `appendParameter` equals the `&`-join of the non-empty arguments. |
| ServerContext.Endpoint | src/main/java/com/wingbank/sidecar/model/ServerContext.java:118-120 | A null or empty endpoint reads as `unknown endpoint`. |
| ServerContext.BodyForLog | src/main/java/com/wingbank/sidecar/model/ServerContext.java:141-153 | An empty body gives empty text. Text not starting with `{` or `[` is unchanged. Otherwise the JSON re-rendering is used, or the text itself when it does not parse. |
| ServerContext.HeaderEntryShape | src/main/java/com/wingbank/sidecar/model/ServerContext.java:223-227 | An entry is the lower-cased name, `[`, the comma-joined values and `]`. An entry with no values loses its `[`. |
| ServerContext.BuildHeader | src/main/java/com/wingbank/sidecar/model/ServerContext.java:219-229 | Headers give null exactly when there are none. Otherwise the text is `headers:` followed by each entry in order. |
| ServerContext.HeaderEntriesSnoc | src/main/java/com/wingbank/sidecar/model/ServerContext.java:221-227 | Appending a header appends its entry to the entries text. |
| ServerContext.BuildHeaderSnoc | src/main/java/com/wingbank/sidecar/model/ServerContext.java:219-229 | Appending a header with values appends its lower-case name and its comma-joined values in brackets. |
| ServerContext.SingleHeaderText | src/main/java/com/wingbank/sidecar/model/ServerContext.java:219-229 | One header renders as `headers:` and its entry. |
| ServerContext.TruncateBody | src/main/java/com/wingbank/sidecar/model/ServerContext.java:231-235 | The result is a prefix of the body. It is the whole body when the limit is not positive or the body fits, otherwise exactly the limit's length. |
| ServerContext.LoggedBodiesUntruncated | src/main/java/com/wingbank/sidecar/model/ServerContext.java:198 | The limit -1 the builders pass never truncates. |
| ServerContext.NewContext | src/main/java/com/wingbank/sidecar/model/ServerContext.java:45-53 | A new record has the chosen client IP and the request headers, with empty parameter and bodies and no files. |
| ServerContext.BuildLogRequest | src/main/java/com/wingbank/sidecar/model/ServerContext.java:185-202 | The line is the request head followed by the headers, files, parameter and body sections in that order. Each section is present only when its content is non-empty. |
| ServerContext.SectionPresence | src/main/java/com/wingbank/sidecar/model/ServerContext.java:185-217 | A section is empty exactly when its content is empty. Otherwise it is the lead followed by the content. |
| ServerContext.RequestLineAllSections | src/main/java/com/wingbank/sidecar/model/ServerContext.java:185-202 | With every part present, the line reads head, `, headers:` entries, `, files:`, `, parameter:` and `, body:` with their contents. |
| ServerContext.BuildLogResponse | src/main/java/com/wingbank/sidecar/model/ServerContext.java:204-217 | The line is the response head followed by the headers section and the body section. Each section is present only when its content is non-empty. |
| ServerContext.ResponseLineAllSections | src/main/java/com/wingbank/sidecar/model/ServerContext.java:204-217 | With headers and a body, the line reads head, `, headers:` entries and `, body:` body. |
| ServerContext.ResponseLineIgnoresRequest | src/main/java/com/wingbank/sidecar/model/ServerContext.java:204-217 | The response line does not depend on the request's parameter, files or body. |
| ServerContext.MissingStatusIsMinusOne | src/main/java/com/wingbank/sidecar/model/ServerContext.java:206 | A missing status is logged as -1. |
| Proxy.PatchSendsNoBody | src/main/java/com/wingbank/sidecar/service/ProxyService.java:100-102 | PATCH carries no body; DELETE does. |
| Proxy.IdentityValue | src/main/java/com/wingbank/sidecar/service/ProxyService.java:89-94 | An absent or null claim gives `-1`. Text is used as it is, and a collection becomes its list string. |
| Proxy.IdentityValueIsClaimText | src/main/java/com/wingbank/sidecar/service/ProxyService.java:89-94 | Apart from null, the header value is the claim's string form. |
| Proxy.ExtractHeader | src/main/java/com/wingbank/sidecar/service/ProxyService.java:82-98 | When the thread-local holder returns anything other than a JWT or bearer token, an empty holder included, the headers are forwarded unchanged. In every case each inbound header is kept with its values as a prefix. |
| Proxy.ExtractHeaderSpec | src/main/java/com/wingbank/sidecar/service/ProxyService.java:84-95 | For a token, an absent user-id or client-id reads as the aud or client_id value. A header the caller already sent keeps its first value, and every other header reads as sent. |
| Proxy.CallerCanNameItself | src/main/java/com/wingbank/sidecar/service/ProxyService.java:89 | A caller-supplied User-Id is what the application reads first. |
| Proxy.BuildOutbound | src/main/java/com/wingbank/sidecar/service/ProxyService.java:47-69 | The body is forwarded exactly for DELETE, POST and PUT, with the derived headers. |
| Proxy.WrapCallError | src/main/java/com/wingbank/sidecar/service/ProxyService.java:57 | Every failure becomes ProxyFailed with the same message and no cause. |
| Proxy.MapBackendStatus | src/main/java/com/wingbank/sidecar/service/ProxyService.java:58-59 | A backend error status would keep its status, message and body; anything else passes through. |
| Proxy.BackendBodyNeverKept | src/main/java/com/wingbank/sidecar/service/ProxyService.java:57-59 | The chained mappings always give ProxyFailed, which is its own root cause, so the backend's status and body are never kept. |
| Proxy.RateLimitReply | src/main/java/com/wingbank/sidecar/service/ProxyService.java:104-113 | The rate-limit answer is 429 with code `429` and the limitation message naming the service. |
| Proxy.CircuitBreakerReply | src/main/java/com/wingbank/sidecar/service/ProxyService.java:115-123 | The circuit-breaker answer is 503 with code `503` and `service <id> unavailable`. |
| Proxy.Proxy | src/main/java/com/wingbank/sidecar/service/ProxyService.java:47-69 | Under the guards: rate limited gives 429 and an open circuit gives 503. An answer is forwarded exactly when it is admitted and its status is not 4xx or 5xx. Every error status and every failed call gives 503. The id is SERVICE_ID, else the application name. |
| Proxy.Retrieve | src/main/java/com/wingbank/sidecar/service/ProxyService.java:55-56 | An error status becomes the response exception with that status and the body, or empty text. Any other answer passes unchanged. |
| Proxy.ErrorStatusLooksLikeFailure | src/main/java/com/wingbank/sidecar/service/ProxyService.java:55-59 | A 4xx or 5xx answer reaches the caller as the same 503 as a failed call. |
| Proxy.FailuresLookAlike | src/main/java/com/wingbank/sidecar/service/ProxyService.java:115-123 | Every failure of an admitted call gives the same 503 answer. |
| Proxy.EmptyServiceIdKept | src/main/java/com/wingbank/sidecar/service/ProxyService.java:106 | An empty SERVICE_ID is used as it is. |
| ErrorRendering.ErrorAttributes | src/main/java/com/wingbank/sidecar/security/CustomErrorAttribute.java:27-56 | Passes the backend body through exactly when the root cause carries JSON text. Otherwise the code is the status (default 400), with the message by precedence: token expiry, then connection refusal by error class, then 404 when the root cause is not a connection refusal, then the error's message. |
| ErrorRendering.CodeIsStatus | src/main/java/com/wingbank/sidecar/security/CustomErrorAttribute.java:38-53 | The code reads back as the status, since message rewriting never touches it. |
| ErrorRendering.ProxyErrorsNeverPassThrough | src/main/java/com/wingbank/sidecar/security/CustomErrorAttribute.java:33-37 | A failure mapped by the proxy is always rendered as an envelope. |
| ErrorRendering.WrappedBackendBodyPassesThrough | src/main/java/com/wingbank/sidecar/security/CustomErrorAttribute.java:32-36 | A wrapped backend JSON body still passes through, since the test looks at the root cause. |
| ErrorRendering.UnreachableProviderReported | src/main/java/com/wingbank/sidecar/security/CustomErrorAttribute.java:40-44 | An unreachable identity provider behind the delegate gives 'connection refused cannot validate access token, <id>'. |
| ErrorRendering.Commence | src/main/java/com/wingbank/sidecar/security/CustomAuthenticationEntryPoint.java:24-43 | The entry point answers 401 with JSON and code `A403`. The message is `token expired` on an expired token, else `unauthorized access <path>`. |
| ErrorRendering.HandleDenied | src/main/java/com/wingbank/sidecar/security/CustomAccessDeniedHandler.java:22-38 | The access-denied handler answers 403 with JSON, code `A403` and `access denied <path>`. |
| ErrorRendering.ExpiryReportedAlike | src/main/java/com/wingbank/sidecar/security/CustomErrorAttribute.java:47-48 | The entry point and the error attributes both say `token expired` for an expired token. |
| ErrorRendering.SecurityAnswersShareCode | src/main/java/com/wingbank/sidecar/security/CustomAuthenticationEntryPoint.java:34-38 | The 401 and 403 answers share the code `A403`. |
| EnvironmentCondition.Matches | src/main/java/com/jarvis/sidecar/condition/OnEnvironmentCondition.java:17-32 | True exactly when both lists are non-empty, the key is non-empty, and the variable is set to a non-empty string listed among the values. |
| EnvironmentCondition.EmptyHavingValueNeverMatches | src/main/java/com/jarvis/sidecar/condition/OnEnvironmentCondition.java:26-31 | An empty value list never enables. |
| EnvironmentCondition.LoggingOnlyWhenTrue | src/main/java/com/jarvis/sidecar/filter/LoggingFilter.java:33 | The logging filter exists exactly when ENABLE_LOG is `true`, matched case-sensitively. |
| Failures.RootCause | src/main/java/com/wingbank/sidecar/security/CustomErrorAttribute.java:32 | The root cause has no cause of its own, and a failure without a cause is its own root cause. |
| Failures.RootCauseThroughWrapper | src/main/java/com/wingbank/sidecar/security/CustomAuthenticationEntryPoint.java:27 | Wrapping a failure does not change its root cause. |
| Replies.Reject | src/main/java/com/jarvis/sidecar/filter/ServiceAccessFilter.java:104-116 | A rejection is JSON with the given status, and its envelope carries the code and message. |
## Left out

- Ant path matching (`AntPathMatcher`, `PathPatternParser`) is the parameter `matches`/`antMatches`. `Glob` is only a simple segment matcher that instantiates it in `Authorization.SegmentMatcherTail`.
- `HashSet` iteration order is a parameter (the rule sequence in visiting order). `PolicyTable.VisitingOrderDecides` shows that it matters.
- PolicyLoader.Load: a document that parses but holds a null rule, or a null inside a rule's endpoints, methods or roles, is not modelled. The source throws on it while sorting (`getOrder` on a null rule) or while configuring the chain (`applyAntPatterns`, `HttpMethod.valueOf(null)`, the null checks of `pathMatchers` and `hasAnyAuthority`), and each of these stops the configuration.
- ServerContext.BodyForLog: the `org.json` re-rendering of a logged body is the pair of parameters `asObject` and `asArray`. `None` stands for a body the library cannot parse, which is then logged as it is.
- JSON and YAML parsing of the policy file, and file I/O, are reduced to their outcomes. `PolicyLoader.Load` takes whether the file exists, whether it is a directory, and the parse result.
- Token decoding against the key set, and opaque-token introspection over HTTP, are the parameters `decoded` and `introspected`. SSL context, WebClient and JWK configuration are not modelled.
- Resilience4j is reduced to its observable decision: the `Gate` input says whether the call was admitted, rate-limited or short-circuited. Rate and time windows are not modelled.
- The backend call through WebClient, and `buildUrl` with `UriComponentsBuilder`, are not modelled. The call enters as its outcome (an `Upstream` response or a failure).
- Proxy.ExtractHeader: the authentication is whatever the thread-local `SecurityContextHolder` returns, taken as an input. The reactive security context that the filters populate is not consulted, and whether the thread-local holder is filled on the proxy's thread is not modelled.
- Proxy.Retrieve: the message of the framework's `WebClientResponseException` is not modelled. It is taken as absent, since the circuit breaker's fallback only logs it.
- Proxy.ExtractHeader: the `HEADER_CLAIM` variable is read but only logged, so it has no effect on the headers and is not modelled.
- Proxy.ExtractHeader: the headers are modelled as a value copy of the inbound `HttpHeaders`. The framework's read-only wrapper is not modelled.
- Logging itself (the log line is only built, never emitted), UUID generation, and the trace id from the tracing context are left out. The trace id is an input.
- Decorators.CaptureChunk: the UTF-8 decoding of buffers is not modelled. Chunks arrive as already decoded text, next to their bytes only where the request body is replayed.
- The request decorator's `getBodyString` is not modelled; no decision depends on it.
- ErrorRendering.ErrorAttributes: `HttpStatus.valueOf` on an unknown status code is not modelled. The status attribute is taken as given.
- ErrorRendering.ErrorAttributes: the parse failure (`JSONException`) of a passthrough body that starts with `{` but is not JSON is not modelled. The body is passed through.
- ErrorRendering.ErrorAttributes: the message of a `ResponseStatusException` is reduced to its reason.
- Authentication.Delegate: the constructor's null check of the wrapped manager is not modelled. Null managers do not exist in the model.
- `SecurityResourceService.getSecurities` returns a copy of the set. The model has no aliasing, so the copy is the value itself.
- URL encoding (`URLEncoder.encode`), URI parsing and multipart parsing are parameters or are given as already-parsed parts.
- SecurityEntity.StringHash: the hash runs over Unicode code points. Java's `String.hashCode` runs over UTF-16 code units, so the two differ for characters outside the Basic Multilingual Plane.
- LoggingFilter.TraceIdHeader: the trace id is taken as present. With no current span the source sets the header to a null value, which the header model cannot hold.
- Strings.ToLower: case folding is ASCII-only. `equalsIgnoreCase` on non-ASCII letters is not modelled.
- Claims hold a collection of strings, any other value as its `String.valueOf` text, or null. Null or non-string elements inside a collection are not modelled: the JWT converter's cast throws on a non-string element, and the delegate reports it as 401.
- The `ProxyFailedException` class of the wingbank variant is not part of this model. The jarvis copy of the class is used; both carry a message and an optional cause.
- The wingbank `ContextUtil` is not part of this model. The jarvis `ContextUtil` (trace id, application name defaulting to `sidecar`) is used.
- Spring configuration wiring (bean creation, property binding, the `ServerHttpSecurity` builder) is represented only by the results it produces: the route chain and the constructed filters.

=== FILE: authentication.dfy ===
/** Turning a validated token into an authentication: the role-claim
    converters of the JWT and opaque-token managers, and the delegating
    manager that turns every failure of the manager it wraps into a 401
    `AccessTokenFailedException`. Token decoding and introspection are
    calls to the identity provider and enter as their outcomes. */
module Authentication {
  import opened Wrappers
  import opened Strings
  import opened Identity
  import opened Failures

  /** The message of the framework's check that an authority has text. */
  const BlankAuthority := "A granted authority textual representation is required"

  /** The name of the claim holding the roles: `ROLE_CLAIM`, or `roles` when
      the variable is unset (an empty value is kept, and then refused by the
      converters). */
  function RoleClaimName(env: Option<string>): (name: string)
    ensures env.None? ==> name == "roles"
    ensures env.Some? ==> name == env.value
  {
    env.GetOr("roles")
  }

  /** A converter configured with its claim name. */
  datatype Converter = Converter(roleClaim: string)

  /** The converters' constructor check, shared by both converters. */
  function NewConverter(roleClaim: string): (r: Result<Converter, Failure>)
    ensures r.Success? <==> HasText(roleClaim)
    ensures r.Success? ==> r.value.roleClaim == roleClaim
    ensures r.Failure? ==> r.error == IllegalArgument("role claim cannot be null or empty")
  {
    if HasText(roleClaim) then Success(Converter(roleClaim))
    else Failure(IllegalArgument("role claim cannot be null or empty"))
  }

  /** Makes every name an authority, failing as `SimpleGrantedAuthority`
      does on one without text. */
  function Authorities(names: set<string>): (r: Result<set<string>, Failure>)
    ensures r.Success? <==> forall n | n in names :: HasText(n)
    ensures r.Success? ==> r.value == names
    ensures r.Failure? ==> r.error == IllegalArgument(BlankAuthority)
  {
    if forall n | n in names :: HasText(n) then Success(names)
    else Failure(IllegalArgument(BlankAuthority))
  }

  /** The role names the JWT converter reads from the claim: the elements
      of a collection, otherwise the comma-separated pieces of the value's
      string form (an absent or null claim reads as the string `null`). */
  function JwtRoleNames(c: Converter, claims: map<string, Claim>): (names: set<string>)
    ensures c.roleClaim in claims && claims[c.roleClaim].Items? ==>
              names == set x | x in claims[c.roleClaim].items
    ensures c.roleClaim !in claims ==> names == {"null"}
    ensures c.roleClaim in claims && !claims[c.roleClaim].Items? ==>
              names == CommaSet(ClaimText(claims[c.roleClaim]))
  {
    var value := if c.roleClaim in claims then claims[c.roleClaim] else NullValue;
    match value
    case Items(xs) => set x | x in xs
    case _ =>
      assert DelimitedList("null", ',') == ["null"];
      CommaSet(ClaimText(value))
  }

  /** `CustomJwtGrantedAuthoritiesConverter.convert`. */
  function JwtAuthorities(c: Converter, claims: map<string, Claim>): (r: Result<set<string>, Failure>)
    ensures r.Success? ==> r.value == JwtRoleNames(c, claims)
    ensures r.Success? <==> forall n | n in JwtRoleNames(c, claims) :: HasText(n)
  {
    Authorities(JwtRoleNames(c, claims))
  }

  /** A string claim gives exactly its comma-separated pieces as roles,
      untrimmed, and converts only when every piece has text (so `admin,`
      or `admin, user` give a blank piece or one with a leading space). */
  lemma StringClaimRoles(c: Converter, claims: map<string, Claim>, xs: seq<string>)
    requires c.roleClaim in claims && claims[c.roleClaim] == Text(Join(",", xs))
    requires |xs| > 0 && Join(",", xs) != ""
    requires forall i :: 0 <= i < |xs| ==> ',' !in xs[i]
    ensures JwtRoleNames(c, claims) == set x | x in xs
    ensures JwtAuthorities(c, claims).Success? <==> forall i :: 0 <= i < |xs| ==> HasText(xs[i])
    ensures JwtAuthorities(c, claims).Success? ==> JwtAuthorities(c, claims).value == set x | x in xs
  {
    CommaSetOfJoin(xs);
    assert JwtRoleNames(c, claims) == set x | x in xs;
    if forall n | n in JwtRoleNames(c, claims) :: HasText(n) {
      forall i | 0 <= i < |xs|
        ensures HasText(xs[i])
      {
        assert xs[i] in JwtRoleNames(c, claims);
      }
    }
  }

  lemma AdminUserPieces(text: string)
    requires text == "admin,user"
    ensures CommaSet(text) == {"admin", "user"}
    ensures forall n | n in CommaSet(text) :: HasText(n)
  {
    var xs := ["admin", "user"];
    assert Join(",", xs) == text by {
      assert Join(",", xs[1..]) == "user";
    }
    CommaSetOfJoin(xs);
    assert (set x | x in xs) == {"admin", "user"};
    forall n | n in {"admin", "user"}
      ensures HasText(n)
    {
      assert !IsWhitespace(n[0]);
    }
  }

  /** A comma-separated string claim gives its pieces as roles. */
  lemma StringRolesAreSplit(c: Converter, claims: map<string, Claim>)
    requires c.roleClaim in claims && claims[c.roleClaim] == Text("admin,user")
    ensures JwtAuthorities(c, claims) == Success({"admin", "user"})
  {
    var text := claims[c.roleClaim].text;
    AdminUserPieces(text);
    assert JwtRoleNames(c, claims) == CommaSet(text);
  }

  /** A token without the role claim is given the single authority `null`. */
  lemma MissingJwtClaimGivesNull(c: Converter, claims: map<string, Claim>)
    requires c.roleClaim !in claims
    ensures JwtAuthorities(c, claims) == Success({"null"})
  {
    assert !IsWhitespace("null"[0]);
  }

  /** The principal the opaque-token converter builds: the introspected
      claims, unchanged, and the authorities. */
  datatype Principal = Principal(claims: map<string, Claim>, authorities: set<string>)

  /** `CustomOpaqueTokenAuthenticationConverter.convert`: only a collection
      claim gives roles; an absent or non-collection claim gives none. */
  function OpaqueConvert(c: Converter, claims: map<string, Claim>): (r: Result<Principal, Failure>)
    ensures r.Success? ==> r.value.claims == claims
    ensures c.roleClaim !in claims || !claims[c.roleClaim].Items? ==> r == Success(Principal(claims, {}))
    ensures c.roleClaim in claims && claims[c.roleClaim].Items? ==>
              (r.Success? <==> forall x | x in claims[c.roleClaim].items :: HasText(x))
    ensures r.Success? && c.roleClaim in claims && claims[c.roleClaim].Items? ==>
              r.value.authorities == set x | x in claims[c.roleClaim].items
  {
    if c.roleClaim !in claims then Success(Principal(claims, {}))
    else match claims[c.roleClaim]
      case Items(xs) =>
        var auths :- Authorities(set x | x in xs);
        Success(Principal(claims, auths))
      case _ => Success(Principal(claims, {}))
  }

  /** Where the two converters differ: a string claim gives roles to a JWT
      but none to an introspected token. */
  lemma ConvertersDisagreeOnStrings(c: Converter, claims: map<string, Claim>)
    requires c.roleClaim in claims && claims[c.roleClaim] == Text("admin,user")
    ensures JwtAuthorities(c, claims) == Success({"admin", "user"})
    ensures OpaqueConvert(c, claims) == Success(Principal(claims, {}))
  {
    StringRolesAreSplit(c, claims);
  }

  /** The status and reason of the delegating manager's failure. */
  const Unauthorized := 401
  const UnauthorizedReason := "unauthorized access"

  /** `DelegateReactiveAuthenticationManager.authenticate`: success passes
      through unchanged and any failure is replaced by a 401 failure with
      the reason `unauthorized access` and the original as cause. */
  function Delegate(outcome: Result<Authentication, Failure>): (r: Result<Authentication, Failure>)
    ensures outcome.Success? ==> r == outcome
    ensures outcome.Failure? ==> r.Failure? && r.error.AccessTokenFailed?
    ensures outcome.Failure? ==> Message(r.error) == Some(UnauthorizedReason)
    ensures outcome.Failure? ==> Cause(r.error) == Some(outcome.error)
  {
    match outcome
    case Success(a) => Success(a)
    case Failure(e) => Failure(AccessTokenFailed(Unauthorized, UnauthorizedReason, Some(e)))
  }

  /** The delegating manager keeps the root cause the error renderers look
      at. */
  lemma DelegateKeepsRootCause(outcome: Result<Authentication, Failure>)
    requires outcome.Failure?
    ensures RootCause(Delegate(outcome).error) == RootCause(outcome.error)
  {
  }

  /** The JWT manager: `decoded` is the outcome of decoding and validating
      the token against the key set; the converter then supplies the
      authorities. */
  function AuthenticateJwt(c: Converter, decoded: Result<map<string, Claim>, Failure>): (r: Result<Authentication, Failure>)
    ensures r.Success? <==> decoded.Success? && JwtAuthorities(c, decoded.value).Success?
    ensures r.Success? ==> r.value == JwtToken(decoded.value, JwtAuthorities(c, decoded.value).value)
    ensures r.Failure? ==> r.error.AccessTokenFailed? && r.error.status == 401
  {
    var inner: Result<Authentication, Failure> :=
      match decoded
      case Failure(e) => Failure(e)
      case Success(claims) =>
        match JwtAuthorities(c, claims)
        case Failure(e) => Failure(e)
        case Success(auths) => Success(JwtToken(claims, auths));
    Delegate(inner)
  }

  /** The opaque-token manager: `introspected` is the outcome of the
      introspection call. */
  function AuthenticateOpaque(c: Converter, introspected: Result<map<string, Claim>, Failure>): (r: Result<Authentication, Failure>)
    ensures r.Success? <==> introspected.Success? && OpaqueConvert(c, introspected.value).Success?
    ensures r.Success? ==> r.value == BearerToken(introspected.value, OpaqueConvert(c, introspected.value).value.authorities)
    ensures r.Failure? ==> r.error.AccessTokenFailed? && r.error.status == 401
  {
    var inner: Result<Authentication, Failure> :=
      match introspected
      case Failure(e) => Failure(e)
      case Success(claims) =>
        match OpaqueConvert(c, claims)
        case Failure(e) => Failure(e)
        case Success(p) => Success(BearerToken(p.claims, p.authorities));
    Delegate(inner)
  }
}

=== FILE: authorization.dfy ===
/** The route authorization chain both security configurations build:
    the policy rules registered by `applyAntPatterns`, then a deny for the
    DELETE, PUT, PATCH, HEAD and TRACE methods on every path, then a permit
    for the excluded paths, then a deny for every other exchange. The
    first registered matcher that hits a request decides its access rule.

    Path patterns here are matched by the framework's pattern matcher,
    given as the parameter `matches`. HTTP methods are compared exactly:
    a rule declaring `get` never matches a GET request. */
module Authorization {
  import opened Wrappers
  import opened Strings
  import opened SecurityEntity
  import opened Identity
  import opened Failures
  import PolicyTable
  import PolicyLoader
  import Glob

  /** The access rules a registration can carry. */
  datatype Access =
    | PermitAll
    | DenyAll
    | Authenticated
    | HasAnyAuthority(roles: seq<string>)

  /** `pathMatchers(patterns)`, `pathMatchers(method, patterns)` and
      `anyExchange()`. */
  datatype RequestMatcher =
    | Paths(verb: Option<string>, patterns: seq<string>)
    | AnyExchange

  datatype Entry = Entry(matcher: RequestMatcher, access: Access)

  predicate Hits(m: RequestMatcher, path: string, verb: string, matches: (string, string) -> bool) {
    match m
    case AnyExchange => true
    case Paths(only, patterns) =>
      (only.None? || only.value == verb)
      && exists k | 0 <= k < |patterns| :: matches(patterns[k], path)
  }

  /** The position of the first registration whose matcher hits. */
  function FirstHit(chain: seq<Entry>, path: string, verb: string, matches: (string, string) -> bool): (i: Option<nat>)
    ensures i.Some? ==> i.value < |chain| && Hits(chain[i.value].matcher, path, verb, matches)
    ensures i.Some? ==> forall j :: 0 <= j < i.value ==> !Hits(chain[j].matcher, path, verb, matches)
    ensures i.None? ==> forall j :: 0 <= j < |chain| ==> !Hits(chain[j].matcher, path, verb, matches)
  {
    if |chain| == 0 then None
    else if Hits(chain[0].matcher, path, verb, matches) then Some(0)
    else match FirstHit(chain[1..], path, verb, matches)
      case None => None
      case Some(k) => Some(k + 1)
  }

  /** The access rule the chain applies to a request, if any registration hits. */
  function Decide(chain: seq<Entry>, path: string, verb: string, matches: (string, string) -> bool): Option<Access> {
    match FirstHit(chain, path, verb, matches)
    case None => None
    case Some(i) => Some(chain[i].access)
  }

  /** A prefix of the chain that decides nothing is passed over, and a prefix
      that decides something hides the rest. */
  lemma DecideAppend(a: seq<Entry>, b: seq<Entry>, path: string, verb: string, matches: (string, string) -> bool)
    ensures Decide(a + b, path, verb, matches)
            == if Decide(a, path, verb, matches).Some? then Decide(a, path, verb, matches)
               else Decide(b, path, verb, matches)
  {
    var ab := a + b;
    match FirstHit(a, path, verb, matches)
    case Some(i) =>
      assert ab[i] == a[i];
      assert forall j :: 0 <= j < i ==> ab[j] == a[j];
      assert FirstHit(ab, path, verb, matches) == Some(i);
    case None =>
      assert forall j :: 0 <= j < |a| ==> ab[j] == a[j];
      match FirstHit(b, path, verb, matches)
      case Some(i) =>
        assert ab[|a| + i] == b[i];
        assert forall j :: |a| <= j < |a| + i ==> ab[j] == b[j - |a|];
        assert FirstHit(ab, path, verb, matches) == Some(|a| + i);
      case None =>
        assert forall j :: |a| <= j < |ab| ==> ab[j] == b[j - |a|];
        assert FirstHit(ab, path, verb, matches).None?;
  }

  /** The access rule a policy rule registers: deny takes precedence over
      permit, permit over authenticated, and a rule with none of the three
      flags set requires one of its roles. A null flag counts as false. */
  function EffectOf(r: Rule): Access {
    if IsTrue(r.denyAll) then DenyAll
    else if IsTrue(r.permitAll) then PermitAll
    else if IsTrue(r.authenticated) then Authenticated
    else HasAnyAuthority(Roles(r))
  }

  /** One registration per declared method, each for all the rule's endpoints. */
  function MethodEntries(methods: seq<string>, endpoints: seq<string>, access: Access): (es: seq<Entry>)
    ensures |es| == |methods|
    ensures forall i :: 0 <= i < |es| ==> es[i] == Entry(Paths(Some(methods[i]), endpoints), access)
  {
    if |methods| == 0 then []
    else [Entry(Paths(Some(methods[0]), endpoints), access)] + MethodEntries(methods[1..], endpoints, access)
  }

  /** The registrations of one rule: a single method-less one when the rule
      declares no methods, otherwise one per declared method. */
  function RuleEntries(r: Rule): seq<Entry> {
    if |Methods(r)| == 0 then [Entry(Paths(None, Endpoints(r)), EffectOf(r))]
    else MethodEntries(Methods(r), Endpoints(r), EffectOf(r))
  }

  /** The registrations of all rules, in the order the rules are visited. */
  function AllRuleEntries(rules: seq<Rule>): seq<Entry> {
    if |rules| == 0 then [] else RuleEntries(rules[0]) + AllRuleEntries(rules[1..])
  }

  /** `applyAntPatterns`: with no rules, every path merely requires
      authentication; otherwise the rules' registrations. */
  function PolicyEntries(rules: seq<Rule>): seq<Entry> {
    if |rules| == 0 then [Entry(Paths(None, ["/**"]), Authenticated)]
    else AllRuleEntries(rules)
  }

  /** A rule applies to a request when one of its endpoints matches the path
      and it declares no methods or declares exactly the request's. */
  predicate Applies(r: Rule, path: string, verb: string, matches: (string, string) -> bool) {
    PolicyTable.Covers(r, path, matches) && (|Methods(r)| == 0 || verb in Methods(r))
  }

  /** The first rule, in visiting order, that applies to the request. */
  function FirstApplicable(rules: seq<Rule>, path: string, verb: string, matches: (string, string) -> bool): (i: Option<nat>)
    ensures i.Some? ==> i.value < |rules| && Applies(rules[i.value], path, verb, matches)
    ensures i.Some? ==> forall j :: 0 <= j < i.value ==> !Applies(rules[j], path, verb, matches)
    ensures i.None? ==> forall j :: 0 <= j < |rules| ==> !Applies(rules[j], path, verb, matches)
  {
    if |rules| == 0 then None
    else if Applies(rules[0], path, verb, matches) then Some(0)
    else match FirstApplicable(rules[1..], path, verb, matches)
      case None => None
      case Some(k) => Some(k + 1)
  }

  lemma {:induction false} MethodEntriesDecide(methods: seq<string>, endpoints: seq<string>, access: Access,
                                               path: string, verb: string, matches: (string, string) -> bool)
    ensures Decide(MethodEntries(methods, endpoints, access), path, verb, matches)
            == if verb in methods && (exists k | 0 <= k < |endpoints| :: matches(endpoints[k], path))
               then Some(access) else None
  {
    if |methods| > 0 {
      var head := [Entry(Paths(Some(methods[0]), endpoints), access)];
      MethodEntriesDecide(methods[1..], endpoints, access, path, verb, matches);
      DecideAppend(head, MethodEntries(methods[1..], endpoints, access), path, verb, matches);
      assert methods == [methods[0]] + methods[1..];
    }
  }

  /** The registrations of one rule decide a request exactly when the rule
      applies, and then with the rule's access. */
  lemma RuleEntriesDecide(r: Rule, path: string, verb: string, matches: (string, string) -> bool)
    ensures Decide(RuleEntries(r), path, verb, matches)
            == if Applies(r, path, verb, matches) then Some(EffectOf(r)) else None
  {
    if |Methods(r)| > 0 {
      MethodEntriesDecide(Methods(r), Endpoints(r), EffectOf(r), path, verb, matches);
    }
  }

  /** Registering rules one after another is the same as picking the first
      rule that applies: a rule whose methods exclude the request's is
      skipped and the search goes on to the next rule. */
  lemma {:induction false} PolicyDecidesByFirstApplicable(rules: seq<Rule>, path: string, verb: string,
                                                          matches: (string, string) -> bool)
    requires |rules| > 0
    ensures Decide(PolicyEntries(rules), path, verb, matches)
            == match FirstApplicable(rules, path, verb, matches)
               case None => None
               case Some(i) => Some(EffectOf(rules[i]))
  {
    AllRuleEntriesDecide(rules, path, verb, matches);
  }

  lemma {:induction false} AllRuleEntriesDecide(rules: seq<Rule>, path: string, verb: string,
                                                matches: (string, string) -> bool)
    ensures Decide(AllRuleEntries(rules), path, verb, matches)
            == match FirstApplicable(rules, path, verb, matches)
               case None => None
               case Some(i) => Some(EffectOf(rules[i]))
  {
    if |rules| > 0 {
      AllRuleEntriesDecide(rules[1..], path, verb, matches);
      RuleEntriesDecide(rules[0], path, verb, matches);
      DecideAppend(RuleEntries(rules[0]), AllRuleEntries(rules[1..]), path, verb, matches);
    }
  }

  /** The methods denied on every path once the policy has not decided. */
  const DeniedMethods: seq<string> := ["DELETE", "PUT", "PATCH", "HEAD", "TRACE"]

  /** The paths both service-scope filters exclude, permitted by the chain. */
  const ExcludedPaths: seq<string> := [
    "/actuator/**", "/index.html", "/index", "/favicon.ico",
    "/swagger/**", "/swagger-ui/**", "/swagger-ui.html", "/swagger-ui/index.html",
    "/swagger-resources/**", "/api-docs/service/**",
    "/v2/api-docs/**", "/v3/api-docs/**", "/webjars/**",
    "/configuration/security/**", "/configuration/ui/**",
    "/image/**", "/scss/**", "/css/**", "/js/**", "/zipkin/**", "/k8s/registry/list"]

  /** `pathMatchers(HttpMethod.X)` registers the pattern matching every path. */
  const MethodDenies: seq<Entry> := MethodEntries(DeniedMethods, ["/**"], DenyAll)

  const ExcludedPermit: Entry := Entry(Paths(None, ExcludedPaths), PermitAll)

  const CatchAll: Entry := Entry(AnyExchange, DenyAll)

  /** What the configurations register after the policy. */
  const StaticEntries: seq<Entry> := MethodDenies + [ExcludedPermit, CatchAll]

  /** The whole chain for the rules in the order they are registered (the
      hash-set order for jarvis, the sorted file order for wingbank). */
  function Chain(rules: seq<Rule>): seq<Entry> {
    PolicyEntries(rules) + StaticEntries
  }

  /** A registration the framework accepts: `pathMatchers` combines one
      matcher per pattern into an "or" matcher, which refuses an empty
      list, so a path registration needs at least one pattern. */
  predicate Accepted(e: Entry) {
    e.matcher.AnyExchange? || |e.matcher.patterns| > 0
  }

  predicate AllAccepted(chain: seq<Entry>) {
    forall i :: 0 <= i < |chain| ==> Accepted(chain[i])
  }

  /** The message of the framework's refusal. */
  const EmptyMatchers := "matchers cannot be empty"

  /** Why configuring the route chain stops: the loader failed, or the
      framework refused a registration. */
  datatype ConfigError = LoadFailed(cause: PolicyLoader.LoadError) | Refused(failure: Failure)

  lemma AllAcceptedAppend(a: seq<Entry>, b: seq<Entry>)
    ensures AllAccepted(a + b) <==> AllAccepted(a) && AllAccepted(b)
  {
    if AllAccepted(a + b) {
      forall i | 0 <= i < |a|
        ensures Accepted(a[i])
      {
        assert (a + b)[i] == a[i];
      }
      forall i | 0 <= i < |b|
        ensures Accepted(b[i])
      {
        assert (a + b)[|a| + i] == b[i];
      }
    }
  }

  /** The registrations of one rule are accepted exactly when the rule has
      an endpoint: every one of them carries all the rule's endpoints. */
  lemma RuleEntriesAccepted(r: Rule)
    ensures AllAccepted(RuleEntries(r)) <==> |Endpoints(r)| > 0
  {
    if |Methods(r)| > 0 {
      assert RuleEntries(r)[0].matcher.patterns == Endpoints(r);
    } else {
      assert RuleEntries(r)[0].matcher.patterns == Endpoints(r);
    }
  }

  lemma {:induction false} AllRuleEntriesAccepted(rules: seq<Rule>)
    ensures AllAccepted(AllRuleEntries(rules)) <==> forall i :: 0 <= i < |rules| ==> |Endpoints(rules[i])| > 0
  {
    if |rules| > 0 {
      AllRuleEntriesAccepted(rules[1..]);
      RuleEntriesAccepted(rules[0]);
      AllAcceptedAppend(RuleEntries(rules[0]), AllRuleEntries(rules[1..]));
      if forall i :: 0 <= i < |rules[1..]| ==> |Endpoints(rules[1..][i])| > 0 {
        if |Endpoints(rules[0])| > 0 {
          forall i | 0 <= i < |rules|
            ensures |Endpoints(rules[i])| > 0
          {
            if i > 0 { assert rules[i] == rules[1..][i - 1]; }
          }
        }
      }
    }
  }

  lemma StaticEntriesAccepted()
    ensures AllAccepted(StaticEntries)
  {
    AllAcceptedAppend(MethodDenies, [ExcludedPermit, CatchAll]);
  }

  /** The whole chain is accepted exactly when every rule has an endpoint;
      the default registration for every path and the static tail always are. */
  lemma {:induction false} ChainAccepted(rules: seq<Rule>)
    ensures AllAccepted(Chain(rules)) <==> forall i :: 0 <= i < |rules| ==> |Endpoints(rules[i])| > 0
  {
    StaticEntriesAccepted();
    AllAcceptedAppend(PolicyEntries(rules), StaticEntries);
    if |rules| > 0 {
      AllRuleEntriesAccepted(rules);
    } else {
      assert PolicyEntries(rules)[0].matcher.patterns == ["/**"];
    }
  }

  /** Building the chain as the framework does: the registrations are made
      one by one and the first one without patterns throws, which stops the
      whole configuration. */
  function ConfigureChain(rules: seq<Rule>): (r: Result<seq<Entry>, ConfigError>)
    ensures r.Success? <==> forall i :: 0 <= i < |rules| ==> |Endpoints(rules[i])| > 0
    ensures r.Success? ==> r.value == Chain(rules)
    ensures r.Failure? ==> r.error == Refused(IllegalArgument(EmptyMatchers))
  {
    ChainAccepted(rules);
    if AllAccepted(Chain(rules)) then Success(Chain(rules))
    else Failure(Refused(IllegalArgument(EmptyMatchers)))
  }

  /** The wingbank chain, built from what the loader returns in file order;
      a load failure or a rule without endpoints stops the configuration. */
  function WingbankChain(loaded: Result<seq<Rule>, PolicyLoader.LoadError>): (r: Result<seq<Entry>, ConfigError>)
    ensures loaded.Failure? ==> r == Failure(LoadFailed(loaded.error))
    ensures loaded.Success? ==>
              (r.Success? <==> forall i :: 0 <= i < |loaded.value| ==> |Endpoints(loaded.value[i])| > 0)
    ensures loaded.Success? && r.Failure? ==> r.error == Refused(IllegalArgument(EmptyMatchers))
    ensures r.Success? ==> |r.value| >= |StaticEntries| && r.value[..|r.value| - |StaticEntries|] == PolicyEntries(loaded.value)
  {
    match loaded
    case Failure(e) => Failure(LoadFailed(e))
    case Success(rules) =>
      var r := ConfigureChain(rules);
      if r.Success? then
        assert r.value[..|r.value| - |StaticEntries|] == PolicyEntries(rules);
        r
      else r
  }

  /** The jarvis chain: the constructor's table, visited in one of its
      possible hash-set orders `order`. */
  function JarvisChain(loaded: Result<seq<Rule>, PolicyLoader.LoadError>, order: seq<Rule>): (r: Result<seq<Entry>, ConfigError>)
    requires loaded.Success? ==> PolicyTable.Enumerates(order, PolicyTable.Build(loaded.value))
    ensures loaded.Failure? ==> r == Failure(LoadFailed(loaded.error))
    ensures loaded.Success? ==> (r.Success? <==> forall x :: x in order ==> |Endpoints(x)| > 0)
    ensures loaded.Success? && (forall i :: 0 <= i < |loaded.value| ==> |Endpoints(loaded.value[i])| > 0) ==> r.Success?
    ensures r.Success? ==> r.value == Chain(order)
  {
    match loaded
    case Failure(e) => Failure(LoadFailed(e))
    case Success(rules) =>
      assert forall x :: x in order ==> x in rules by {
        forall x | x in order
          ensures x in rules
        {
          assert x in multiset(order);
          assert x in multiset(PolicyTable.Build(rules).rules);
        }
      }
      ConfigureChain(order)
  }

  /** When the policy does not decide, the static tail does: the five methods
      are denied on every path, then the excluded paths are permitted, then
      everything else is denied. The chain always reaches a decision. */
  lemma StaticTailDecides(rules: seq<Rule>, path: string, verb: string, matches: (string, string) -> bool)
    requires Decide(PolicyEntries(rules), path, verb, matches).None?
    requires matches("/**", path)
    ensures verb in DeniedMethods ==> Decide(Chain(rules), path, verb, matches) == Some(DenyAll)
    ensures verb !in DeniedMethods && (exists k | 0 <= k < |ExcludedPaths| :: matches(ExcludedPaths[k], path))
            ==> Decide(Chain(rules), path, verb, matches) == Some(PermitAll)
    ensures verb !in DeniedMethods && (forall k | 0 <= k < |ExcludedPaths| :: !matches(ExcludedPaths[k], path))
            ==> Decide(Chain(rules), path, verb, matches) == Some(DenyAll)
  {
    DecideAppend(PolicyEntries(rules), StaticEntries, path, verb, matches);
    DecideAppend(MethodDenies, [ExcludedPermit, CatchAll], path, verb, matches);
    DecideAppend([ExcludedPermit], [CatchAll], path, verb, matches);
    MethodEntriesDecide(DeniedMethods, ["/**"], DenyAll, path, verb, matches);
    var all := ["/**"];
    assert matches(all[0], path);
    assert Hits(CatchAll.matcher, path, verb, matches);
  }

  /** Every request receives an access rule: the last registration matches
      any exchange. */
  lemma ChainAlwaysDecides(rules: seq<Rule>, path: string, verb: string, matches: (string, string) -> bool)
    ensures Decide(Chain(rules), path, verb, matches).Some?
  {
    DecideAppend(PolicyEntries(rules), StaticEntries, path, verb, matches);
    DecideAppend(MethodDenies, [ExcludedPermit, CatchAll], path, verb, matches);
    DecideAppend([ExcludedPermit], [CatchAll], path, verb, matches);
    assert Hits(CatchAll.matcher, path, verb, matches);
  }

  /** With an empty rule list, the catch-all authenticated registration comes
      first, so the static method denies and the excluded-path permits are
      never reached for any path it matches. */
  lemma EmptyPolicyShadowsTail(path: string, verb: string, matches: (string, string) -> bool)
    requires matches("/**", path)
    ensures Decide(Chain([]), path, verb, matches) == Some(Authenticated)
  {
    DecideAppend(PolicyEntries([]), StaticEntries, path, verb, matches);
    var all := ["/**"];
    assert matches(all[0], path);
    assert Hits(PolicyEntries([])[0].matcher, path, verb, matches);
  }

  /** With a segment matcher, under which the root double-star pattern
      covers every absolute path, the assumption of the two lemmas above
      holds: an empty policy requires authentication on every absolute
      path, and a denied method is refused on every absolute path the
      policy leaves undecided. */
  lemma SegmentMatcherTail(rules: seq<Rule>, path: string, verb: string)
    requires |path| > 0 && path[0] == '/'
    ensures Decide(Chain([]), path, verb, Glob.SegmentMatch) == Some(Authenticated)
    ensures Decide(PolicyEntries(rules), path, verb, Glob.SegmentMatch).None? && verb in DeniedMethods ==>
              Decide(Chain(rules), path, verb, Glob.SegmentMatch) == Some(DenyAll)
  {
    Glob.RootDoubleStarMatchesAll(path);
    EmptyPolicyShadowsTail(path, verb, Glob.SegmentMatch);
    if Decide(PolicyEntries(rules), path, verb, Glob.SegmentMatch).None? {
      StaticTailDecides(rules, path, verb, Glob.SegmentMatch);
    }
  }


  /** A rule granting a method the tail would deny overrides the tail,
      because rules are registered first. */
  lemma PolicyOverridesMethodDeny(r: Rule, rest: seq<Rule>, path: string, verb: string,
                                  matches: (string, string) -> bool)
    requires Applies(r, path, verb, matches)
    ensures Decide(Chain([r] + rest), path, verb, matches) == Some(EffectOf(r))
  {
    PolicyDecidesByFirstApplicable([r] + rest, path, verb, matches);
    assert ([r] + rest)[0] == r;
    DecideAppend(PolicyEntries([r] + rest), StaticEntries, path, verb, matches);
  }

  /** Whether an access rule lets an authentication through. The framework
      only counts an authentication that is present, so without one
      `Authenticated` and `HasAnyAuthority` refuse. */
  predicate Grants(access: Access, auth: Authentication) {
    match access
    case PermitAll => true
    case DenyAll => false
    case Authenticated => !auth.NoAuthentication?
    case HasAnyAuthority(roles) =>
      !auth.NoAuthentication? && exists k | 0 <= k < |roles| :: roles[k] in Authorities(auth)
  }

  /** A rule with no flags set and no roles admits nobody. */
  lemma NoRolesAdmitsNobody(r: Rule, auth: Authentication)
    requires !IsTrue(r.denyAll) && !IsTrue(r.permitAll) && !IsTrue(r.authenticated)
    requires |Roles(r)| == 0
    ensures !Grants(EffectOf(r), auth)
  {
  }

  /** Null flags register the same access rule as false ones. */
  lemma NullFlagsActAsFalse(r: Rule)
    ensures r.denyAll.None? ==> EffectOf(r) == EffectOf(r.(denyAll := Some(false)))
    ensures r.permitAll.None? ==> EffectOf(r) == EffectOf(r.(permitAll := Some(false)))
    ensures r.authenticated.None? ==> EffectOf(r) == EffectOf(r.(authenticated := Some(false)))
  {
  }

  /** What the chain does with a request: let it through, or refuse it. A
      refusal without an authentication goes to the entry point, one with an
      authentication to the access-denied handler. */
  datatype RouteOutcome = Proceed | Challenge | Forbid

  function Route(chain: seq<Entry>, path: string, verb: string, auth: Authentication,
                 matches: (string, string) -> bool): (o: RouteOutcome)
    ensures o == Proceed <==> Decide(chain, path, verb, matches).Some?
                              && Grants(Decide(chain, path, verb, matches).value, auth)
    ensures o == Challenge <==> o != Proceed && auth.NoAuthentication?
  {
    match Decide(chain, path, verb, matches)
    case Some(a) =>
      if Grants(a, auth) then Proceed
      else if auth.NoAuthentication? then Challenge
      else Forbid
    case None => if auth.NoAuthentication? then Challenge else Forbid
  }
}

=== FILE: decorators.dfy ===
/** The request and response decorators the logging filter installs
    (`AceServerHttpRequestDecorator`, `AceServerHttpResponseDecorator`): the
    request decorator replays the body already read and adjusts the framing
    headers to it; the response decorator forwards every chunk and keeps a
    copy of the JSON ones for the response's log line. Bytes are decoded as
    UTF-8 by the library; response chunks enter as their decoded text. */
module Decorators {
  import opened Wrappers
  import opened Strings
  import opened Http

  type Bytes = seq<bv8>

  /** The content types whose headers the request decorator leaves alone. */
  predicate KeepsFraming(contentType: Option<MediaType>) {
    IsCompatibleWith(ApplicationJson, contentType) || IsCompatibleWith(MultipartFormData, contentType)
  }

  /** The request decorator's `getHeaders`: a fresh copy of the request's
      headers, unchanged for JSON and multipart bodies; otherwise
      `Content-Length` set to the length of the body read, or
      `Transfer-Encoding: chunked` when the body was empty.
      `contentType` is the type the headers declare. */
  function RequestHeaders(original: Headers, contentType: Option<MediaType>, rawBody: Bytes): (r: Headers)
    ensures KeepsFraming(contentType) ==> r == original
    ensures !KeepsFraming(contentType) && |rawBody| > 0 ==>
              GetFirst(r, "Content-Length") == Some(NatToString(|rawBody|))
    ensures !KeepsFraming(contentType) && |rawBody| == 0 ==>
              GetFirst(r, "Transfer-Encoding") == Some("chunked")
    ensures forall other :: !EqualsIgnoreCase(other, "Content-Length") && !EqualsIgnoreCase(other, "Transfer-Encoding")
                            ==> GetFirst(r, other) == GetFirst(original, other)
    ensures !KeepsFraming(contentType) && |rawBody| > 0 ==>
              forall other :: !EqualsIgnoreCase(other, "Content-Length") ==> GetFirst(r, other) == GetFirst(original, other)
    ensures !KeepsFraming(contentType) && |rawBody| == 0 ==>
              forall other :: !EqualsIgnoreCase(other, "Transfer-Encoding") ==> GetFirst(r, other) == GetFirst(original, other)
    ensures !KeepsFraming(contentType) && |rawBody| > 0 ==>
              GetFirst(r, "Transfer-Encoding") == GetFirst(original, "Transfer-Encoding")
    ensures !KeepsFraming(contentType) && |rawBody| == 0 ==>
              GetFirst(r, "Content-Length") == GetFirst(original, "Content-Length")
  {
    FramingNamesDiffer("Content-Length", "Transfer-Encoding");
    FramingNamesDiffer("Transfer-Encoding", "Content-Length");
    if KeepsFraming(contentType) then original
    else if |rawBody| > 0 then
      var r := SetHeader(original, "Content-Length", NatToString(|rawBody|));
      SetHeaderSpec(original, "Content-Length", NatToString(|rawBody|), "Content-Length");
      assert forall other :: !EqualsIgnoreCase(other, "Content-Length") ==> GetFirst(r, other) == GetFirst(original, other) by {
        forall other ensures !EqualsIgnoreCase(other, "Content-Length") ==> GetFirst(r, other) == GetFirst(original, other) {
          SetHeaderSpec(original, "Content-Length", NatToString(|rawBody|), other);
        }
      }
      r
    else
      var r := SetHeader(original, "Transfer-Encoding", "chunked");
      SetHeaderSpec(original, "Transfer-Encoding", "chunked", "Transfer-Encoding");
      assert forall other :: !EqualsIgnoreCase(other, "Transfer-Encoding") ==> GetFirst(r, other) == GetFirst(original, other) by {
        forall other ensures !EqualsIgnoreCase(other, "Transfer-Encoding") ==> GetFirst(r, other) == GetFirst(original, other) {
          SetHeaderSpec(original, "Transfer-Encoding", "chunked", other);
        }
      }
      r
  }

  /** Names of different lengths never match, whatever their case. */
  lemma FramingNamesDiffer(a: string, b: string)
    requires |a| != |b|
    ensures !EqualsIgnoreCase(a, b)
  {
    assert |ToLower(a)| != |ToLower(b)|;
  }

  /** The declared length reads back as the number of bytes replayed. */
  lemma ContentLengthMatchesBody(original: Headers, contentType: Option<MediaType>, rawBody: Bytes)
    requires !KeepsFraming(contentType) && |rawBody| > 0
    ensures GetFirst(RequestHeaders(original, contentType, rawBody), "Content-Length").Some?
    ensures ParseNat(GetFirst(RequestHeaders(original, contentType, rawBody), "Content-Length").value) == |rawBody|
  {
    NatToStringRoundTrip(|rawBody|);
  }

  /** The request decorator's `getBody`: the captured bytes as one buffer
      when there are any, otherwise the original body's buffers. */
  function ReplayBody(rawBody: Bytes, original: seq<Bytes>): (r: seq<Bytes>)
    ensures |rawBody| > 0 ==> |r| == 1 && r[0] == rawBody
    ensures |rawBody| == 0 ==> r == original
  {
    if |rawBody| > 0 then [rawBody] else original
  }

  /** What the response decorator has kept: the captured text, the exchange
      attribute holding it, and the log record's response body. */
  datatype Capture = Capture(body: string, attribute: Option<string>, contextBody: Option<string>)

  const NoCapture := Capture("", None, None)

  /** `capture`: a chunk written while the response declares a JSON type
      is appended, and both the attribute and, when the logging record
      exists, its response body are set to everything captured so far;
      any other chunk changes nothing. */
  function CaptureChunk(c: Capture, contentType: Option<MediaType>, chunk: string, hasContext: bool): (r: Capture)
    ensures IsCompatibleWith(ApplicationJson, contentType) ==>
              r.body == c.body + chunk && r.attribute == Some(r.body)
              && r.contextBody == (if hasContext then Some(r.body) else c.contextBody)
    ensures !IsCompatibleWith(ApplicationJson, contentType) ==> r == c
  {
    if IsCompatibleWith(ApplicationJson, contentType) then
      var body := c.body + chunk;
      Capture(body, Some(body), if hasContext then Some(body) else c.contextBody)
    else c
  }

  /** A written chunk: the content type the response declares at the time,
      and the chunk's text. */
  type Chunk = (Option<MediaType>, string)

  /** `writeWith`: every chunk passes to the response unchanged, in order,
      and is offered to `capture` as it goes. */
  function WriteAll(c: Capture, chunks: seq<Chunk>, hasContext: bool): (r: (Capture, seq<string>))
    ensures |r.1| == |chunks|
  {
    if |chunks| == 0 then (c, [])
    else
      var before := WriteAll(c, chunks[..|chunks| - 1], hasContext);
      var last := chunks[|chunks| - 1];
      (CaptureChunk(before.0, last.0, last.1, hasContext), before.1 + [last.1])
  }

  /** The reference for the captured text: the JSON chunks' text, in order. */
  function JsonText(chunks: seq<Chunk>): string {
    if |chunks| == 0 then ""
    else
      var last := chunks[|chunks| - 1];
      JsonText(chunks[..|chunks| - 1]) + (if IsCompatibleWith(ApplicationJson, last.0) then last.1 else "")
  }

  predicate SomeJson(chunks: seq<Chunk>) {
    exists i :: 0 <= i < |chunks| && IsCompatibleWith(ApplicationJson, chunks[i].0)
  }

  /** After any sequence of writes the captured text is the JSON chunks'
      text, every chunk is forwarded as written, and once a JSON chunk has
      been written the attribute and the record hold the whole capture. */
  lemma {:induction false} WriteAllSpec(chunks: seq<Chunk>, hasContext: bool)
    ensures WriteAll(NoCapture, chunks, hasContext).0.body == JsonText(chunks)
    ensures forall i :: 0 <= i < |chunks| ==> WriteAll(NoCapture, chunks, hasContext).1[i] == chunks[i].1
    ensures SomeJson(chunks) ==>
              WriteAll(NoCapture, chunks, hasContext).0.attribute == Some(JsonText(chunks))
    ensures SomeJson(chunks) && hasContext ==>
              WriteAll(NoCapture, chunks, hasContext).0.contextBody == Some(JsonText(chunks))
    ensures !SomeJson(chunks) ==> WriteAll(NoCapture, chunks, hasContext).0 == NoCapture
  {
    if |chunks| > 0 {
      var init := chunks[..|chunks| - 1];
      var last := chunks[|chunks| - 1];
      WriteAllSpec(init, hasContext);
      if !IsCompatibleWith(ApplicationJson, last.0) {
        if SomeJson(chunks) {
          var i :| 0 <= i < |chunks| && IsCompatibleWith(ApplicationJson, chunks[i].0);
          assert init[i] == chunks[i];
        } else {
          assert !SomeJson(init) by {
            forall i | 0 <= i < |init| ensures !IsCompatibleWith(ApplicationJson, init[i].0) {
              assert init[i] == chunks[i];
            }
          }
        }
      } else {
        assert SomeJson(chunks) by { assert IsCompatibleWith(ApplicationJson, chunks[|chunks| - 1].0); }
      }
      forall i | 0 <= i < |chunks|
        ensures WriteAll(NoCapture, chunks, hasContext).1[i] == chunks[i].1
      {
        if i < |chunks| - 1 {
          assert init[i] == chunks[i];
        }
      }
    }
  }
}

=== FILE: environment_condition.dfy ===
/** The condition behind `@ConditionalOnEnvironment` (`OnEnvironmentCondition`
    of jarvis), which switches the logging filter and the jarvis
    service-scope filter on: the annotated component is created only when
    the named environment variable is set, non-empty, and equal to one of
    the accepted values. */
module EnvironmentCondition {
  import opened Wrappers

  /** The environment, as the variables that are set. */
  type Environment = map<string, string>

  /** The reference reading of the condition: the annotation gives a key
      and a value list, the key is not empty, and the variable is set to a
      non-empty string listed among the values. */
  predicate Enabled(keys: seq<string>, values: seq<seq<string>>, env: Environment) {
    |keys| > 0 && |values| > 0 && keys[0] != ""
    && keys[0] in env && env[keys[0]] != ""
    && exists i :: 0 <= i < |values[0]| && values[0][i] == env[keys[0]]
  }

  /** `matches`. `keys` and `values` are the annotation attribute lists
      the metadata returns (only the first element of each is read). */
  method Matches(keys: seq<string>, values: seq<seq<string>>, env: Environment) returns (r: bool)
    ensures r <==> Enabled(keys, values, env)
  {
    if |keys| == 0 || |values| == 0 {
      return false;
    }
    var key := keys[0];
    if key == "" {
      return false;
    }
    var properties := values[0];
    var i := 0;
    while i < |properties|
      invariant 0 <= i <= |properties|
      invariant forall j :: 0 <= j < i ==> !(key in env && env[key] != "" && env[key] == properties[j])
    {
      var current := if key in env then Some(env[key]) else None;
      if current.Some? && current.value != "" && current.value == properties[i] {
        return true;
      }
      i := i + 1;
    }
    return false;
  }

  /** With no accepted values nothing is ever enabled. */
  lemma EmptyHavingValueNeverMatches(keys: seq<string>, env: Environment)
    ensures !Enabled(keys, [[]], env)
  {
  }

  /** The logging filter's condition: `ENABLE_LOG` must be exactly `true`;
      `TRUE`, `yes` or an unset variable leave the filter out. */
  lemma LoggingOnlyWhenTrue(env: Environment)
    ensures Enabled(["ENABLE_LOG"], [["true"]], env) <==> "ENABLE_LOG" in env && env["ENABLE_LOG"] == "true"
  {
    if "ENABLE_LOG" in env && env["ENABLE_LOG"] == "true" {
      assert [["true"]][0][0] == env["ENABLE_LOG"];
    }
  }
}

=== FILE: error_rendering.dfy ===
/** How the wingbank service renders failures as the JSON error envelope:
    the error attributes behind every error the framework's error handler
    renders (`CustomErrorAttribute`), the entry point that answers a failed
    authentication (`CustomAuthenticationEntryPoint`), and the handler that
    answers a denied authorization (`CustomAccessDeniedHandler`). */
module ErrorRendering {
  import opened Wrappers
  import opened Strings
  import opened Http
  import opened Failures
  import opened Replies
  import opened Identity
  import ServiceAccess
  import Authentication
  import Proxy

  /** A token whose validation failed on its expiry: the root cause is a
      JWT validation failure whose message mentions `expired`. */
  predicate ExpiredToken(root: Failure) {
    root.JwtInvalid? && Contains(root.detail, "expired")
  }

  /** The backend's own JSON body carried by a proxy response failure,
      when it has text and opens with a brace. */
  predicate CarriesJson(root: Failure) {
    root.ProxyResponseFailed? && root.response.Some?
    && HasText(root.response.value) && StartsWith(root.response.value, "{")
  }

  /** What the error attributes turn into: the backend's JSON body as it
      is, or the sidecar's envelope. */
  datatype ErrorBody = Passthrough(json: string) | Rendered(envelope: Envelope)

  /** The message of the envelope, before the `token expired` override. */
  function BaseMessage(error: Failure, status: int, path: string, serviceId: string): Option<string> {
    if RootCause(error).ConnectRefused? then
      if error.ProxyFailed? then Some("connection refused to " + serviceId)
      else if error.AccessTokenFailed? then Some("connection refused cannot validate access token, " + serviceId)
      else Message(error)
    else if status == 404 then Some("API " + path + " not found")
    else Message(error)
  }

  /** `getErrorAttributes`. `statusAttr` is the status the framework's
      default attributes hold (400 when missing), `path` the request path
      they hold, `traceId` the current trace id. */
  function ErrorAttributes(error: Failure, statusAttr: Option<int>, path: string, serviceEnv: Option<string>,
                           appName: string, traceId: Option<string>): (r: ErrorBody)
    ensures r.Passthrough? <==> CarriesJson(RootCause(error))
    ensures r.Passthrough? ==> r.json == RootCause(error).response.value
    ensures r.Rendered? ==> r.envelope.code == IntToString(statusAttr.GetOr(400)) && r.envelope.traceId == traceId
    ensures (r.Rendered? && ExpiredToken(RootCause(error))) ==> r.envelope.message == Some("token expired")
    ensures (r.Rendered? && RootCause(error).ConnectRefused? && error.ProxyFailed?) ==>
              r.envelope.message == Some("connection refused to " + ServiceAccess.WingbankServiceId(serviceEnv, appName))
    ensures (r.Rendered? && RootCause(error).ConnectRefused? && error.AccessTokenFailed?) ==>
              r.envelope.message == Some("connection refused cannot validate access token, "
                                         + ServiceAccess.WingbankServiceId(serviceEnv, appName))
    ensures (r.Rendered? && !RootCause(error).ConnectRefused? && !ExpiredToken(RootCause(error))
             && statusAttr.GetOr(400) == 404) ==> r.envelope.message == Some("API " + path + " not found")
    ensures (r.Rendered? && !ExpiredToken(RootCause(error))
             && (statusAttr.GetOr(400) != 404 || RootCause(error).ConnectRefused?)
             && !(RootCause(error).ConnectRefused? && (error.ProxyFailed? || error.AccessTokenFailed?)))
            ==> r.envelope.message == Message(error)
  {
    var root := RootCause(error);
    if CarriesJson(root) then Passthrough(root.response.value)
    else
      var status := statusAttr.GetOr(400);
      var message := if ExpiredToken(root) then Some("token expired")
                     else BaseMessage(error, status, path, ServiceAccess.WingbankServiceId(serviceEnv, appName));
      Rendered(Envelope(IntToString(status), message, traceId))
  }

  /** The envelope's code reads back as the status. */
  lemma CodeIsStatus(error: Failure, status: nat, path: string, serviceEnv: Option<string>, appName: string,
                     traceId: Option<string>)
    requires !CarriesJson(RootCause(error))
    ensures ParseNat(ErrorAttributes(error, Some(status), path, serviceEnv, appName, traceId).envelope.code) == status
  {
    NatToStringRoundTrip(status);
  }

  /** A failed call through the proxy never renders the backend's body:
      the mapped failure is its own root cause and carries no response. */
  lemma ProxyErrorsNeverPassThrough(e: Failure, statusAttr: Option<int>, path: string, serviceEnv: Option<string>,
                                    appName: string, traceId: Option<string>)
    ensures ErrorAttributes(Proxy.MapCallError(e), statusAttr, path, serviceEnv, appName, traceId).Rendered?
  {
    Proxy.BackendBodyNeverKept(e);
  }

  /** A backend JSON body is passed through even when wrapped, since the
      test looks at the root cause. */
  lemma WrappedBackendBodyPassesThrough(status: int, message: Option<string>, json: string, statusAttr: Option<int>,
                                        path: string, serviceEnv: Option<string>, appName: string, traceId: Option<string>)
    requires HasText(json) && StartsWith(json, "{")
    ensures ErrorAttributes(Unclassified(None, Some(ProxyResponseFailed(status, message, Some(json)))),
                            statusAttr, path, serviceEnv, appName, traceId) == Passthrough(json)
  {
  }

  /** An identity provider that cannot be reached, behind the delegating
      manager, is reported as such, naming the service. */
  lemma UnreachableProviderReported(inner: Failure, statusAttr: Option<int>, path: string, serviceEnv: Option<string>,
                                    appName: string, traceId: Option<string>)
    requires RootCause(inner).ConnectRefused?
    ensures Authentication.Delegate(Failure(inner)).Failure?
    ensures ErrorAttributes(Authentication.Delegate(Failure(inner)).error, statusAttr, path, serviceEnv, appName, traceId)
            == Rendered(Envelope(IntToString(statusAttr.GetOr(400)),
                                 Some("connection refused cannot validate access token, "
                                      + ServiceAccess.WingbankServiceId(serviceEnv, appName)), traceId))
  {
    Authentication.DelegateKeepsRootCause(Failure(inner));
  }

  /** `commence`: a 401 answer with code `A403` naming the path, or saying
      `token expired` when the token's expiry was the root cause. */
  function Commence(path: string, ex: Failure, traceId: Option<string>): (r: Reply)
    ensures r.status == 401 && r.contentType == ApplicationJson && r.body.code == "A403" && r.body.traceId == traceId
    ensures ExpiredToken(RootCause(ex)) ==> r.body.message == Some("token expired")
    ensures !ExpiredToken(RootCause(ex)) ==> r.body.message == Some("unauthorized access " + path)
  {
    Reject(401, "A403", if ExpiredToken(RootCause(ex)) then "token expired" else "unauthorized access " + path, traceId)
  }

  /** `handle`: a 403 answer with code `A403` naming the path. */
  function HandleDenied(path: string, traceId: Option<string>): (r: Reply)
    ensures r.status == 403 && r.contentType == ApplicationJson && r.body.code == "A403" && r.body.traceId == traceId
    ensures r.body.message == Some("access denied " + path)
  {
    Reject(403, "A403", "access denied " + path, traceId)
  }

  /** The entry point and the error attributes agree on an expired token,
      wherever the failure surfaces. */
  lemma ExpiryReportedAlike(ex: Failure, path: string, statusAttr: Option<int>, serviceEnv: Option<string>,
                            appName: string, traceId: Option<string>)
    requires ExpiredToken(RootCause(ex))
    ensures ErrorAttributes(ex, statusAttr, path, serviceEnv, appName, traceId).envelope.message
            == Commence(path, ex, traceId).body.message
  {
  }

  /** The two security answers differ in status but share the code. */
  lemma SecurityAnswersShareCode(path: string, ex: Failure, traceId: Option<string>)
    ensures Commence(path, ex, traceId).body.code == HandleDenied(path, traceId).body.code
    ensures Commence(path, ex, traceId).status != HandleDenied(path, traceId).status
  {
  }
}

=== FILE: failures.dfy ===
/** The exceptions that travel through the sidecar's error paths, with the
    parts the error renderers inspect: the class, `getMessage`, the cause
    chain, and the extra fields of the two status exceptions. */
module Failures {
  import opened Wrappers

  datatype Failure =
      /** `java.net.ConnectException`. */
    | ConnectRefused(message: Option<string>)
      /** `JwtValidationException`, raised when a decoded token fails a check
          such as its expiry. */
    | JwtInvalid(detail: string)
      /** An `AuthenticationException` raised by a token manager, such as
          `InvalidBearerTokenException`. */
    | InvalidToken(detail: string, cause: Option<Failure>)
      /** `AccessTokenFailedException`; its `getMessage` is the reason. */
    | AccessTokenFailed(status: int, reason: string, cause: Option<Failure>)
      /** `ProxyFailedException`. */
    | ProxyFailed(message: Option<string>, cause: Option<Failure>)
      /** `ProxyResponseFailedException`, carrying the backend's body. */
    | ProxyResponseFailed(status: int, message: Option<string>, response: Option<string>)
      /** `WebClientResponseException`: the backend answered with an error status. */
    | BackendStatus(status: int, message: Option<string>, body: string)
      /** An `IllegalArgumentException` (a failed `Assert`) or
          `IndexOutOfBoundsException`, with its message. */
    | IllegalArgument(detail: string)
    | IndexOutOfBounds
      /** Any other exception. */
    | Unclassified(message: Option<string>, cause: Option<Failure>)

  /** `getMessage`. */
  function Message(f: Failure): Option<string> {
    match f
    case ConnectRefused(m) => m
    case JwtInvalid(m) => Some(m)
    case InvalidToken(m, _) => Some(m)
    case AccessTokenFailed(_, reason, _) => Some(reason)
    case ProxyFailed(m, _) => m
    case ProxyResponseFailed(_, m, _) => m
    case BackendStatus(_, m, _) => m
    case IllegalArgument(m) => Some(m)
    case IndexOutOfBounds => None
    case Unclassified(m, _) => m
  }

  /** `getCause`. */
  function Cause(f: Failure): (c: Option<Failure>)
    ensures c.Some? ==> c.value < f
  {
    match f
    case InvalidToken(_, c) => c
    case AccessTokenFailed(_, _, c) => c
    case ProxyFailed(_, c) => c
    case Unclassified(_, c) => c
    case _ => None
  }

  /** `ExceptionUtils.getRootCause`: the last exception of the cause chain,
      which is the exception itself when it has no cause. */
  function RootCause(f: Failure): (r: Failure)
    ensures Cause(r).None?
    ensures Cause(f).None? ==> r == f
    decreases f
  {
    match Cause(f)
    case None => f
    case Some(c) => RootCause(c)
  }

  /** Wrapping does not change the root cause. */
  lemma RootCauseThroughWrapper(f: Failure)
    requires Cause(f).Some?
    ensures RootCause(f) == RootCause(Cause(f).value)
  {
  }
}

=== FILE: glob.dfy ===
/** A concrete path-glob matcher, used to instantiate the matcher parameter
    of the route chain (`Authorization.SegmentMatcherTail`): patterns and paths are
    split at `/`, `*` matches exactly one segment, `**` any number of segments
    (none included), any other pattern segment only itself. */
module Glob {
  import opened Strings

  function Segments(path: string): seq<string> {
    SplitAll(path, '/')
  }

  predicate SegmentsMatch(ps: seq<string>, ss: seq<string>)
    decreases |ps| + |ss|
  {
    if |ps| == 0 then |ss| == 0
    else if ps[0] == "**" then
      SegmentsMatch(ps[1..], ss) || (|ss| > 0 && SegmentsMatch(ps, ss[1..]))
    else
      |ss| > 0 && (ps[0] == "*" || ps[0] == ss[0]) && SegmentsMatch(ps[1..], ss[1..])
  }

  /** The matcher: does `pattern` match `path`? */
  predicate SegmentMatch(pattern: string, path: string) {
    SegmentsMatch(Segments(pattern), Segments(path))
  }

  /** A trailing `**` absorbs any remaining segments. */
  lemma {:induction false} DoubleStarAbsorbs(ss: seq<string>)
    ensures SegmentsMatch(["**"], ss)
  {
    if |ss| > 0 {
      DoubleStarAbsorbs(ss[1..]);
    } else {
      assert SegmentsMatch(["**"][1..], ss);
    }
  }

  /** The root double-star pattern matches every absolute path. */
  lemma RootDoubleStarMatchesAll(path: string)
    requires |path| > 0 && path[0] == '/'
    ensures SegmentMatch("/**", path)
  {
    var pat := "/**";
    assert '/' in pat && IndexOf(pat, '/') == 0;
    assert pat[1..] == "**";
    assert '/' !in pat[1..];
    assert Segments(pat) == ["", "**"];
    assert IndexOf(path, '/') == 0;
    var ss := Segments(path);
    assert ss == [""] + SplitAll(path[1..], '/');
    DoubleStarAbsorbs(ss[1..]);
  }
}

=== FILE: http.dfy ===
/** HTTP vocabulary shared by the filters: header multimaps with
    case-insensitive names (Spring `HttpHeaders`), media types with the
    `isCompatibleWith` test, and the request methods. */
module Http {
  import opened Wrappers
  import opened Strings

  /** Header entries in insertion order; names compare ignoring case. */
  type Headers = seq<(string, seq<string>)>

  /** Position of the first entry whose name equals `name` ignoring case. */
  function FindHeader(h: Headers, name: string): (i: Option<nat>)
    ensures i.Some? ==> i.value < |h| && EqualsIgnoreCase(h[i.value].0, name)
    ensures i.Some? ==> forall j :: 0 <= j < i.value ==> !EqualsIgnoreCase(h[j].0, name)
    ensures i.None? ==> forall j :: 0 <= j < |h| ==> !EqualsIgnoreCase(h[j].0, name)
  {
    if |h| == 0 then None
    else if EqualsIgnoreCase(h[0].0, name) then Some(0)
    else match FindHeader(h[1..], name)
      case None => None
      case Some(k) => Some(k + 1)
  }

  /** `HttpHeaders.getFirst`: the first value of the named header, or null. */
  function GetFirst(h: Headers, name: string): Option<string> {
    match FindHeader(h, name)
    case None => None
    case Some(i) => if |h[i].1| > 0 then Some(h[i].1[0]) else None
  }

  /** Every entry whose name differs (ignoring case) from `name`, in order. */
  function RemoveHeader(h: Headers, name: string): (r: Headers)
    ensures forall j :: 0 <= j < |r| ==> !EqualsIgnoreCase(r[j].0, name)
    ensures forall j :: 0 <= j < |r| ==> r[j] in h
  {
    if |h| == 0 then []
    else if EqualsIgnoreCase(h[0].0, name) then RemoveHeader(h[1..], name)
    else [h[0]] + RemoveHeader(h[1..], name)
  }

  /** Removing one name leaves the lookup of every other name unchanged. */
  lemma {:induction false} RemoveHeaderKeepsOthers(h: Headers, name: string, other: string)
    requires !EqualsIgnoreCase(other, name)
    ensures GetFirst(RemoveHeader(h, name), other) == GetFirst(h, other)
  {
    if |h| > 0 {
      RemoveHeaderKeepsOthers(h[1..], name, other);
      if EqualsIgnoreCase(h[0].0, name) {
        assert !EqualsIgnoreCase(h[0].0, other);
      } else {
        var r := RemoveHeader(h, name);
        assert r == [h[0]] + RemoveHeader(h[1..], name);
        assert r[1..] == RemoveHeader(h[1..], name);
      }
    }
  }

  /** `HttpHeaders.set`: the named header afterwards holds exactly `value`. */
  function SetHeader(h: Headers, name: string, value: string): Headers {
    RemoveHeader(h, name) + [(name, [value])]
  }

  /** Looking up a name after appending an entry with another name is unaffected. */
  lemma {:induction false} GetFirstAppendOther(h: Headers, e: (string, seq<string>), other: string)
    requires !EqualsIgnoreCase(e.0, other)
    ensures GetFirst(h + [e], other) == GetFirst(h, other)
  {
    if |h| > 0 {
      assert (h + [e])[1..] == h[1..] + [e];
      GetFirstAppendOther(h[1..], e, other);
    }
  }

  /** Looking up a name absent from `h` finds the appended entry. */
  lemma {:induction false} GetFirstAppendSame(h: Headers, name: string, values: seq<string>)
    requires forall j :: 0 <= j < |h| ==> !EqualsIgnoreCase(h[j].0, name)
    requires |values| > 0
    ensures GetFirst(h + [(name, values)], name) == Some(values[0])
  {
    if |h| > 0 {
      assert (h + [(name, values)])[1..] == h[1..] + [(name, values)];
      GetFirstAppendSame(h[1..], name, values);
    }
  }

  /** After `set`, the header reads as the value set and every other header
      reads as before. */
  lemma SetHeaderSpec(h: Headers, name: string, value: string, other: string)
    ensures GetFirst(SetHeader(h, name, value), name) == Some(value)
    ensures !EqualsIgnoreCase(other, name) ==>
              GetFirst(SetHeader(h, name, value), other) == GetFirst(h, other)
  {
    GetFirstAppendSame(RemoveHeader(h, name), name, [value]);
    if !EqualsIgnoreCase(other, name) {
      GetFirstAppendOther(RemoveHeader(h, name), (name, [value]), other);
      RemoveHeaderKeepsOthers(h, name, other);
    }
  }

  /** `HttpHeaders.add`: appends `value` to the named header, creating the
      header at the end when it is absent. */
  function AddHeader(h: Headers, name: string, value: string): (r: Headers)
    ensures |r| == |h| || r == h + [(name, [value])]
    ensures forall j :: 0 <= j < |h| ==> r[j].0 == h[j].0 && h[j].1 <= r[j].1
  {
    match FindHeader(h, name)
    case Some(i) => h[i := (h[i].0, h[i].1 + [value])]
    case None => h + [(name, [value])]
  }

  /** The lookup only looks at the names. */
  lemma {:induction false} FindHeaderByNames(h: Headers, g: Headers, name: string)
    requires |h| == |g|
    requires forall j :: 0 <= j < |h| ==> h[j].0 == g[j].0
    ensures FindHeader(h, name) == FindHeader(g, name)
  {
    if |h| > 0 {
      FindHeaderByNames(h[1..], g[1..], name);
    }
  }

  /** After `add`, a header that was absent reads as the value added, one
      that had a value still reads as that first value, and every header
      with another name reads as before. */
  lemma AddHeaderSpec(h: Headers, name: string, value: string, other: string)
    ensures FindHeader(h, name).None? ==> GetFirst(AddHeader(h, name, value), name) == Some(value)
    ensures GetFirst(h, name).Some? ==> GetFirst(AddHeader(h, name, value), name) == GetFirst(h, name)
    ensures !EqualsIgnoreCase(other, name) ==>
              GetFirst(AddHeader(h, name, value), other) == GetFirst(h, other)
  {
    var r := AddHeader(h, name, value);
    match FindHeader(h, name)
    case None =>
      GetFirstAppendSame(h, name, [value]);
      if !EqualsIgnoreCase(other, name) {
        GetFirstAppendOther(h, (name, [value]), other);
      }
    case Some(i) =>
      FindHeaderByNames(h, r, other);
      FindHeaderByNames(h, r, name);
  }

  /** `MediaType`: a type and a subtype, both already lower-cased. */
  datatype MediaType = MediaType(kind: string, subtype: string)

  const ApplicationJson := MediaType("application", "json")
  const FormUrlEncoded := MediaType("application", "x-www-form-urlencoded")
  const MultipartFormData := MediaType("multipart", "form-data")

  predicate IsWildcardSubtype(m: MediaType) {
    m.subtype == "*" || (|m.subtype| >= 2 && m.subtype[0] == '*' && m.subtype[1] == '+')
  }

  /** The part of the subtype after its last `+`, as `getSubtypeSuffix` gives it. */
  function SubtypeSuffix(m: MediaType): Option<string> {
    if '+' in m.subtype then
      var parts := SplitAll(m.subtype, '+');
      Some(parts[|parts| - 1])
    else None
  }

  /** `MimeType.isCompatibleWith`: never with a missing type; always when
      either side is a wildcard type; otherwise the types must agree and the
      subtypes must agree, be `*`, or be a `*+suffix` wildcard naming the
      other's subtype or suffix. */
  predicate IsCompatibleWith(m: MediaType, other: Option<MediaType>) {
    match other
    case None => false
    case Some(o) =>
      if m.kind == "*" || o.kind == "*" then true
      else if m.kind != o.kind then false
      else if m.subtype == o.subtype then true
      else if !(IsWildcardSubtype(m) || IsWildcardSubtype(o)) then false
      else if m.subtype == "*" || o.subtype == "*" then true
      else if IsWildcardSubtype(m) && SubtypeSuffix(m).Some? then
        SubtypeSuffix(m).value == o.subtype || SubtypeSuffix(m) == SubtypeSuffix(o)
      else if IsWildcardSubtype(o) && SubtypeSuffix(o).Some? then
        m.subtype == SubtypeSuffix(o).value || SubtypeSuffix(o) == SubtypeSuffix(m)
      else false
  }

  /** A media type is compatible with itself and never with a missing one. */
  lemma CompatibleReflexive(m: MediaType)
    ensures IsCompatibleWith(m, Some(m))
    ensures !IsCompatibleWith(m, None)
  {
  }

  /** The all-types wildcard is compatible with every fixed media type, so a
      request declaring it takes the first branch checked. */
  lemma WildcardCompatibleWithAll(m: MediaType)
    ensures IsCompatibleWith(m, Some(MediaType("*", "*")))
  {
  }

  /** The three fixed types the filters dispatch on are mutually incompatible. */
  lemma FixedTypesDistinct()
    ensures !IsCompatibleWith(ApplicationJson, Some(FormUrlEncoded))
    ensures !IsCompatibleWith(ApplicationJson, Some(MultipartFormData))
    ensures !IsCompatibleWith(FormUrlEncoded, Some(MultipartFormData))
  {
  }
}

=== FILE: identity.dfy ===
/** What the security context holds once authentication has run: a JWT or
    bearer-token authentication carrying token attributes and granted
    authorities, some other authentication, or nothing. Anonymous
    authentication is disabled, so "nothing" is what an unauthenticated
    request has; the service-scope filter substitutes its own anonymous
    token for it. */
module Identity {
  import opened Wrappers
  import opened Strings

  /** A token attribute value as the filters and converters inspect it:
      a `Collection` of strings, any other non-null value (kept as its
      `String.valueOf` rendering), or a present null. */
  datatype Claim =
    | Items(items: seq<string>)
    | Text(text: string)
    | NullValue

  datatype Authentication =
    | NoAuthentication
    | JwtToken(attributes: map<string, Claim>, authorities: set<string>)
    | BearerToken(attributes: map<string, Claim>, authorities: set<string>)
    | OtherAuthentication(authorities: set<string>)

  /** The token attributes the service-scope filter reads: those of a JWT or
      bearer-token authentication, an empty map for any other. */
  function TokenAttributes(a: Authentication): (m: map<string, Claim>)
    ensures a.JwtToken? || a.BearerToken? ==> m == a.attributes
    ensures a.NoAuthentication? || a.OtherAuthentication? ==> m == map[]
  {
    match a
    case JwtToken(attrs, _) => attrs
    case BearerToken(attrs, _) => attrs
    case _ => map[]
  }

  /** The granted authorities; none without an authentication. */
  function Authorities(a: Authentication): set<string> {
    match a
    case NoAuthentication => {}
    case JwtToken(_, auths) => auths
    case BearerToken(_, auths) => auths
    case OtherAuthentication(auths) => auths
  }

  /** `String.valueOf` of a claim value. */
  function ClaimText(c: Claim): string {
    match c
    case Items(xs) => ListToString(xs)
    case Text(t) => t
    case NullValue => "null"
  }
}

=== FILE: logging_filter.dfy ===
/** The audit-logging filter (`LoggingFilter`, active when `ENABLE_LOG` is
    `true`): which paths are logged, the query string it records and
    re-encodes into the forwarded URI, the form and multipart parameters
    it reads from the body, and the content-type dispatch that decides what
    the request's log line shows. URL encoding, the path matcher, URI
    syntax checking and multipart parsing are library calls and enter as
    parameters. */
module LoggingFilter {
  import opened Wrappers
  import opened Strings
  import opened Http
  import opened Failures
  import opened ServerContext

  /** The paths never logged. The actuator pattern is listed twice; the filter puts
      the list in a set, which changes nothing for the test. */
  const LogExcludedPaths: seq<string> :=
    ["/swagger-ui.html", "/v2/api-docs/**", "/swagger/**",
     "/webjars/**", "/v3/api-docs/**", "/swagger-resources/**",
     "/configuration/security/**", "/swagger-ui/index.html",
     "/configuration/ui/**", "/swagger-ui/**",
     "/css/**", "/oauth/check_token", "/identity/oauth/check_token",
     "/js/**", "/favicon.ico", "/actuator/**",
     "/api-docs/service/**", "/image/**", "/scss/**", "/actuator/**", "/"]

  /** `shouldLog`: no excluded pattern matches the path. */
  predicate ShouldLog(path: string, matches: (string, string) -> bool) {
    forall k :: 0 <= k < |LogExcludedPaths| ==> !matches(LogExcludedPaths[k], path)
  }

  /** The root path and the token-check endpoints are never logged, for any
      matcher that matches a pattern without wildcards against itself. */
  lemma QuietPaths(matches: (string, string) -> bool, path: string)
    requires forall p :: '*' !in p ==> matches(p, p)
    requires path == "/" || path == "/oauth/check_token" || path == "/identity/oauth/check_token"
    ensures !ShouldLog(path, matches)
  {
    var k := if path == "/" then 20 else if path == "/oauth/check_token" then 11 else 12;
    assert LogExcludedPaths[k] == path;
    NotLoggedAt(matches, k);
  }

  /** An excluded pattern without wildcards is itself never logged. */
  lemma NotLoggedAt(matches: (string, string) -> bool, k: nat)
    requires forall p :: '*' !in p ==> matches(p, p)
    requires k < |LogExcludedPaths| && '*' !in LogExcludedPaths[k]
    ensures !ShouldLog(LogExcludedPaths[k], matches)
  {
  }

  /** `PARAM_FORMAT` without its trailing `&`: `key=value`. */
  function Pair(key: string, value: string): string {
    key + "=" + value
  }

  function Verbatim(v: string): string {
    v
  }

  /** The `key=value` texts of `pairs`, values passed through `enc`. */
  function Rendered(pairs: seq<(string, string)>, enc: string -> string): (r: seq<string>)
    ensures |r| == |pairs|
    ensures forall i :: 0 <= i < |pairs| ==> r[i] == Pair(pairs[i].0, enc(pairs[i].1))
  {
    seq(|pairs|, i requires 0 <= i < |pairs| => Pair(pairs[i].0, enc(pairs[i].1)))
  }

  lemma RenderedSnoc(pairs: seq<(string, string)>, x: (string, string), enc: string -> string)
    ensures Rendered(pairs + [x], enc) == Rendered(pairs, enc) + [Pair(x.0, enc(x.1))]
  {
  }

  /** The query parameters as the request holds them: each key with its
      values, in the map's iteration order. */
  type Params = seq<(string, seq<string>)>

  /** The pairs one key contributes: its values that have text, in order. */
  function EntryPairs(key: string, values: seq<string>): seq<(string, string)> {
    if |values| == 0 then []
    else
      var last := values[|values| - 1];
      EntryPairs(key, values[..|values| - 1]) + (if HasText(last) then [(key, last)] else [])
  }

  /** A key contributes exactly the pairs of itself with one of its values
      that has text. */
  lemma {:induction false} EntryPairsMembers(key: string, values: seq<string>)
    ensures forall p :: p in EntryPairs(key, values) <==> p.0 == key && p.1 in values && HasText(p.1)
  {
    if |values| > 0 {
      var init := values[..|values| - 1];
      EntryPairsMembers(key, init);
      assert values == init + [values[|values| - 1]];
    }
  }

  /** All pairs of the query, entry by entry. */
  function QueryPairs(params: Params): seq<(string, string)> {
    if |params| == 0 then []
    else
      var last := params[|params| - 1];
      QueryPairs(params[..|params| - 1]) + EntryPairs(last.0, last.1)
  }

  /** The pairs are exactly the key/value combinations of the parameters
      whose value has text. */
  lemma {:induction false} QueryPairsMembers(params: Params)
    ensures forall p :: p in QueryPairs(params) <==>
              HasText(p.1) && exists e :: e in params && e.0 == p.0 && p.1 in e.1
  {
    if |params| > 0 {
      var init := params[..|params| - 1];
      var last := params[|params| - 1];
      QueryPairsMembers(init);
      EntryPairsMembers(last.0, last.1);
      assert params == init + [last];
      forall p | p in QueryPairs(params)
        ensures HasText(p.1) && exists e :: e in params && e.0 == p.0 && p.1 in e.1
      {
        if p !in QueryPairs(init) {
          assert last in params;
        }
      }
      forall p: (string, string) | HasText(p.1) && exists e :: e in params && e.0 == p.0 && p.1 in e.1
        ensures p in QueryPairs(params)
      {
        var e :| e in params && e.0 == p.0 && p.1 in e.1;
        if e != last {
          assert e in init;
        }
      }
    }
  }

  /** What `getQueryParam` produces: nothing for a request without query
      parameters, otherwise the raw and the URL-encoded query. */
  datatype QueryParam = NoQuery | Query(raw: string, encoded: string)

  /** The query as the joined pairs, raw and encoded; a request whose
      parameters all lack text has no pairs, and the source then fails
      cutting the last character of an empty builder. */
  function QueryParamOf(params: Params, encode: string -> string): (r: Result<QueryParam, Failure>)
    ensures |params| == 0 ==> r == Success(NoQuery)
    ensures |params| > 0 && |QueryPairs(params)| == 0 ==> r == Failure(IndexOutOfBounds)
  {
    if |params| == 0 then Success(NoQuery)
    else if |QueryPairs(params)| == 0 then Failure(IndexOutOfBounds)
    else Success(Query(Join("&", Rendered(QueryPairs(params), Verbatim)),
                       Join("&", Rendered(QueryPairs(params), encode))))
  }

  lemma BuilderStep(pairs: seq<(string, string)>, key: string, value: string, enc: string -> string)
    ensures Terminated("&", Rendered(pairs + [(key, value)], enc))
            == Terminated("&", Rendered(pairs, enc)) + key + "=" + enc(value) + "&"
  {
    RenderedSnoc(pairs, (key, value), enc);
    TerminatedSnoc("&", Rendered(pairs, enc), Pair(key, enc(value)));
  }

  /** Cutting the last character of a builder holding the terminated pairs:
      a failure for an empty builder, the joined pairs otherwise. */
  function CutLast(builder: string): Result<string, Failure> {
    if |builder| == 0 then Failure(IndexOutOfBounds) else Success(builder[..|builder| - 1])
  }

  lemma CutTerminated(pairs: seq<(string, string)>, enc: string -> string)
    ensures |pairs| == 0 ==> CutLast(Terminated("&", Rendered(pairs, enc))) == Failure(IndexOutOfBounds)
    ensures |pairs| > 0 ==> CutLast(Terminated("&", Rendered(pairs, enc))) == Success(Join("&", Rendered(pairs, enc)))
  {
    if |pairs| > 0 {
      TerminatedIsJoin("&", Rendered(pairs, enc));
    }
  }

  /** The inner loop of `getQueryParam`: one key's values with text added
      to both builders. */
  method AppendEntry(key: string, values: seq<string>, encode: string -> string, raw: string, encoded: string,
                     ghost pairs: seq<(string, string)>)
    returns (raw': string, encoded': string)
    requires raw == Terminated("&", Rendered(pairs, Verbatim))
    requires encoded == Terminated("&", Rendered(pairs, encode))
    ensures raw' == Terminated("&", Rendered(pairs + EntryPairs(key, values), Verbatim))
    ensures encoded' == Terminated("&", Rendered(pairs + EntryPairs(key, values), encode))
  {
    raw', encoded' := raw, encoded;
    ghost var done := pairs;
    var j := 0;
    assert pairs + EntryPairs(key, values[..0]) == pairs;
    while j < |values|
      invariant 0 <= j <= |values|
      invariant done == pairs + EntryPairs(key, values[..j])
      invariant raw' == Terminated("&", Rendered(done, Verbatim))
      invariant encoded' == Terminated("&", Rendered(done, encode))
    {
      assert values[..j + 1][..j] == values[..j];
      if HasText(values[j]) {
        BuilderStep(done, key, values[j], Verbatim);
        BuilderStep(done, key, values[j], encode);
        raw' := raw' + key + "=" + values[j] + "&";
        encoded' := encoded' + key + "=" + encode(values[j]) + "&";
        done := done + [(key, values[j])];
      }
      j := j + 1;
    }
    assert values[..j] == values;
  }

  /** `getQueryParam`, as the source writes it: both builders gain
      `key=value&` for every value with text, and the last character of each
      is then cut. The result is the joined form `QueryParamOf` states. */
  method GetQueryParam(params: Params, encode: string -> string) returns (r: Result<QueryParam, Failure>)
    ensures r == QueryParamOf(params, encode)
  {
    if |params| == 0 {
      return Success(NoQuery);
    }
    var raw := "";
    var encoded := "";
    ghost var pairs: seq<(string, string)> := [];
    var i := 0;
    while i < |params|
      invariant 0 <= i <= |params|
      invariant pairs == QueryPairs(params[..i])
      invariant raw == Terminated("&", Rendered(pairs, Verbatim))
      invariant encoded == Terminated("&", Rendered(pairs, encode))
    {
      raw, encoded := AppendEntry(params[i].0, params[i].1, encode, raw, encoded, pairs);
      assert params[..i + 1][..i] == params[..i];
      pairs := pairs + EntryPairs(params[i].0, params[i].1);
      i := i + 1;
    }
    assert params[..i] == params;
    CutTerminated(pairs, Verbatim);
    CutTerminated(pairs, encode);
    var rawCut := CutLast(raw);
    var encodedCut := CutLast(encoded);
    if rawCut.Failure? {
      return Failure(IndexOutOfBounds);
    }
    r := Success(Query(rawCut.value, encodedCut.value));
  }

  /** A query whose only parameter is empty (`?y=`) makes the source fail. */
  lemma BlankQueryFails(encode: string -> string)
    ensures QueryParamOf([("y", [""])], encode) == Failure(IndexOutOfBounds)
  {
    var params: Params := [("y", [""])];
    assert params[..0] == [];
    assert !HasText("");
    assert EntryPairs("y", [""]) == [];
  }

  /** The raw and encoded queries agree when encoding changes nothing, and
      the raw query splits back at `&` into the `key=value` pairs when no key
      or value contains `&`. */
  lemma RawQueryRoundTrip(params: Params, encode: string -> string)
    requires |params| > 0 && |QueryPairs(params)| > 0
    requires forall e, v :: e in params && v in e.1 ==> '&' !in e.0 && '&' !in v
    ensures SplitAll(QueryParamOf(params, encode).value.raw, '&') == Rendered(QueryPairs(params), Verbatim)
    ensures (forall v :: encode(v) == v) ==> QueryParamOf(params, encode).value.encoded == QueryParamOf(params, encode).value.raw
  {
    var pairs := QueryPairs(params);
    var pieces := Rendered(pairs, Verbatim);
    QueryPairsMembers(params);
    forall i | 0 <= i < |pieces|
      ensures '&' !in pieces[i]
    {
      var p := pairs[i];
      assert p in pairs;
      assert pieces[i] == p.0 + "=" + p.1;
    }
    JoinSplitAll(pieces, '&');
    if forall v :: encode(v) == v {
      assert Rendered(pairs, encode) == pieces;
    }
  }

  /** A multi-valued map in insertion order (`LinkedMultiValueMap`), keys
      compared exactly. */
  type MultiMap = seq<(string, seq<string>)>

  function FindKey(m: MultiMap, k: string): (i: Option<nat>)
    ensures i.Some? ==> i.value < |m| && m[i.value].0 == k && forall j :: 0 <= j < i.value ==> m[j].0 != k
    ensures i.None? ==> forall j :: 0 <= j < |m| ==> m[j].0 != k
  {
    if |m| == 0 then None
    else if m[0].0 == k then Some(0)
    else match FindKey(m[1..], k)
      case None => None
      case Some(j) => Some(j + 1)
  }

  /** `get`: the values under `k`, none when the key is absent. */
  function Lookup(m: MultiMap, k: string): seq<string> {
    match FindKey(m, k)
    case None => []
    case Some(i) => m[i].1
  }

  predicate DistinctKeys(m: MultiMap) {
    forall i, j :: 0 <= i < j < |m| ==> m[i].0 != m[j].0
  }

  /** `computeIfAbsent(k, new list).add(v)`. */
  function AddValue(m: MultiMap, k: string, v: string): (r: MultiMap)
    ensures DistinctKeys(m) ==> DistinctKeys(r)
    ensures forall k' :: Lookup(r, k') == Lookup(m, k') + (if k' == k then [v] else [])
  {
    match FindKey(m, k)
    case Some(i) =>
      var r := m[i := (k, m[i].1 + [v])];
      assert forall k' :: FindKey(r, k') == FindKey(m, k') by {
        forall k' ensures FindKey(r, k') == FindKey(m, k') {
          SameKeysSameFind(m, r, k');
        }
      }
      r
    case None =>
      var r := m + [(k, [v])];
      assert forall k' :: k' != k ==> FindKey(r, k') == FindKey(m, k') by {
        forall k' | k' != k ensures FindKey(r, k') == FindKey(m, k') {
          FindKeyAppend(m, (k, [v]), k');
        }
      }
      FindKeyAppend(m, (k, [v]), k);
      r
  }

  lemma {:induction false} SameKeysSameFind(m: MultiMap, r: MultiMap, k: string)
    requires |m| == |r| && forall j :: 0 <= j < |m| ==> m[j].0 == r[j].0
    ensures FindKey(r, k) == FindKey(m, k)
  {
    if |m| > 0 {
      SameKeysSameFind(m[1..], r[1..], k);
    }
  }

  lemma {:induction false} FindKeyAppend(m: MultiMap, e: (string, seq<string>), k: string)
    ensures FindKey(m, k).Some? ==> FindKey(m + [e], k) == FindKey(m, k)
    ensures FindKey(m, k).None? && e.0 == k ==> FindKey(m + [e], k) == Some(|m|)
    ensures FindKey(m, k).None? && e.0 != k ==> FindKey(m + [e], k).None?
  {
    if |m| > 0 {
      assert (m + [e])[1..] == m[1..] + [e];
      FindKeyAppend(m[1..], e, k);
    }
  }

  /** A body segment `buildParameter` keeps: it contains `=` and splits at
      `=` into at least two pieces (so `b=` and `=` are dropped). */
  predicate Kept(segment: string) {
    '=' in segment && |JavaSplit(segment, '=')| > 1
  }

  function KeyOf(segment: string): string
    requires Kept(segment)
  {
    JavaSplit(segment, '=')[0]
  }

  /** The text between the first and second `=`. */
  function ValueOf(segment: string): string
    requires Kept(segment)
  {
    JavaSplit(segment, '=')[1]
  }

  /** The map built from the segments, one kept segment at a time. */
  function Collect(segments: seq<string>): (m: MultiMap)
    ensures DistinctKeys(m)
  {
    if |segments| == 0 then []
    else
      var m := Collect(segments[..|segments| - 1]);
      var last := segments[|segments| - 1];
      if Kept(last) then AddValue(m, KeyOf(last), ValueOf(last)) else m
  }

  /** What one segment gives the key `k`: its value when it is kept under
      `k`, nothing otherwise. */
  function Contribution(segment: string, k: string): seq<string> {
    if Kept(segment) && KeyOf(segment) == k then [ValueOf(segment)] else []
  }

  /** The reference reading: the values of the kept segments whose key is
      `k`, in body order. */
  function ValuesFor(segments: seq<string>, k: string): seq<string> {
    if |segments| == 0 then []
    else ValuesFor(segments[..|segments| - 1], k) + Contribution(segments[|segments| - 1], k)
  }

  lemma {:induction false} CollectLookup(segments: seq<string>, k: string)
    ensures Lookup(Collect(segments), k) == ValuesFor(segments, k)
  {
    if |segments| > 0 {
      CollectLookup(segments[..|segments| - 1], k);
    }
  }

  /** `buildParameter`: the form body split at `&`, each kept segment adding
      its value under its key; a body without text gives the empty map. */
  function BuildParameter(body: string): (m: MultiMap)
    ensures DistinctKeys(m)
    ensures !HasText(body) ==> m == []
    ensures HasText(body) ==> forall k :: Lookup(m, k) == ValuesFor(JavaSplit(body, '&'), k)
  {
    if HasText(body) then
      var m := Collect(JavaSplit(body, '&'));
      assert forall k :: Lookup(m, k) == ValuesFor(JavaSplit(body, '&'), k) by {
        forall k ensures Lookup(m, k) == ValuesFor(JavaSplit(body, '&'), k) {
          CollectLookup(JavaSplit(body, '&'), k);
        }
      }
      m
    else []
  }

  /** A segment `k=v` with one `=` and a non-empty value is kept as `v`
      under `k`. */
  lemma KeptSegment(k: string, v: string)
    requires '=' !in k && '=' !in v && v != ""
    ensures Kept(k + "=" + v) && KeyOf(k + "=" + v) == k && ValueOf(k + "=" + v) == v
  {
    var s := k + "=" + v;
    assert s[..|k|] == k && s[|k| + 1..] == v;
    SplitAllOnce(s, '=', |k|);
  }

  /** A segment `k=` with an empty value is dropped. */
  lemma EmptyValueDropped(k: string)
    requires '=' !in k
    ensures !Kept(k + "=")
  {
    var s := k + "=";
    assert s[..|k|] == k && s[|k| + 1..] == "";
    SplitAllOnce(s, '=', |k|);
    assert DropTrailingEmpty([k, ""]) == DropTrailingEmpty([k]);
  }

  lemma ExampleSegments()
    ensures JavaSplit("a=1&b=2&b=", '&') == ["a=1", "b=2", "b="]
  {
    var segments := ["a=1", "b=2", "b="];
    assert Join("&", segments) == "a=1&b=2&b=";
    JoinSplitAll(segments, '&');
  }

  lemma ValuesForSnoc(segments: seq<string>, last: string, k: string)
    ensures ValuesFor(segments + [last], k) == ValuesFor(segments, k) + Contribution(last, k)
  {
    assert (segments + [last])[..|segments|] == segments;
  }

  /** The values three segments give a key, from what each segment holds. */
  lemma ValuesForThree(s1: string, s2: string, s3: string, k: string)
    ensures ValuesFor([s1, s2, s3], k) == Contribution(s1, k) + Contribution(s2, k) + Contribution(s3, k)
  {
    var one, two, three := [s1], [s1, s2], [s1, s2, s3];
    assert ValuesFor(one, k) == Contribution(s1, k) by {
      assert one[..0] == [];
    }
    assert ValuesFor(two, k) == ValuesFor(one, k) + Contribution(s2, k) by {
      assert two[..1] == one;
    }
    assert ValuesFor(three, k) == ValuesFor(two, k) + Contribution(s3, k) by {
      assert three[..2] == two;
    }
  }

  /** What a segment `k=v` with a non-empty value gives a key. */
  lemma KeptContribution(k: string, v: string, key: string)
    requires '=' !in k && '=' !in v && v != ""
    ensures Contribution(k + "=" + v, key) == if k == key then [v] else []
  {
    KeptSegment(k, v);
  }

  /** The values `a=x&b=y&b=` gives its two keys. */
  lemma FormBodyValues(a: string, b: string, x: string, y: string, segments: seq<string>)
    requires '=' !in a && '=' !in b && '=' !in x && '=' !in y
    requires x != "" && y != "" && a != b
    requires |segments| == 3
    requires segments[0] == a + "=" + x && segments[1] == b + "=" + y && segments[2] == b + "="
    ensures ValuesFor(segments, a) == [x]
    ensures ValuesFor(segments, b) == [y]
  {
    var s1, s2, s3 := a + "=" + x, b + "=" + y, b + "=";
    assert segments == [s1, s2, s3];
    assert ValuesFor(segments, a) == Contribution(s1, a) + Contribution(s2, a) + Contribution(s3, a) by {
      ValuesForThree(s1, s2, s3, a);
    }
    assert ValuesFor(segments, b) == Contribution(s1, b) + Contribution(s2, b) + Contribution(s3, b) by {
      ValuesForThree(s1, s2, s3, b);
    }
    assert Contribution(s1, a) == [x] by {
      KeptContribution(a, x, a);
    }
    assert Contribution(s1, b) == [] by {
      KeptContribution(a, x, b);
    }
    assert Contribution(s2, a) == [] by {
      KeptContribution(b, y, a);
    }
    assert Contribution(s2, b) == [y] by {
      KeptContribution(b, y, b);
    }
    assert Contribution(s3, a) == [] && Contribution(s3, b) == [] by {
      EmptyValueDropped(b);
    }
  }

  /** `a=1&b=2&b=` reads as `a` with `1` and `b` with `2`: the trailing
      `b=` is dropped. */
  lemma FormBodyExample(body: string)
    requires body == "a=1&b=2&b="
    ensures Lookup(BuildParameter(body), "a") == ["1"]
    ensures Lookup(BuildParameter(body), "b") == ["2"]
  {
    var segments := ["a=1", "b=2", "b="];
    assert HasText(body) by {
      assert !IsWhitespace(body[0]);
    }
    assert JavaSplit(body, '&') == segments by {
      ExampleSegments();
    }
    ExampleValues(segments);
  }

  lemma ExampleValues(segments: seq<string>)
    requires segments == ["a=1", "b=2", "b="]
    ensures ValuesFor(segments, "a") == ["1"] && ValuesFor(segments, "b") == ["2"]
  {
    assert segments[0] == "a" + "=" + "1";
    assert segments[1] == "b" + "=" + "2";
    assert segments[2] == "b" + "=";
    FormBodyValues("a", "b", "1", "2", segments);
  }

  /** `buildQueryParamURI`: when both the request's raw query and the encoded
      query have text, the URI's text up to its first `?`, then `?` and the
      encoded query, provided that parses as a URI; otherwise the URI as it
      was. Everything after the first `?`, a fragment included, is replaced.
      A URI text made only of `?` leaves no piece to take, which the source
      does not catch. */
  function RebuildUri(uri: string, rawQuery: Option<string>, queryParam: string, parses: string -> bool): (r: Result<string, Failure>)
    ensures !(OptHasText(rawQuery) && HasText(queryParam)) ==> r == Success(uri)
    ensures r.Success? && r.value != uri ==>
              parses(r.value) && |JavaSplit(uri, '?')| > 0 && r.value == JavaSplit(uri, '?')[0] + "?" + queryParam
  {
    if !(OptHasText(rawQuery) && HasText(queryParam)) then Success(uri)
    else
      var pieces := JavaSplit(uri, '?');
      if |pieces| == 0 then Failure(IndexOutOfBounds)
      else
        var rebuilt := pieces[0] + "?" + queryParam;
        if parses(rebuilt) then Success(rebuilt) else Success(uri)
  }

  /** A URI `base?rest` is forwarded as `base?` and the encoded query. */
  lemma QueryReplaced(base: string, rest: string, rawQuery: string, queryParam: string, parses: string -> bool)
    requires base != "" && '?' !in base
    requires HasText(rawQuery) && HasText(queryParam)
    requires parses(base + "?" + queryParam)
    ensures RebuildUri(base + "?" + rest, Some(rawQuery), queryParam, parses) == Success(base + "?" + queryParam)
  {
    var uri := base + "?" + rest;
    assert uri[..|base|] == base;
    IndexOfAt(uri, '?', |base|);
    JavaSplitHead(uri, '?');
  }

  /** A part of a multipart body. */
  datatype Part =
    | FilePart(name: string, filename: string)
    | FieldPart(name: string, value: string)
    | OtherPart(name: string)

  /** The `name=value` pairs of the field parts, in order, empty values
      included. */
  function FieldPairs(parts: seq<Part>): (r: seq<(string, string)>)
    ensures forall i :: 0 <= i < |r| ==> exists p :: p in parts && p.FieldPart? && r[i] == (p.name, p.value)
    ensures |r| == 0 <==> forall p :: p in parts ==> !p.FieldPart?
  {
    if |parts| == 0 then []
    else
      var last := parts[|parts| - 1];
      assert forall p :: p in parts ==> p in parts[..|parts| - 1] || p == last;
      FieldPairs(parts[..|parts| - 1]) + (if last.FieldPart? then [(last.name, last.value)] else [])
  }

  /** The file names of the file parts, in order. */
  function FileNames(parts: seq<Part>): seq<string> {
    if |parts| == 0 then []
    else
      var last := parts[|parts| - 1];
      FileNames(parts[..|parts| - 1]) + (if last.FilePart? then [last.filename] else [])
  }

  /** `decorateMultipartData`: the fields as a `&`-joined parameter string,
      and the file names as a list string, or null without files. A body
      without field parts fails at the cut of the empty builder. */
  function MultipartSummary(parts: seq<Part>): (r: Result<(string, Option<string>), Failure>)
    ensures r.Success? <==> exists p :: p in parts && p.FieldPart?
    ensures r.Success? ==> r.value.0 == Join("&", Rendered(FieldPairs(parts), Verbatim))
    ensures r.Success? ==> (r.value.1.None? <==> |FileNames(parts)| == 0)
    ensures r.Success? && |FileNames(parts)| > 0 ==> r.value.1 == Some(ListToString(FileNames(parts)))
  {
    var builder := Terminated("&", Rendered(FieldPairs(parts), Verbatim));
    CutTerminated(FieldPairs(parts), Verbatim);
    match CutLast(builder)
    case Failure(e) => Failure(e)
    case Success(fields) =>
      var files := FileNames(parts);
      Success((fields, if |files| == 0 then None else Some(ListToString(files))))
  }

  /** An upload of files alone makes the source fail. */
  lemma FilesOnlyUploadFails(name: string, filename: string)
    ensures MultipartSummary([FilePart(name, filename)]).Failure?
  {
    assert forall p :: p in [FilePart(name, filename)] ==> !p.FieldPart?;
  }

  /** `decorate`: what the request's body contributes to the record, by the
      first of JSON, form and multipart that the content type is compatible
      with. JSON bodies are kept verbatim, form bodies appended to the
      parameter, multipart bodies summarised; other bodies are not kept. */
  function Record(c: Context, contentType: Option<MediaType>, body: string, parts: seq<Part>): (r: Result<Context, Failure>)
    ensures IsCompatibleWith(ApplicationJson, contentType) ==> r == Success(c.(requestBody := body))
    ensures !IsCompatibleWith(ApplicationJson, contentType) && IsCompatibleWith(FormUrlEncoded, contentType) ==>
              r == Success(c.(parameter := AppendParameter(c.parameter, body)))
    ensures (!IsCompatibleWith(ApplicationJson, contentType) && !IsCompatibleWith(FormUrlEncoded, contentType)
             && IsCompatibleWith(MultipartFormData, contentType)) ==>
              (r.Success? <==> MultipartSummary(parts).Success?)
    ensures (!IsCompatibleWith(ApplicationJson, contentType) && !IsCompatibleWith(FormUrlEncoded, contentType)
             && IsCompatibleWith(MultipartFormData, contentType) && r.Success?) ==>
              r.value == c.(parameter := AppendParameter(c.parameter, MultipartSummary(parts).value.0),
                            file := MultipartSummary(parts).value.1)
    ensures (!IsCompatibleWith(ApplicationJson, contentType) && !IsCompatibleWith(FormUrlEncoded, contentType)
             && IsCompatibleWith(MultipartFormData, contentType) && r.Failure?) ==>
              r.error == MultipartSummary(parts).error
    ensures (!IsCompatibleWith(ApplicationJson, contentType) && !IsCompatibleWith(FormUrlEncoded, contentType)
             && !IsCompatibleWith(MultipartFormData, contentType)) ==> r == Success(c)
  {
    if IsCompatibleWith(ApplicationJson, contentType) then Success(c.(requestBody := body))
    else if IsCompatibleWith(FormUrlEncoded, contentType) then Success(c.(parameter := AppendParameter(c.parameter, body)))
    else if IsCompatibleWith(MultipartFormData, contentType) then
      match MultipartSummary(parts)
      case Failure(e) => Failure(e)
      case Success(summary) =>
        Success(c.(parameter := AppendParameter(c.parameter, summary.0), file := summary.1))
    else Success(c)
  }

  /** A request declaring the all-types wildcard is taken for JSON. */
  lemma WildcardTakenForJson(c: Context, body: string, parts: seq<Part>)
    ensures Record(c, Some(MediaType("*", "*")), body, parts) == Success(c.(requestBody := body))
  {
  }

  /** `filter` stamps the response with the trace id: afterwards
      `trace-id` reads as that id, whatever the response held before, and
      every other response header reads as before. */
  function TraceIdHeader(response: Headers, traceId: string): (r: Headers)
    ensures GetFirst(r, "trace-id") == Some(traceId)
    ensures forall other :: !EqualsIgnoreCase(other, "trace-id") ==> GetFirst(r, other) == GetFirst(response, other)
  {
    var r := SetHeader(response, "trace-id", traceId);
    forall other ensures !EqualsIgnoreCase(other, "trace-id") ==> GetFirst(r, other) == GetFirst(response, other) {
      SetHeaderSpec(response, "trace-id", traceId, other);
    }
    SetHeaderSpec(response, "trace-id", traceId, "");
    r
  }

  /** The state the filter hands on: the record, whether to log, and the
      encoded query. */
  datatype Prepared = Prepared(context: Context, shouldLog: bool, queryParam: string)

  /** `filter` up to the request line: build the record, decide on logging,
      record the query (its raw form appended to the parameter first), then
      the body. */
  function Prepare(uuid: string, headers: Headers, remoteHost: Option<string>, verb: string, path: string,
                   params: Params, encode: string -> string, contentType: Option<MediaType>, body: string,
                   parts: seq<Part>, matches: (string, string) -> bool): (r: Result<Prepared, Failure>)
    ensures QueryParamOf(params, encode).Failure? ==> r.Failure?
    ensures r.Success? ==> r.value.shouldLog == ShouldLog(path, matches)
    ensures r.Success? ==> r.value.context.ip == ClientIp(headers, remoteHost)
  {
    var c := NewContext(uuid, headers, remoteHost, verb, path);
    var q :- QueryParamOf(params, encode);
    var (withQuery, encoded) :=
      match q
      case NoQuery => (c, "")
      case Query(raw, enc) => (c.(parameter := AppendParameter(c.parameter, raw)), enc);
    var recorded :- Record(withQuery, contentType, body, parts);
    Success(Prepared(recorded, ShouldLog(path, matches), encoded))
  }

  /** For a form post the parameter reads as the raw query, `&`, and the
      body, each part present only when non-empty. */
  lemma FormParameterFollowsQuery(uuid: string, headers: Headers, remoteHost: Option<string>, verb: string, path: string,
                                  params: Params, encode: string -> string, body: string, parts: seq<Part>,
                                  matches: (string, string) -> bool)
    requires QueryParamOf(params, encode).Success? && QueryParamOf(params, encode).value.Query?
    ensures Prepare(uuid, headers, remoteHost, verb, path, params, encode, Some(FormUrlEncoded), body, parts, matches)
            == Success(Prepared(NewContext(uuid, headers, remoteHost, verb, path).(
                  parameter := AppendAll([QueryParamOf(params, encode).value.raw, body])),
                ShouldLog(path, matches), QueryParamOf(params, encode).value.encoded))
  {
    FixedTypesDistinct();
    CompatibleReflexive(FormUrlEncoded);
    var raw := QueryParamOf(params, encode).value.raw;
    assert [raw, body][..1] == [raw];
    assert AppendAll([raw]) == AppendParameter("", raw);
  }
}

=== FILE: policy_loader.dfy ===
/** Loading the rule list named by the `SECURITY_CONFIG` environment variable
    (`loadSecurityEntity`, identical in both services): no variable means no
    rules, a missing file or a directory and an unreadable document are
    fatal, and a loaded list is sorted by `order` with a stable sort. */
module PolicyLoader {
  import opened Wrappers
  import opened Strings
  import opened SecurityEntity

  /** What the JSON reader makes of the file's contents. */
  datatype Parsed =
    | Malformed          // the reader throws
    | NullDocument       // the document is the literal `null`; sorting it throws
    | Rules(rules: seq<Rule>)

  /** What the file system holds at the configured path. */
  datatype ConfigFile = Missing | Directory | Readable(contents: Parsed)

  /** The cause wrapped in the `IllegalStateException` the loader throws. */
  datatype LoadError =
    | FileNotFound(message: string)
    | Unreadable

  /** `Comparator.comparingInt(getOrder)` is total on `int`; the list is
      sorted when the orders never decrease. */
  predicate SortedByOrder(s: seq<Rule>) {
    forall i, j :: 0 <= i < j < |s| ==> s[i].order <= s[j].order
  }

  /** The rules carrying order `k`, in their relative order in `s`. */
  function WithOrder(s: seq<Rule>, k: int): (r: seq<Rule>)
    ensures |r| <= |s|
  {
    if |s| == 0 then []
    else (if s[0].order == k then [s[0]] else []) + WithOrder(s[1..], k)
  }

  /** The group of order `k` holds exactly the rules of `s` carrying it. */
  lemma {:induction false} WithOrderMembers(s: seq<Rule>, k: int)
    ensures forall x :: x in WithOrder(s, k) <==> x in s && x.order == k
  {
    if |s| > 0 {
      WithOrderMembers(s[1..], k);
      assert s == [s[0]] + s[1..];
    }
  }

  /** Places `x` before the first rule whose order is not smaller, so that
      `x` precedes the rules of equal order that came after it. */
  function InsertByOrder(x: Rule, s: seq<Rule>): (r: seq<Rule>)
    ensures multiset(r) == multiset(s) + multiset{x}
    ensures forall y :: y in r ==> y == x || y in s
  {
    if |s| == 0 then [x]
    else if x.order <= s[0].order then [x] + s
    else
      assert s == [s[0]] + s[1..];
      [s[0]] + InsertByOrder(x, s[1..])
  }

  lemma {:induction false} InsertKeepsSorted(x: Rule, s: seq<Rule>)
    requires SortedByOrder(s)
    ensures SortedByOrder(InsertByOrder(x, s))
  {
    if |s| > 0 && x.order > s[0].order {
      var t := InsertByOrder(x, s[1..]);
      InsertKeepsSorted(x, s[1..]);
      forall y | y in t
        ensures s[0].order <= y.order
      {
        if y != x {
          var j :| 0 <= j < |s[1..]| && s[1..][j] == y;
          assert s[j + 1] == y;
        }
      }
      var r := [s[0]] + t;
      assert InsertByOrder(x, s) == r;
      forall i, j | 0 <= i < j < |r|
        ensures r[i].order <= r[j].order
      {
        if i > 0 {
          assert r[i] == t[i - 1] && r[j] == t[j - 1];
        } else {
          assert r[j] == t[j - 1];
          assert r[j] in t;
        }
      }
    }
  }

  /** `List.sort(Comparator.comparingInt(SecurityEntity::getOrder))`, a
      stable sort, written as insertion sort. */
  function SortByOrder(s: seq<Rule>): (r: seq<Rule>)
    ensures SortedByOrder(r)
    ensures multiset(r) == multiset(s)
  {
    if |s| == 0 then []
    else
      assert s == [s[0]] + s[1..];
      InsertKeepsSorted(s[0], SortByOrder(s[1..]));
      InsertByOrder(s[0], SortByOrder(s[1..]))
  }

  lemma {:induction false} WithOrderAppend(a: seq<Rule>, b: seq<Rule>, k: int)
    ensures WithOrder(a + b, k) == WithOrder(a, k) + WithOrder(b, k)
  {
    if |a| > 0 {
      assert (a + b)[1..] == a[1..] + b;
      WithOrderAppend(a[1..], b, k);
    } else {
      assert a + b == b;
    }
  }

  lemma SortedTail(s: seq<Rule>)
    requires |s| > 0 && SortedByOrder(s)
    ensures SortedByOrder(s[1..])
  {
    forall i, j | 0 <= i < j < |s[1..]|
      ensures s[1..][i].order <= s[1..][j].order
    {
      assert s[1..][i] == s[i + 1] && s[1..][j] == s[j + 1];
    }
  }

  /** `WithOrder` of a list with a known head. */
  lemma WithOrderCons(y: Rule, s: seq<Rule>, k: int)
    ensures WithOrder([y] + s, k) == if y.order == k then [y] + WithOrder(s, k) else WithOrder(s, k)
  {
    assert ([y] + s)[0] == y;
    assert ([y] + s)[1..] == s;
  }

  /** Putting a rule outside `front`'s group in front of two lists whose
      groups differ by `front` keeps that difference. */
  lemma GroupStep(y: Rule, t: seq<Rule>, u: seq<Rule>, front: seq<Rule>, k: int)
    requires WithOrder(t, k) == front + WithOrder(u, k)
    requires y.order == k ==> front == []
    ensures WithOrder([y] + t, k) == front + WithOrder([y] + u, k)
  {
    WithOrderCons(y, t, k);
    WithOrderCons(y, u, k);
    if y.order == k {
      assert front + WithOrder([y] + u, k) == WithOrder([y] + u, k);
    }
  }

  /** Inserting `x` into a sorted list keeps the rules of each order in place
      and puts `x` in front of those of its own order. */
  lemma {:induction false} InsertKeepsGroups(x: Rule, s: seq<Rule>, k: int)
    requires SortedByOrder(s)
    ensures WithOrder(InsertByOrder(x, s), k)
            == (if x.order == k then [x] else []) + WithOrder(s, k)
  {
    if |s| == 0 {
      assert InsertByOrder(x, s) == [x] + s;
      WithOrderCons(x, s, k);
    } else if x.order <= s[0].order {
      assert InsertByOrder(x, s) == [x] + s;
      WithOrderCons(x, s, k);
    } else {
      SortedTail(s);
      InsertKeepsGroups(x, s[1..], k);
      // s[0] has a smaller order than x, so it is never in x's group
      GroupStep(s[0], InsertByOrder(x, s[1..]), s[1..], if x.order == k then [x] else [], k);
      assert InsertByOrder(x, s) == [s[0]] + InsertByOrder(x, s[1..]);
      assert s == [s[0]] + s[1..];
    }
  }

  /** The sort is stable: for every order value, the rules carrying it keep
      their relative order from the file. */
  lemma {:induction false} SortIsStable(s: seq<Rule>, k: int)
    ensures WithOrder(SortByOrder(s), k) == WithOrder(s, k)
  {
    if |s| > 0 {
      SortIsStable(s[1..], k);
      InsertKeepsGroups(s[0], SortByOrder(s[1..]), k);
    }
  }

  lemma HeadInGroup(s: seq<Rule>)
    ensures |s| > 0 ==> s[0] in WithOrder(s, s[0].order)
  {
  }

  /** A sorted list and the same groups determine the list: any stable sort
      by `order` produces the same list as `SortByOrder`. */
  lemma {:induction false} StableSortUnique(a: seq<Rule>, b: seq<Rule>)
    requires SortedByOrder(a) && SortedByOrder(b)
    requires forall k :: WithOrder(a, k) == WithOrder(b, k)
    ensures a == b
    decreases |a|
  {
    if |a| > 0 {
      HeadInGroup(a);
      WithOrderMembers(b, a[0].order);
    }
    if |b| > 0 {
      HeadInGroup(b);
      WithOrderMembers(a, b[0].order);
    }
    if |a| > 0 && |b| > 0 {
      var k := a[0].order;
      // each head lies in the other list, which is sorted
      assert b[0].order <= k by {
        var j :| 0 <= j < |b| && b[j] == a[0];
      }
      assert k <= b[0].order by {
        var j :| 0 <= j < |a| && a[j] == b[0];
      }
      assert a == [a[0]] + a[1..];
      assert b == [b[0]] + b[1..];
      WithOrderCons(a[0], a[1..], k);
      WithOrderCons(b[0], b[1..], k);
      assert WithOrder(a, k)[0] == a[0] && WithOrder(b, k)[0] == b[0];
      forall m
        ensures WithOrder(a[1..], m) == WithOrder(b[1..], m)
      {
        WithOrderCons(a[0], a[1..], m);
        WithOrderCons(b[0], b[1..], m);
        assert WithOrder(a, m) == WithOrder(b, m);
        if a[0].order == m {
          assert WithOrder(a[1..], m) == WithOrder(a, m)[1..];
          assert WithOrder(b[1..], m) == WithOrder(b, m)[1..];
        }
      }
      SortedTail(a);
      SortedTail(b);
      StableSortUnique(a[1..], b[1..]);
    }
  }

  /** Every stable sort by order agrees with `SortByOrder`. */
  lemma AnyStableSortAgrees(s: seq<Rule>, sorted: seq<Rule>)
    requires SortedByOrder(sorted)
    requires forall k :: WithOrder(sorted, k) == WithOrder(s, k)
    ensures sorted == SortByOrder(s)
  {
    forall k
      ensures WithOrder(sorted, k) == WithOrder(SortByOrder(s), k)
    {
      SortIsStable(s, k);
    }
    StableSortUnique(sorted, SortByOrder(s));
  }

  /** `loadSecurityEntity`: `configPath` is the value of `SECURITY_CONFIG`
      (`None` when unset) and `file` what lies at that path. */
  function Load(configPath: Option<string>, file: ConfigFile): (r: Result<seq<Rule>, LoadError>)
    ensures !IsNotEmpty(configPath) ==> r == Success([])
    ensures IsNotEmpty(configPath) && (file.Missing? || file.Directory?) ==>
              r == Failure(FileNotFound("file '" + configPath.value + "' not exist"))
    ensures IsNotEmpty(configPath) && file.Readable? && !file.contents.Rules? ==> r == Failure(Unreadable)
    ensures IsNotEmpty(configPath) && file.Readable? && file.contents.Rules? ==>
              r.Success? && SortedByOrder(r.value) && multiset(r.value) == multiset(file.contents.rules)
    ensures IsNotEmpty(configPath) && file.Readable? && file.contents.Rules? ==>
              r.Success? && forall k :: WithOrder(r.value, k) == WithOrder(file.contents.rules, k)
    ensures IsNotEmpty(configPath) && file.Readable? && file.contents.Rules? ==>
              r == Success(SortByOrder(file.contents.rules))
  {
    if !IsNotEmpty(configPath) then Success([])
    else match file
      case Missing => Failure(FileNotFound("file '" + configPath.value + "' not exist"))
      case Directory => Failure(FileNotFound("file '" + configPath.value + "' not exist"))
      case Readable(Malformed) => Failure(Unreadable)
      case Readable(NullDocument) => Failure(Unreadable)
      case Readable(Rules(rs)) =>
        assert forall k :: WithOrder(SortByOrder(rs), k) == WithOrder(rs, k) by {
          forall k
            ensures WithOrder(SortByOrder(rs), k) == WithOrder(rs, k)
          {
            SortIsStable(rs, k);
          }
        }
        Success(SortByOrder(rs))
  }

  /** The loaded list is the one any stable sort by `order` yields: rules
      sharing an order are tried in file order. */
  lemma LoadIsStableSort(configPath: Option<string>, rs: seq<Rule>, sorted: seq<Rule>)
    requires IsNotEmpty(configPath)
    requires SortedByOrder(sorted) && forall k :: WithOrder(sorted, k) == WithOrder(rs, k)
    ensures Load(configPath, Readable(Rules(rs))) == Success(sorted)
  {
    var r := Load(configPath, Readable(Rules(rs)));
    StableSortUnique(sorted, r.value);
  }

  /** An empty `SECURITY_CONFIG` counts as unset: nothing is read. */
  lemma EmptyPathLoadsNothing(file: ConfigFile)
    ensures Load(Some(""), file) == Success([])
    ensures Load(None, file) == Success([])
  {
  }
}

=== FILE: policy_table.dfy ===
/** The jarvis policy table (`SecurityResourceService`): a hash set of rules,
    filled once from the loaded configuration, and the first-match queries
    `isPermit` and `isDeny` the service-scope filter consults.

    The set is a `HashSet`, so the order in which `match` visits the rules is
    whatever the set's buckets give, not the `order` the loader sorted by.
    Every query therefore takes the visiting order as an argument, an
    enumeration of the table's contents the caller does not control. */
module PolicyTable {
  import opened Wrappers
  import opened Strings
  import opened SecurityEntity

  /** Which flag a query tests: `isPermit` tests `permitAll`, `isDeny` `denyAll`. */
  datatype Flag = PermitFlag | DenyFlag

  predicate FlagSet(r: Rule, f: Flag) {
    match f
    case PermitFlag => IsTrue(r.permitAll)
    case DenyFlag => IsTrue(r.denyAll)
  }

  /** Some endpoint pattern of `r` matches `path`. */
  predicate Covers(r: Rule, path: string, matches: (string, string) -> bool) {
    exists k | 0 <= k < |Endpoints(r)| :: matches(Endpoints(r)[k], path)
  }

  /** The position of the first rule, in visiting order, one of whose
      patterns matches `path`. */
  function FirstCovering(rules: seq<Rule>, path: string, matches: (string, string) -> bool): (i: Option<nat>)
    ensures i.Some? ==> i.value < |rules| && Covers(rules[i.value], path, matches)
    ensures i.Some? ==> forall j :: 0 <= j < i.value ==> !Covers(rules[j], path, matches)
    ensures i.None? ==> forall j :: 0 <= j < |rules| ==> !Covers(rules[j], path, matches)
  {
    if |rules| == 0 then None
    else if Covers(rules[0], path, matches) then Some(0)
    else match FirstCovering(rules[1..], path, matches)
      case None => None
      case Some(k) => Some(k + 1)
  }

  /** The rule declares the request method `verb`, compared ignoring case. */
  predicate DeclaresMethod(r: Rule, verb: string) {
    exists k | 0 <= k < |Methods(r)| :: EqualsIgnoreCase(Methods(r)[k], verb)
  }

  /** What the deciding rule answers: its flag alone when it declares no
      methods or the method is empty, otherwise its flag and the method
      being declared. */
  predicate Verdict(r: Rule, verb: string, f: Flag) {
    if |Methods(r)| == 0 || verb == "" then FlagSet(r, f)
    else FlagSet(r, f) && DeclaresMethod(r, verb)
  }

  /** The answer of a query: false when no rule covers the path, otherwise
      the verdict of the first covering rule. */
  predicate Decision(rules: seq<Rule>, path: string, verb: string, f: Flag, matches: (string, string) -> bool) {
    match FirstCovering(rules, path, matches)
    case None => false
    case Some(i) => Verdict(rules[i], verb, f)
  }

  /** `anyMatch(v -> v.equalsIgnoreCase(method))` over the declared methods. */
  method AnyMethodMatches(methods: seq<string>, verb: string) returns (b: bool)
    ensures b <==> exists k | 0 <= k < |methods| :: EqualsIgnoreCase(methods[k], verb)
  {
    var k := 0;
    while k < |methods|
      invariant 0 <= k <= |methods|
      invariant forall m :: 0 <= m < k ==> !EqualsIgnoreCase(methods[m], verb)
    {
      if EqualsIgnoreCase(methods[k], verb) {
        return true;
      }
      k := k + 1;
    }
    return false;
  }

  /** `match(url, verb, predicate)`: the nested loop over rules and their
      endpoint patterns, returning at the first pattern that matches. */
  method Match(rules: seq<Rule>, path: string, verb: string, f: Flag, matches: (string, string) -> bool)
    returns (b: bool)
    ensures b == Decision(rules, path, verb, f, matches)
  {
    var i := 0;
    while i < |rules|
      invariant 0 <= i <= |rules|
      invariant forall j :: 0 <= j < i ==> !Covers(rules[j], path, matches)
    {
      var endpoints := Endpoints(rules[i]);
      var k := 0;
      while k < |endpoints|
        invariant 0 <= k <= |endpoints|
        invariant forall m :: 0 <= m < k ==> !matches(endpoints[m], path)
      {
        if matches(endpoints[k], path) {
          assert Covers(rules[i], path, matches);
          assert FirstCovering(rules, path, matches) == Some(i);
          if |Methods(rules[i])| == 0 || verb == "" {
            return FlagSet(rules[i], f);
          }
          var declared := AnyMethodMatches(Methods(rules[i]), verb);
          return FlagSet(rules[i], f) && declared;
        }
        k := k + 1;
      }
      i := i + 1;
    }
    return false;
  }

  /** `isPermit(url, verb)` over the visiting order `rules`. */
  method IsPermit(rules: seq<Rule>, path: string, verb: string, matches: (string, string) -> bool)
    returns (b: bool)
    ensures b <==> match FirstCovering(rules, path, matches)
                   case None => false
                   case Some(i) => Verdict(rules[i], verb, PermitFlag)
  {
    b := Match(rules, path, verb, PermitFlag, matches);
  }

  /** `isDeny(url, verb)` over the visiting order `rules`. */
  method IsDeny(rules: seq<Rule>, path: string, verb: string, matches: (string, string) -> bool)
    returns (b: bool)
    ensures b <==> match FirstCovering(rules, path, matches)
                   case None => false
                   case Some(i) => Verdict(rules[i], verb, DenyFlag)
  {
    b := Match(rules, path, verb, DenyFlag, matches);
  }

  /** A path that no endpoint pattern matches is neither permitted nor denied. */
  lemma UnmatchedPathNeither(rules: seq<Rule>, path: string, verb: string, matches: (string, string) -> bool)
    requires forall j :: 0 <= j < |rules| ==> !Covers(rules[j], path, matches)
    ensures !Decision(rules, path, verb, PermitFlag, matches)
    ensures !Decision(rules, path, verb, DenyFlag, matches)
  {
    assert FirstCovering(rules, path, matches).None?;
  }

  /** Appending rules after one that covers the path changes nothing: the
      first covering rule ends the search. */
  lemma {:induction false} LaterRulesNotConsulted(rules: seq<Rule>, later: seq<Rule>, path: string,
                                                  verb: string, f: Flag, matches: (string, string) -> bool)
    requires FirstCovering(rules, path, matches).Some?
    ensures FirstCovering(rules + later, path, matches) == FirstCovering(rules, path, matches)
    ensures Decision(rules + later, path, verb, f, matches) == Decision(rules, path, verb, f, matches)
  {
    var i := FirstCovering(rules, path, matches).value;
    assert (rules + later)[i] == rules[i];
    assert forall j :: 0 <= j < i ==> (rules + later)[j] == rules[j];
  }

  /** A covering rule that declares methods, none of which is the request's,
      answers false; later rules that would say true are never reached. */
  lemma MethodMismatchDoesNotFallThrough(rules: seq<Rule>, later: seq<Rule>, path: string,
                                         verb: string, f: Flag, matches: (string, string) -> bool)
    requires FirstCovering(rules, path, matches).Some?
    requires var r := rules[FirstCovering(rules, path, matches).value];
             |Methods(r)| > 0 && verb != "" && !DeclaresMethod(r, verb)
    ensures !Decision(rules + later, path, verb, f, matches)
  {
    LaterRulesNotConsulted(rules, later, path, verb, f, matches);
  }

  /** Both queries consult the same deciding rule, so both say yes only when
      that rule sets both flags. */
  lemma PermitAndDenyShareRule(rules: seq<Rule>, path: string, verb: string, matches: (string, string) -> bool)
    requires Decision(rules, path, verb, PermitFlag, matches)
    requires Decision(rules, path, verb, DenyFlag, matches)
    ensures FirstCovering(rules, path, matches).Some?
    ensures var r := rules[FirstCovering(rules, path, matches).value];
            IsTrue(r.permitAll) && IsTrue(r.denyAll)
  {
  }

  /** Because the visiting order is the hash set's, the same table can answer
      differently: here a deny rule with the lower `order` and a permit rule
      cover the same path, and which one decides depends on the enumeration. */
  lemma VisitingOrderDecides()
    ensures var deny := Rule(Some("a"), None, None, Some(true), 1, Some(["/x"]), None, None);
            var permit := Rule(Some("b"), None, Some(true), None, 2, Some(["/x"]), None, None);
            var exact := (p: string, u: string) => p == u;
            && multiset([deny, permit]) == multiset([permit, deny])
            && Decision([deny, permit], "/x", "GET", DenyFlag, exact)
            && !Decision([permit, deny], "/x", "GET", DenyFlag, exact)
  {
    var deny := Rule(Some("a"), None, None, Some(true), 1, Some(["/x"]), None, None);
    var permit := Rule(Some("b"), None, Some(true), None, 2, Some(["/x"]), None, None);
    var exact := (p: string, u: string) => p == u;
    assert Covers(deny, "/x", exact) by { assert exact(Endpoints(deny)[0], "/x"); }
    assert Covers(permit, "/x", exact) by { assert exact(Endpoints(permit)[0], "/x"); }
    assert FirstCovering([deny, permit], "/x", exact) == Some(0);
    assert FirstCovering([permit, deny], "/x", exact) == Some(0);
  }

  /** The table's contents: rules in insertion order. Which enumeration of
      them `match` uses is not fixed by the model. */
  datatype Table = Table(rules: seq<Rule>)

  /** `order` is one possible iteration order of the table. */
  predicate Enumerates(order: seq<Rule>, t: Table) {
    multiset(order) == multiset(t.rules)
  }

  /** No two stored rules are `equals` (same non-null id): the hash-set
      invariant. */
  predicate DistinctIds(rules: seq<Rule>) {
    forall i, j :: 0 <= i < j < |rules| ==> !Equals(rules[j], Some(rules[i]))
  }

  /** Some stored rule is `equals` to `r`. */
  predicate Present(rules: seq<Rule>, r: Rule) {
    exists k | 0 <= k < |rules| :: Equals(r, Some(rules[k]))
  }

  /** `add(SecurityEntity)`: ignores null, and (as `HashSet.add`) ignores a
      rule equal to one already stored. */
  function Add(t: Table, r: Option<Rule>): (t': Table)
    ensures r.None? ==> t' == t
    ensures r.Some? && Present(t.rules, r.value) ==> t' == t
    ensures r.Some? && !Present(t.rules, r.value) ==> t'.rules == t.rules + [r.value]
  {
    match r
    case None => t
    case Some(x) => if Present(t.rules, x) then t else Table(t.rules + [x])
  }

  /** Adding keeps the hash-set invariant. */
  lemma AddKeepsDistinct(t: Table, r: Option<Rule>)
    requires DistinctIds(t.rules)
    ensures DistinctIds(Add(t, r).rules)
  {
  }

  /** `HashSet.addAll`: adds the rules one by one, in the collection's order. */
  function AddEach(t: Table, rs: seq<Rule>): Table
    decreases |rs|
  {
    if |rs| == 0 then t else AddEach(Add(t, Some(rs[0])), rs[1..])
  }

  /** `add(Collection)`: ignores a null or empty collection. */
  function AddAll(t: Table, rs: Option<seq<Rule>>): (t': Table)
    ensures rs.None? ==> t' == t
    ensures rs.Some? && |rs.value| == 0 ==> t' == t
  {
    match rs
    case None => t
    case Some(xs) => if |xs| == 0 then t else AddEach(t, xs)
  }

  /** Adding a collection keeps the invariant, keeps every rule already
      stored, stores nothing that was not offered, and leaves every offered
      rule stored or represented by an equal one. */
  lemma {:induction false} AddEachSpec(t: Table, rs: seq<Rule>)
    requires DistinctIds(t.rules)
    ensures DistinctIds(AddEach(t, rs).rules)
    ensures t.rules <= AddEach(t, rs).rules
    ensures forall x :: x in AddEach(t, rs).rules ==> x in t.rules || x in rs
    ensures forall k :: 0 <= k < |rs| ==> Present(AddEach(t, rs).rules, rs[k]) || rs[k].id.None?
    ensures forall k :: 0 <= k < |rs| && rs[k].id.None? ==> rs[k] in AddEach(t, rs).rules
    decreases |rs|
  {
    if |rs| > 0 {
      var t1 := Add(t, Some(rs[0]));
      AddKeepsDistinct(t, Some(rs[0]));
      AddEachSpec(t1, rs[1..]);
      var res := AddEach(t1, rs[1..]).rules;
      assert AddEach(t, rs).rules == res;
      forall k | 0 <= k < |rs| && rs[k].id.Some?
        ensures Present(res, rs[k])
      {
        if k == 0 {
          var i :| 0 <= i < |t1.rules| && Equals(rs[0], Some(t1.rules[i])) by {
            if !Present(t.rules, rs[0]) {
              assert Equals(rs[0], Some(t1.rules[|t.rules|]));
            }
          }
          assert res[i] == t1.rules[i];
        } else {
          assert rs[k] == rs[1..][k - 1];
        }
      }
      forall k | 0 <= k < |rs| && rs[k].id.None?
        ensures rs[k] in res
      {
        if k == 0 {
          assert !Present(t.rules, rs[0]);
          assert t1.rules[|t.rules|] == rs[0];
          assert res[|t.rules|] == rs[0];
        } else {
          assert rs[k] == rs[1..][k - 1];
        }
      }
    }
  }

  /** The table the constructor builds: the loaded rules added to an empty set. */
  function Build(loaded: seq<Rule>): (t: Table)
    ensures DistinctIds(t.rules)
    ensures forall x :: x in t.rules ==> x in loaded
    ensures forall k :: 0 <= k < |loaded| && loaded[k].id.Some? ==> Present(t.rules, loaded[k])
    ensures forall k :: 0 <= k < |loaded| && loaded[k].id.None? ==> loaded[k] in t.rules
  {
    AddEachSpec(Table([]), loaded);
    AddAll(Table([]), Some(loaded))
  }
}

=== FILE: proxy.dfy ===
/** The forwarding service (`ProxyService` of wingbank): the request is
    sent to the protected application with identity headers added from
    whatever authentication the thread-local security context holds, and
    the body only for the methods that carry one. A rate
    limiter and a circuit breaker guard the call; each has a fallback that
    answers with the JSON error envelope instead. The HTTP call and the
    resilience state enter as their outcomes. */
module Proxy {
  import opened Wrappers
  import opened Strings
  import opened Http
  import opened Identity
  import opened Failures
  import opened Replies
  import ServiceAccess

  type Bytes = seq<bv8>

  /** `requiredBody`: only DELETE, POST and PUT forward the request body. */
  predicate RequiresBody(verb: string) {
    verb == "DELETE" || verb == "POST" || verb == "PUT"
  }

  lemma PatchSendsNoBody()
    ensures !RequiresBody("PATCH")
    ensures RequiresBody("DELETE")
  {
  }

  /** A claim value as a header value: its string form, or `-1` when the
      claim is absent or null. */
  function IdentityValue(attrs: map<string, Claim>, claim: string): (v: string)
    ensures claim !in attrs || attrs[claim].NullValue? ==> v == "-1"
    ensures claim in attrs && attrs[claim].Text? ==> v == attrs[claim].text
    ensures claim in attrs && attrs[claim].Items? ==> v == ListToString(attrs[claim].items)
  {
    if claim !in attrs then "-1"
    else match attrs[claim]
      case NullValue => "-1"
      case other => ClaimText(other)
  }

  /** Apart from null, the header value is the claim's string form. */
  lemma IdentityValueIsClaimText(attrs: map<string, Claim>, claim: string)
    requires claim in attrs && !attrs[claim].NullValue?
    ensures IdentityValue(attrs, claim) == ClaimText(attrs[claim])
  {
  }

  lemma IdentityNamesDiffer()
    ensures !EqualsIgnoreCase("client-id", "user-id")
  {
    assert |ToLower("client-id")| != |ToLower("user-id")|;
  }

  /** `extractHeader`: a copy of the request's headers with `user-id` (the
      `aud` claim) and `client-id` (the `client_id` claim) added when the
      thread-local security context holds a JWT or bearer-token
      authentication. `auth` is whatever that holder returns; anything
      else, an empty holder (`NoAuthentication`) included, forwards the headers
      as they are. `add` keeps earlier values first. */
  function ExtractHeader(original: Headers, auth: Authentication): (r: Headers)
    ensures !(auth.JwtToken? || auth.BearerToken?) ==> r == original
    ensures |original| <= |r|
    ensures forall j :: 0 <= j < |original| ==> r[j].0 == original[j].0 && original[j].1 <= r[j].1
  {
    if auth.JwtToken? || auth.BearerToken? then
      var attrs := TokenAttributes(auth);
      var withUser := AddHeader(original, "user-id", IdentityValue(attrs, "aud"));
      AddHeader(withUser, "client-id", IdentityValue(attrs, "client_id"))
    else original
  }

  /** Adding two headers with different names, one after the other: each
      reads as added when it was absent and as before when it had a value,
      and every other header reads as before. */
  lemma AddTwoHeaders(h: Headers, n1: string, v1: string, n2: string, v2: string, other: string)
    requires !EqualsIgnoreCase(n2, n1)
    ensures FindHeader(h, n1).None? ==> GetFirst(AddHeader(AddHeader(h, n1, v1), n2, v2), n1) == Some(v1)
    ensures FindHeader(h, n2).None? ==> GetFirst(AddHeader(AddHeader(h, n1, v1), n2, v2), n2) == Some(v2)
    ensures GetFirst(h, n1).Some? ==> GetFirst(AddHeader(AddHeader(h, n1, v1), n2, v2), n1) == GetFirst(h, n1)
    ensures GetFirst(h, n2).Some? ==> GetFirst(AddHeader(AddHeader(h, n1, v1), n2, v2), n2) == GetFirst(h, n2)
    ensures !EqualsIgnoreCase(other, n1) && !EqualsIgnoreCase(other, n2) ==>
              GetFirst(AddHeader(AddHeader(h, n1, v1), n2, v2), other) == GetFirst(h, other)
  {
    var h1 := AddHeader(h, n1, v1);
    AddHeaderSpec(h, n1, v1, n2);
    AddHeaderSpec(h, n1, v1, other);
    AddHeaderSpec(h1, n2, v2, n1);
    AddHeaderSpec(h1, n2, v2, other);
    if FindHeader(h, n2).None? {
      FindHeaderByNames(h, h1[..|h|], n2);
      assert FindHeader(h1, n2).None?;
    }
  }

  /** With a token, a request that did not name its caller reads, at the
      application, as the token's audience and client; a header the
      request already carried keeps its first value; every other header
      reads as sent. */
  lemma ExtractHeaderSpec(original: Headers, auth: Authentication, other: string)
    requires auth.JwtToken? || auth.BearerToken?
    ensures FindHeader(original, "user-id").None? ==>
              GetFirst(ExtractHeader(original, auth), "user-id") == Some(IdentityValue(auth.attributes, "aud"))
    ensures FindHeader(original, "client-id").None? ==>
              GetFirst(ExtractHeader(original, auth), "client-id") == Some(IdentityValue(auth.attributes, "client_id"))
    ensures GetFirst(original, "user-id").Some? ==>
              GetFirst(ExtractHeader(original, auth), "user-id") == GetFirst(original, "user-id")
    ensures GetFirst(original, "client-id").Some? ==>
              GetFirst(ExtractHeader(original, auth), "client-id") == GetFirst(original, "client-id")
    ensures !EqualsIgnoreCase(other, "user-id") && !EqualsIgnoreCase(other, "client-id") ==>
              GetFirst(ExtractHeader(original, auth), other) == GetFirst(original, other)
  {
    var attrs := TokenAttributes(auth);
    IdentityNamesDiffer();
    AddTwoHeaders(original, "user-id", IdentityValue(attrs, "aud"), "client-id", IdentityValue(attrs, "client_id"), other);
  }

  /** A caller can set `user-id` itself: the application then reads the
      caller's value first, not the token's. */
  lemma CallerCanNameItself(attrs: map<string, Claim>, auths: set<string>, claimed: string)
    ensures GetFirst(ExtractHeader([("User-Id", [claimed])], JwtToken(attrs, auths)), "user-id") == Some(claimed)
  {
    var h: Headers := [("User-Id", [claimed])];
    assert ToLower("User-Id") == ToLower("user-id");
    assert FindHeader(h, "user-id") == Some(0);
    ExtractHeaderSpec(h, JwtToken(attrs, auths), "");
  }

  /** The request the service sends: method, headers and, for the methods
      that carry one, the body. */
  datatype Outbound = Outbound(verb: string, headers: Headers, body: Option<seq<Bytes>>)

  function BuildOutbound(verb: string, headers: Headers, auth: Authentication, body: seq<Bytes>): (o: Outbound)
    ensures o.verb == verb && o.headers == ExtractHeader(headers, auth)
    ensures o.body.Some? <==> RequiresBody(verb)
    ensures o.body.Some? ==> o.body.value == body
  {
    Outbound(verb, ExtractHeader(headers, auth), if RequiresBody(verb) then Some(body) else None)
  }

  /** The first `onErrorMap`: every exception becomes a
      `ProxyFailedException` with the same message and no cause. */
  function WrapCallError(e: Failure): (r: Failure)
    ensures r == ProxyFailed(Message(e), None)
  {
    ProxyFailed(Message(e), None)
  }

  /** The second `onErrorMap`, which rewrites only a backend error status. */
  function MapBackendStatus(e: Failure): (r: Failure)
    ensures e.BackendStatus? ==> r == ProxyResponseFailed(e.status, e.message, Some(e.body))
    ensures !e.BackendStatus? ==> r == e
  {
    match e
    case BackendStatus(status, message, body) => ProxyResponseFailed(status, message, Some(body))
    case _ => e
  }

  /** The two mappings in the order they are chained. */
  function MapCallError(e: Failure): Failure {
    MapBackendStatus(WrapCallError(e))
  }

  /** The first mapping already catches the backend's error status, so the
      call never fails with the backend's body attached: its status and
      body are lost, and only the message is kept. */
  lemma BackendBodyNeverKept(e: Failure)
    ensures MapCallError(e) == ProxyFailed(Message(e), None)
    ensures !MapCallError(e).ProxyResponseFailed?
    ensures RootCause(MapCallError(e)) == MapCallError(e)
  {
  }

  /** What the backend answered. */
  datatype Upstream = Upstream(status: int, body: Option<string>)

  /** `HttpStatusCode.isError`: a 4xx or 5xx status. */
  predicate IsErrorStatus(status: int) {
    400 <= status < 600
  }

  /** `retrieve()`: an answer with an error status becomes the framework's
      response exception, carrying the status and the body (empty when
      there is none); any other answer is the response. */
  function Retrieve(response: Upstream): (r: Result<Upstream, Failure>)
    ensures r.Success? <==> !IsErrorStatus(response.status)
    ensures r.Success? ==> r.value == response
    ensures r.Failure? ==> r.error.BackendStatus? && r.error.status == response.status
    ensures r.Failure? && response.body.Some? ==> r.error.body == response.body.value
    ensures r.Failure? && response.body.None? ==> r.error.body == ""
  {
    if IsErrorStatus(response.status) then
      Failure(BackendStatus(response.status, None, if response.body.Some? then response.body.value else ""))
    else Success(response)
  }

  /** What the resilience guards let through: the call, or the rate
      limiter's refusal, or the open circuit's. */
  datatype Gate = Admitted | RateLimited | CircuitOpen

  /** The service's answer: the backend's response, or a fallback's
      envelope with its status (no content type is set on it). */
  datatype ProxyReply = Forwarded(response: Upstream) | Fallback(status: int, body: Envelope)

  const TooManyRequests := 429
  const ServiceUnavailable := 503

  /** `rateLimit`. */
  function RateLimitReply(serviceId: string, traceId: Option<string>): (r: ProxyReply)
    ensures r.Fallback? && r.status == TooManyRequests && r.body.code == NatToString(TooManyRequests)
    ensures r.body.message == Some("you have reached your API request limitation, " + serviceId)
    ensures r.body.traceId == traceId
  {
    Fallback(TooManyRequests, Envelope(NatToString(TooManyRequests),
      Some("you have reached your API request limitation, " + serviceId), traceId))
  }

  /** `circuitBreaker`. */
  function CircuitBreakerReply(serviceId: string, traceId: Option<string>): (r: ProxyReply)
    ensures r.Fallback? && r.status == ServiceUnavailable && r.body.code == NatToString(ServiceUnavailable)
    ensures r.body.message == Some("service " + serviceId + " unavailable")
    ensures r.body.traceId == traceId
  {
    Fallback(ServiceUnavailable, Envelope(NatToString(ServiceUnavailable),
      Some("service " + serviceId + " unavailable"), traceId))
  }

  /** `proxy` under its guards. `call` is the exchange with the backend:
      the answer it gave, or the exception that stopped it. `retrieve()`
      turns an error status into an exception. The rate limiter's fallback
      takes only its own refusal, so a failed call reaches the circuit
      breaker's fallback, which takes any throwable. Both fallbacks name the service by
      `SERVICE_ID`, or the application name when it is unset. */
  function Proxy(gate: Gate, call: Result<Upstream, Failure>, serviceEnv: Option<string>, appName: string,
                 traceId: Option<string>): (r: ProxyReply)
    ensures gate == RateLimited ==> r == RateLimitReply(ServiceAccess.WingbankServiceId(serviceEnv, appName), traceId)
    ensures gate == CircuitOpen ==> r == CircuitBreakerReply(ServiceAccess.WingbankServiceId(serviceEnv, appName), traceId)
    ensures gate == Admitted && call.Success? && !IsErrorStatus(call.value.status) ==> r == Forwarded(call.value)
    ensures gate == Admitted && call.Success? && IsErrorStatus(call.value.status) ==>
              r == CircuitBreakerReply(ServiceAccess.WingbankServiceId(serviceEnv, appName), traceId)
    ensures r.Forwarded? <==> gate == Admitted && call.Success? && !IsErrorStatus(call.value.status)
    ensures r.Forwarded? ==> !IsErrorStatus(r.response.status)
    ensures gate == Admitted && call.Failure? ==>
              r == CircuitBreakerReply(ServiceAccess.WingbankServiceId(serviceEnv, appName), traceId)
  {
    var sid := ServiceAccess.WingbankServiceId(serviceEnv, appName);
    match gate
    case RateLimited => RateLimitReply(sid, traceId)
    case CircuitOpen => CircuitBreakerReply(sid, traceId)
    case Admitted =>
      var mapped: Result<Upstream, Failure> :=
        match call
        case Success(response) =>
          (match Retrieve(response)
           case Success(ok) => Success(ok)
           case Failure(e) => Failure(MapCallError(e)))
        case Failure(e) => Failure(MapCallError(e));
      match mapped
      case Success(response) => Forwarded(response)
      case Failure(_) => CircuitBreakerReply(sid, traceId)
  }

  /** Every failure of an admitted call, a backend error status included,
      gives the same 503 answer: what went wrong does not reach the caller. */
  lemma FailuresLookAlike(e1: Failure, e2: Failure, serviceEnv: Option<string>, appName: string,
                          traceId: Option<string>)
    ensures Proxy(Admitted, Failure(e1), serviceEnv, appName, traceId)
            == Proxy(Admitted, Failure(e2), serviceEnv, appName, traceId)
    ensures Proxy(Admitted, Failure(e1), serviceEnv, appName, traceId).status == ServiceUnavailable
  {
  }

  /** An answer from the backend with a 4xx or 5xx status reaches the
      caller as the same 503 answer as a refused connection: the backend's
      status and body are not passed on. */
  lemma ErrorStatusLooksLikeFailure(status: int, body: Option<string>, e: Failure, serviceEnv: Option<string>,
                                    appName: string, traceId: Option<string>)
    requires IsErrorStatus(status)
    ensures Proxy(Admitted, Success(Upstream(status, body)), serviceEnv, appName, traceId)
            == Proxy(Admitted, Failure(e), serviceEnv, appName, traceId)
    ensures Proxy(Admitted, Success(Upstream(status, body)), serviceEnv, appName, traceId).status == ServiceUnavailable
  {
  }

  /** An empty `SERVICE_ID` is used as it is, so the message names no
      service. */
  lemma EmptyServiceIdKept(appName: string, traceId: Option<string>)
    ensures Proxy(RateLimited, Success(Upstream(200, None)), Some(""), appName, traceId).body.message
            == Some("you have reached your API request limitation, ")
  {
    assert ServiceAccess.WingbankServiceId(Some(""), appName) == "";
    assert "you have reached your API request limitation, " + "" == "you have reached your API request limitation, ";
  }
}

=== FILE: replies.dfy ===
/** The JSON error envelope every rejection in the sidecar writes:
    `result` is false, `result_code` a short code, `result_message` the
    reason and `trace_id` the current trace id (null outside a trace). */
module Replies {
  import opened Wrappers
  import opened Http

  datatype Envelope = Envelope(code: string, message: Option<string>, traceId: Option<string>)

  /** A rejection written directly to the response: status, the
      `application/json` content type, and the envelope. */
  datatype Reply = Reply(status: int, contentType: MediaType, body: Envelope)

  /** `rejectRequest` of the filters and the body of the security handlers. */
  function Reject(status: int, code: string, message: string, traceId: Option<string>): (r: Reply)
    ensures r.contentType == ApplicationJson
    ensures r.status == status && r.body.code == code && r.body.message == Some(message)
  {
    Reply(status, ApplicationJson, Envelope(code, Some(message), traceId))
  }
}

=== FILE: security_entity.dfy ===
/** The policy rule record: one entry of the security configuration file,
    with nullable Boolean flags, nullable collections read through null-safe
    getters, and an identity (`equals`/`hashCode`) that depends on the id
    alone. */
module SecurityEntity {
  import opened Wrappers

  /** A rule. A `None` flag is a JSON null or a flag the file leaves out;
      a `None` id or collection is an explicit JSON null only, since a field
      the file leaves out keeps its initialiser (a random UUID, an empty
      set). `order` is a Java `int`. */
  datatype Rule = Rule(
    id: Option<string>,
    authenticated: Option<bool>,
    permitAll: Option<bool>,
    denyAll: Option<bool>,
    order: int,
    endpoints: Option<seq<string>>,
    roles: Option<seq<string>>,
    methods: Option<seq<string>>)

  /** A freshly constructed rule; `id` is the random UUID the field
      initialiser draws. */
  function NewRule(id: string): (r: Rule)
    ensures r.id == Some(id) && r.order == -1
    ensures r.authenticated.None? && r.permitAll.None? && r.denyAll.None?
    ensures Endpoints(r) == [] && Roles(r) == [] && Methods(r) == []
  {
    Rule(Some(id), None, None, None, -1, Some([]), Some([]), Some([]))
  }

  /** `Boolean.TRUE.equals(flag)`: a null flag counts as false. */
  predicate IsTrue(flag: Option<bool>) {
    flag == Some(true)
  }

  function OrEmpty(c: Option<seq<string>>): seq<string> {
    c.GetOr([])
  }

  /** `getEndpoints`. */
  function Endpoints(r: Rule): seq<string> {
    OrEmpty(r.endpoints)
  }

  /** `getRoles`. */
  function Roles(r: Rule): seq<string> {
    OrEmpty(r.roles)
  }

  /** `getMethods`. */
  function Methods(r: Rule): seq<string> {
    OrEmpty(r.methods)
  }

  /** The getters never yield null: a null collection reads as empty and a
      present one reads unchanged. */
  lemma GettersNullSafe(r: Rule)
    ensures r.endpoints.None? ==> Endpoints(r) == []
    ensures r.roles.None? ==> Roles(r) == []
    ensures r.methods.None? ==> Methods(r) == []
    ensures r.endpoints.Some? ==> Endpoints(r) == r.endpoints.value
    ensures r.roles.Some? ==> Roles(r) == r.roles.value
    ensures r.methods.Some? ==> Methods(r) == r.methods.value
  {
  }

  /** `equals(Object)`: `that` is `None` for null or an object of another
      class. */
  predicate Equals(r: Rule, that: Option<Rule>) {
    that.Some? && r.id.Some? && that.value.id == r.id
  }

  /** Two rules are equal exactly when they carry the same non-null id;
      flags, order, endpoints, roles and methods play no part. */
  lemma EqualsIsIdEquality(a: Rule, b: Rule)
    ensures Equals(a, Some(b)) <==> a.id.Some? && a.id == b.id
    ensures Equals(a, Some(b)) ==> Equals(b, Some(a))
    ensures !Equals(a, None)
  {
  }

  /** A rule without id equals nothing, not even itself. */
  lemma NullIdEqualsNothing(r: Rule, that: Option<Rule>)
    requires r.id.None?
    ensures !Equals(r, that)
    ensures !Equals(r, Some(r))
  {
  }

  /** Reduction of an integer to Java's 32-bit two's-complement range. */
  function Wrap32(x: int): (r: int)
    ensures -0x8000_0000 <= r < 0x8000_0000
    ensures (r - x) % 0x1_0000_0000 == 0
  {
    var m := x % 0x1_0000_0000;
    if m >= 0x8000_0000 then m - 0x1_0000_0000 else m
  }

  /** `String.hashCode`: `h = 31 * h + c` over the characters, in `int`
      arithmetic. */
  function StringHash(s: string): int
    decreases |s|
  {
    if |s| == 0 then 0 else Wrap32(31 * StringHash(s[..|s| - 1]) + s[|s| - 1] as int)
  }

  /** `hashCode`, which is `Objects.hash(id)`: `31 + id.hashCode()`, or 31
      for a null id. */
  function HashCode(r: Rule): (h: int)
    ensures -0x8000_0000 <= h < 0x8000_0000
  {
    Wrap32(31 + match r.id case None => 0 case Some(s) => StringHash(s))
  }

  /** `hashCode` is consistent with `equals`. */
  lemma HashConsistentWithEquals(a: Rule, b: Rule)
    requires Equals(a, Some(b))
    ensures HashCode(a) == HashCode(b)
  {
  }
}

=== FILE: server_context.dfy ===
/** The per-request record the logging filter keeps (`ServerContext`): the
    client address chosen from the forwarding headers, the accumulated
    parameter string, the captured bodies, and the two audit lines written
    for the request and the response. JSON re-rendering of bodies is done by
    the `org.json` library and enters as two functions. */
module ServerContext {
  import opened Wrappers
  import opened Strings
  import opened Http

  const ForwardedFor := "X-Forwarded-For"
  const ProxyClientIp := "Proxy-Client-IP"

  /** The headers consulted for the client address, in the order tried. */
  const IpHeaderCandidates: seq<string> :=
    [ForwardedFor, ProxyClientIp, "WL-Proxy-Client-IP",
     "HTTP_X_FORWARDED_FOR", "HTTP_X_FORWARDED",
     "HTTP_X_CLUSTER_CLIENT_IP", "HTTP_CLIENT_IP",
     "HTTP_FORWARDED_FOR", "HTTP_FORWARDED", "HTTP_VIA",
     "REMOTE_ADDR"]

  /** A header value taken for the client address: present, not empty, and
      not `unknown` in any letter case (`"unknown".equalsIgnoreCase`, where
      lower-casing `unknown` leaves it as it is). */
  predicate AcceptableIp(v: Option<string>) {
    IsNotEmpty(v) && ToLower(v.value) != "unknown"
  }

  /** The first of `names`, from position `k` on, whose first header value
      is acceptable. */
  function FirstAcceptable(headers: Headers, names: seq<string>, k: nat): (i: Option<nat>)
    requires k <= |names|
    ensures i.Some? ==> k <= i.value < |names| && AcceptableIp(GetFirst(headers, names[i.value]))
    ensures i.Some? ==> forall j :: k <= j < i.value ==> !AcceptableIp(GetFirst(headers, names[j]))
    ensures i.None? ==> forall j :: k <= j < |names| ==> !AcceptableIp(GetFirst(headers, names[j]))
    decreases |names| - k
  {
    if k == |names| then None
    else if AcceptableIp(GetFirst(headers, names[k])) then Some(k)
    else FirstAcceptable(headers, names, k + 1)
  }

  /** `setRequestHeader`: the first acceptable candidate header's value,
      otherwise the host string of the remote address (`None` when the
      request has no remote address, leaving the address null). */
  function ClientIp(headers: Headers, remoteHost: Option<string>): (ip: Option<string>)
    ensures FirstAcceptable(headers, IpHeaderCandidates, 0).Some? ==>
              ip == GetFirst(headers, IpHeaderCandidates[FirstAcceptable(headers, IpHeaderCandidates, 0).value])
    ensures (forall j :: 0 <= j < |IpHeaderCandidates| ==> !AcceptableIp(GetFirst(headers, IpHeaderCandidates[j])))
            ==> ip == remoteHost
    ensures ip != remoteHost ==>
              exists j :: 0 <= j < |IpHeaderCandidates|
                          && ip == GetFirst(headers, IpHeaderCandidates[j]) && AcceptableIp(ip)
                          && forall i :: 0 <= i < j ==> !AcceptableIp(GetFirst(headers, IpHeaderCandidates[i]))
  {
    match FirstAcceptable(headers, IpHeaderCandidates, 0)
    case Some(k) => GetFirst(headers, IpHeaderCandidates[k])
    case None => remoteHost
  }

  /** Any candidate with an acceptable value and none acceptable before it
      gives the client address. */
  lemma ClientIpIsFirstAcceptable(headers: Headers, remoteHost: Option<string>, j: nat)
    requires j < |IpHeaderCandidates| && AcceptableIp(GetFirst(headers, IpHeaderCandidates[j]))
    requires forall i :: 0 <= i < j ==> !AcceptableIp(GetFirst(headers, IpHeaderCandidates[i]))
    ensures ClientIp(headers, remoteHost) == GetFirst(headers, IpHeaderCandidates[j])
  {
    var k := FirstAcceptable(headers, IpHeaderCandidates, 0);
    assert k.Some?;
    assert !(k.value < j) && !(j < k.value);
  }

  /** An acceptable `X-Forwarded-For` value is the client address, whatever
      the other headers say. */
  lemma ForwardedForWins(headers: Headers, remoteHost: Option<string>)
    requires AcceptableIp(GetFirst(headers, ForwardedFor))
    ensures ClientIp(headers, remoteHost) == GetFirst(headers, ForwardedFor)
  {
    assert IpHeaderCandidates[0] == ForwardedFor;
  }

  /** A first candidate reading `unknown` in any letter case is passed over
      for the next one. */
  lemma UnknownIsPassedOver(headers: Headers, remoteHost: Option<string>, v: string)
    requires GetFirst(headers, ForwardedFor) == Some(v) && ToLower(v) == "unknown"
    requires AcceptableIp(GetFirst(headers, ProxyClientIp))
    ensures ClientIp(headers, remoteHost) == GetFirst(headers, ProxyClientIp)
  {
    var names := IpHeaderCandidates;
    assert names[0] == ForwardedFor && names[1] == ProxyClientIp;
    SecondTaken(headers, names);
  }

  lemma SecondTaken(headers: Headers, names: seq<string>)
    requires |names| >= 2
    requires !AcceptableIp(GetFirst(headers, names[0])) && AcceptableIp(GetFirst(headers, names[1]))
    ensures FirstAcceptable(headers, names, 0) == Some(1)
  {
  }

  /** `appendParameter`: an empty accumulator takes the argument, a
      non-empty one gains `&` and the argument unless the argument is empty.
      A null parameter is the empty string here; both read as empty. */
  function AppendParameter(current: string, p: string): string {
    if current == "" then p
    else if p != "" then current + "&" + p
    else current
  }

  /** The accumulator after appending each of `ps` to an empty one. */
  function AppendAll(ps: seq<string>): string {
    if |ps| == 0 then "" else AppendParameter(AppendAll(ps[..|ps| - 1]), ps[|ps| - 1])
  }

  /** The non-empty elements of `ps`, in order. */
  function NonEmpty(ps: seq<string>): (r: seq<string>)
    ensures forall i :: 0 <= i < |r| ==> r[i] != "" && r[i] in ps
  {
    if |ps| == 0 then []
    else NonEmpty(ps[..|ps| - 1]) + (if ps[|ps| - 1] == "" then [] else [ps[|ps| - 1]])
  }

  lemma JoinOfNonEmpty(sep: string, xs: seq<string>)
    requires |xs| > 0 && xs[0] != ""
    ensures Join(sep, xs) != ""
  {
  }

  /** The accumulator holds exactly the non-empty parameters appended so far,
      joined by `&`: empty pieces vanish and no `&` is doubled. */
  lemma {:induction false} AppendAllIsJoin(ps: seq<string>)
    ensures AppendAll(ps) == Join("&", NonEmpty(ps))
  {
    if |ps| > 0 {
      var init := ps[..|ps| - 1];
      var last := ps[|ps| - 1];
      AppendAllIsJoin(init);
      assert NonEmpty(ps) == NonEmpty(init) + (if last == "" then [] else [last]);
      var current := AppendAll(init);
      assert AppendAll(ps) == AppendParameter(current, last);
      if |NonEmpty(init)| == 0 {
        assert NonEmpty(init) + [last] == [last];
      } else {
        JoinOfNonEmpty("&", NonEmpty(init));
        if last != "" {
          JoinSnoc("&", NonEmpty(init), last);
          assert AppendAll(ps) == current + "&" + last;
        } else {
          assert NonEmpty(ps) == NonEmpty(init);
        }
      }
    }
  }

  /** `getEndpoint`: the path, or `unknown endpoint` when it is null or empty. */
  function Endpoint(endpoint: Option<string>): (r: string)
    ensures IsNotEmpty(endpoint) ==> r == endpoint.value
    ensures !IsNotEmpty(endpoint) ==> r == "unknown endpoint"
  {
    if IsNotEmpty(endpoint) then endpoint.value else "unknown endpoint"
  }

  /** `getRequestBody` / `getResponseBody`: empty stays empty; text starting
      with `{` or `[` is re-rendered as a JSON object or array, and kept as it
      is when it does not parse (`None`); any other text is kept. A null body
      is the empty string here. */
  function BodyForLog(body: string, asObject: string -> Option<string>, asArray: string -> Option<string>): (r: string)
    ensures body == "" ==> r == ""
    ensures !StartsWith(body, "{") && !StartsWith(body, "[") ==> r == body
    ensures StartsWith(body, "{") ==> r == asObject(body).GetOr(body)
    ensures StartsWith(body, "[") ==> r == asArray(body).GetOr(body)
  {
    if body == "" then ""
    else if StartsWith(body, "{") then asObject(body).GetOr(body)
    else if StartsWith(body, "[") then asArray(body).GetOr(body)
    else body
  }

  /** One entry of `buildHeader`: the lower-cased name, `[`, each value
      followed by `,`, with the final character cut, then `]`. */
  function HeaderEntryText(name: string, values: seq<string>): string {
    var builder := ToLower(name) + "[" + Terminated(",", values);
    builder[..|builder| - 1] + "]"
  }

  /** The cut removes the last comma, or the `[` itself when there are no
      values. */
  lemma HeaderEntryShape(name: string, values: seq<string>)
    ensures |values| > 0 ==> HeaderEntryText(name, values) == ToLower(name) + "[" + Join(",", values) + "]"
    ensures |values| == 0 ==> HeaderEntryText(name, values) == ToLower(name) + "]"
  {
    if |values| > 0 {
      TerminatedIsJoin(",", values);
      var builder := ToLower(name) + "[" + Terminated(",", values);
      assert builder == (ToLower(name) + "[" + Join(",", values)) + ",";
    }
  }

  function HeaderEntriesText(h: Headers): string {
    if |h| == 0 then "" else HeaderEntryText(h[0].0, h[0].1) + HeaderEntriesText(h[1..])
  }

  /** The entries are written one after another in the map's order. */
  lemma {:induction false} HeaderEntriesSnoc(h: Headers, name: string, values: seq<string>)
    ensures HeaderEntriesText(h + [(name, values)]) == HeaderEntriesText(h) + HeaderEntryText(name, values)
  {
    if |h| == 0 {
      assert (h + [(name, values)])[1..] == [];
    } else {
      assert (h + [(name, values)])[1..] == h[1..] + [(name, values)];
      HeaderEntriesSnoc(h[1..], name, values);
    }
  }

  /** `buildHeader`: null for no headers, otherwise `headers:` and the
      entries with nothing between them. */
  function BuildHeader(h: Headers): (r: Option<string>)
    ensures r.None? <==> |h| == 0
    ensures r.Some? ==> StartsWith(r.value, "headers:")
    ensures r.Some? ==> r.value == "headers:" + HeaderEntriesText(h)
  {
    if |h| == 0 then None else Some("headers:" + HeaderEntriesText(h))
  }

  /** One more header adds its lower-cased name and bracketed,
      comma-separated values at the end of the text. */
  lemma BuildHeaderSnoc(h: Headers, name: string, values: seq<string>)
    requires |h| > 0 && |values| > 0
    ensures BuildHeader(h + [(name, values)])
            == Some(BuildHeader(h).value + ToLower(name) + "[" + Join(",", values) + "]")
  {
    var p := "headers:";
    var e := HeaderEntryText(name, values);
    assert HeaderEntriesText(h + [(name, values)]) == HeaderEntriesText(h) + e by {
      HeaderEntriesSnoc(h, name, values);
    }
    assert e == ToLower(name) + "[" + Join(",", values) + "]" by {
      HeaderEntryShape(name, values);
    }
    ExtendAssoc(p, HeaderEntriesText(h), e, ToLower(name), "[", Join(",", values), "]");
  }

  lemma ExtendAssoc(p: string, q: string, e: string, a: string, b: string, c: string, d: string)
    requires e == a + b + c + d
    ensures p + (q + e) == p + q + a + b + c + d
  {
  }

  /** A single header renders as its lower-cased name and bracketed,
      comma-separated values. */
  lemma SingleHeaderText(name: string, values: seq<string>)
    requires |values| > 0
    ensures BuildHeader([(name, values)]) == Some("headers:" + ToLower(name) + "[" + Join(",", values) + "]")
  {
    var e := HeaderEntryText(name, values);
    assert HeaderEntriesText([(name, values)]) == e by {
      var h: Headers := [(name, values)];
      assert h[1..] == [];
    }
    assert e == ToLower(name) + "[" + Join(",", values) + "]" by {
      HeaderEntryShape(name, values);
    }
    PrefixAssoc("headers:", e, ToLower(name), "[", Join(",", values), "]");
  }

  lemma PrefixAssoc(p: string, e: string, a: string, b: string, c: string, d: string)
    requires e == a + b + c + d
    ensures p + e == p + a + b + c + d
  {
  }

  /** `truncateBody`: the first `maxLength` characters when the body is
      longer than a positive `maxLength`, otherwise the body. */
  function TruncateBody(body: string, maxLength: int): (r: string)
    ensures StartsWith(body, r)
    ensures maxLength <= 0 || |body| <= maxLength ==> r == body
    ensures maxLength > 0 && |body| > maxLength ==> |r| == maxLength
  {
    if |body| > 0 && maxLength > 0 && |body| > maxLength then body[..maxLength] else body
  }

  /** The log builders pass `-1`, so no body is ever shortened. */
  lemma LoggedBodiesUntruncated(body: string)
    ensures TruncateBody(body, -1) == body
  {
  }

  /** The fields of the record the audit lines read. `parameter`,
      `requestBody` and `responseBody` are the empty string where the source
      leaves them null. */
  datatype Context = Context(
    uuid: string,
    ip: Option<string>,
    endpoint: Option<string>,
    verb: string,
    requestBody: string,
    responseBody: string,
    parameter: string,
    file: Option<string>,
    requestHeader: Headers,
    responseHeader: Headers)

  /** The constructor: request headers, client address, method and path;
      nothing captured yet. */
  function NewContext(uuid: string, headers: Headers, remoteHost: Option<string>, verb: string, path: string): (c: Context)
    ensures c.ip == ClientIp(headers, remoteHost) && c.requestHeader == headers
    ensures c.parameter == "" && c.file.None? && c.requestBody == "" && c.responseBody == ""
  {
    Context(uuid, ClientIp(headers, remoteHost), Some(path), verb, "", "", "", None, headers, [])
  }

  /** A null address is appended as `null`. */
  function IpText(ip: Option<string>): string {
    ip.GetOr("null")
  }

  /** An optional section: `lead` and the text, or nothing for empty text. */
  function Section(lead: string, text: Option<string>): string {
    if IsNotEmpty(text) then lead + text.value else ""
  }

  /** A section with a lead is absent exactly when its text is null or
      empty, and otherwise is the lead followed by the text. */
  lemma SectionPresence(lead: string, text: Option<string>)
    requires lead != ""
    ensures Section(lead, text) == "" <==> !IsNotEmpty(text)
    ensures IsNotEmpty(text) ==> StartsWith(Section(lead, text), lead)
    ensures IsNotEmpty(text) ==> Section(lead, text)[|lead|..] == text.value
  {
  }

  /** A line built from a head, further sections, and a final body section
      starts with the head and ends with the body section. */
  lemma LineShape(head: string, before: string, body: string)
    requires StartsWith(before, head)
    ensures StartsWith(before + Section(", body:", Some(body)), head)
    ensures body != "" ==> EndsWith(before + Section(", body:", Some(body)), ", body:" + body)
    ensures body == "" ==> before + Section(", body:", Some(body)) == before
  {
    var line := before + Section(", body:", Some(body));
    assert line[..|head|] == before[..|head|];
  }

  function RequestHead(c: Context): string {
    "REQUEST " + c.verb + " " + c.uuid + ", " + Endpoint(c.endpoint) + ", " + IpText(c.ip)
  }

  /** `buildLogRequest`: the head, then the headers, files, parameter and
      body sections, each only when not empty. */
  function BuildLogRequest(c: Context, asObject: string -> Option<string>, asArray: string -> Option<string>): (line: string)
    ensures StartsWith(line, RequestHead(c))
    ensures BodyForLog(c.requestBody, asObject, asArray) != "" ==>
              EndsWith(line, ", body:" + BodyForLog(c.requestBody, asObject, asArray))
    ensures (BuildHeader(c.requestHeader).None? && !IsNotEmpty(c.file) && c.parameter == ""
             && BodyForLog(c.requestBody, asObject, asArray) == "") ==> line == RequestHead(c)
    ensures line == RequestHead(c) + Section(", ", BuildHeader(c.requestHeader)) + Section(", files:", c.file)
                    + Section(", parameter:", Some(c.parameter))
                    + Section(", body:", Some(BodyForLog(c.requestBody, asObject, asArray)))
  {
    var body := TruncateBody(BodyForLog(c.requestBody, asObject, asArray), -1);
    var before := RequestHead(c) + Section(", ", BuildHeader(c.requestHeader)) + Section(", files:", c.file)
                  + Section(", parameter:", Some(c.parameter));
    LineShape(RequestHead(c), before, body);
    before + Section(", body:", Some(body))
  }

  function ResponseHead(c: Context, status: Option<int>): string {
    "RESPONSE " + IntToString(status.GetOr(-1)) + " " + c.uuid + ", " + Endpoint(c.endpoint) + ", " + IpText(c.ip)
  }

  /** `buildLogResponse`: the status (`-1` when there is none), the head,
      then only the headers and body sections. */
  function BuildLogResponse(c: Context, status: Option<int>, asObject: string -> Option<string>,
                            asArray: string -> Option<string>): (line: string)
    ensures StartsWith(line, ResponseHead(c, status))
    ensures BodyForLog(c.responseBody, asObject, asArray) != "" ==>
              EndsWith(line, ", body:" + BodyForLog(c.responseBody, asObject, asArray))
    ensures line == ResponseHead(c, status) + Section(", ", BuildHeader(c.responseHeader))
                    + Section(", body:", Some(BodyForLog(c.responseBody, asObject, asArray)))
  {
    var body := TruncateBody(BodyForLog(c.responseBody, asObject, asArray), -1);
    var before := ResponseHead(c, status) + Section(", ", BuildHeader(c.responseHeader));
    LineShape(ResponseHead(c, status), before, body);
    before + Section(", body:", Some(body))
  }

  /** A request with headers, a file list, parameters and a body logs all
      four sections, in that order, after the head. */
  lemma RequestLineAllSections(c: Context, asObject: string -> Option<string>, asArray: string -> Option<string>)
    requires |c.requestHeader| > 0 && IsNotEmpty(c.file) && c.parameter != ""
    requires BodyForLog(c.requestBody, asObject, asArray) != ""
    ensures BuildLogRequest(c, asObject, asArray)
            == RequestHead(c) + ", headers:" + HeaderEntriesText(c.requestHeader)
               + ", files:" + c.file.value + ", parameter:" + c.parameter
               + ", body:" + BodyForLog(c.requestBody, asObject, asArray)
  {
    var entries := HeaderEntriesText(c.requestHeader);
    var body := BodyForLog(c.requestBody, asObject, asArray);
    var s1 := Section(", ", BuildHeader(c.requestHeader));
    assert s1 == ", headers:" + entries;
    Sections4(RequestHead(c), s1, Section(", files:", c.file), Section(", parameter:", Some(c.parameter)),
              Section(", body:", Some(body)), ", headers:", entries, ", files:", c.file.value,
              ", parameter:", c.parameter, ", body:", body);
  }

  lemma Sections4(head: string, s1: string, s2: string, s3: string, s4: string,
                  l1: string, x1: string, l2: string, x2: string, l3: string, x3: string, l4: string, x4: string)
    requires s1 == l1 + x1 && s2 == l2 + x2 && s3 == l3 + x3 && s4 == l4 + x4
    ensures head + s1 + s2 + s3 + s4 == head + l1 + x1 + l2 + x2 + l3 + x3 + l4 + x4
  {
  }

  lemma Sections2(head: string, s1: string, s2: string, l1: string, x1: string, l2: string, x2: string)
    requires s1 == l1 + x1 && s2 == l2 + x2
    ensures head + s1 + s2 == head + l1 + x1 + l2 + x2
  {
  }

  /** A response with headers and a body logs both, headers first. */
  lemma ResponseLineAllSections(c: Context, status: Option<int>, asObject: string -> Option<string>,
                                asArray: string -> Option<string>)
    requires |c.responseHeader| > 0 && BodyForLog(c.responseBody, asObject, asArray) != ""
    ensures BuildLogResponse(c, status, asObject, asArray)
            == ResponseHead(c, status) + ", headers:" + HeaderEntriesText(c.responseHeader)
               + ", body:" + BodyForLog(c.responseBody, asObject, asArray)
  {
    var entries := HeaderEntriesText(c.responseHeader);
    var body := BodyForLog(c.responseBody, asObject, asArray);
    var s1 := Section(", ", BuildHeader(c.responseHeader));
    assert s1 == ", headers:" + entries;
    Sections2(ResponseHead(c, status), s1, Section(", body:", Some(body)), ", headers:", entries, ", body:", body);
  }

  /** The response line ignores the request's parameter, files and body. */
  lemma ResponseLineIgnoresRequest(c: Context, status: Option<int>, parameter: string, file: Option<string>,
                                   requestBody: string, asObject: string -> Option<string>, asArray: string -> Option<string>)
    ensures BuildLogResponse(c.(parameter := parameter, file := file, requestBody := requestBody), status, asObject, asArray)
            == BuildLogResponse(c, status, asObject, asArray)
  {
  }

  /** A response without status reads `RESPONSE -1`. */
  lemma MissingStatusIsMinusOne(c: Context)
    ensures StartsWith(ResponseHead(c, None), "RESPONSE -1 ")
  {
    assert IntToString(-1) == "-1";
  }
}

=== FILE: service_access.dfy ===
/** The service-scope filters (`ServiceAccessFilter` of both services),
    which run after authentication and before route authorization: a
    request reaches this service only if its token names the service in
    the service claim, unless its path is excluded (or, for jarvis, the
    policy table permits it). The two services read the claim differently:
    jarvis also accepts a comma-separated string, wingbank only a
    collection. */
module ServiceAccess {
  import opened Wrappers
  import opened Strings
  import opened Identity
  import opened Failures
  import opened Replies
  import opened SecurityEntity
  import PolicyTable
  import Authorization

  datatype FilterResult = Continue | Rejected(reply: Reply)

  /** The service id and the claim that must name it. */
  datatype ScopeConfig = ScopeConfig(serviceId: string, serviceClaim: string)

  /** The claim name: `SERVICE_CLAIM`, or `services` when unset. */
  function ServiceClaimName(env: Option<string>): (name: string)
    ensures env.None? ==> name == "services"
    ensures env.Some? ==> name == env.value
  {
    env.GetOr("services")
  }

  /** The jarvis filter's constructor: `SERVICE_ID` when it has text,
      otherwise the application name. */
  function JarvisConfig(serviceIdEnv: Option<string>, appName: string, claimEnv: Option<string>): (c: ScopeConfig)
    ensures OptHasText(serviceIdEnv) ==> c.serviceId == serviceIdEnv.value
    ensures !OptHasText(serviceIdEnv) ==> c.serviceId == appName
    ensures c.serviceClaim == ServiceClaimName(claimEnv)
  {
    ScopeConfig(if OptHasText(serviceIdEnv) then serviceIdEnv.value else appName, ServiceClaimName(claimEnv))
  }

  /** The service id the wingbank configuration passes: the `SERVICE_ID`
      property when defined (even empty), otherwise the application name. */
  function WingbankServiceId(serviceIdEnv: Option<string>, appName: string): string {
    serviceIdEnv.GetOr(appName)
  }

  /** The wingbank filter's constructor, which refuses an id without text. */
  function WingbankConfig(serviceId: string, claimEnv: Option<string>): (r: Result<ScopeConfig, Failure>)
    ensures r.Success? <==> HasText(serviceId)
    ensures r.Success? ==> r.value == ScopeConfig(serviceId, ServiceClaimName(claimEnv))
    ensures r.Failure? ==> r.error == IllegalArgument("service id cannot be empty or null")
  {
    if HasText(serviceId) then Success(ScopeConfig(serviceId, ServiceClaimName(claimEnv)))
    else Failure(IllegalArgument("service id cannot be empty or null"))
  }

  /** An empty `SERVICE_ID` stops the wingbank configuration, although the
      application name would have served. */
  lemma EmptyServiceIdRefused(appName: string, claimEnv: Option<string>)
    ensures WingbankConfig(WingbankServiceId(Some(""), appName), claimEnv).Failure?
  {
  }

  /** The path is one of the excluded patterns. */
  predicate Excluded(path: string, matches: (string, string) -> bool) {
    exists k | 0 <= k < |Authorization.ExcludedPaths| :: matches(Authorization.ExcludedPaths[k], path)
  }

  /** The claim value, an empty collection when the claim is absent. */
  function ClaimValue(attrs: map<string, Claim>, claim: string): Claim {
    if claim in attrs then attrs[claim] else Items([])
  }

  /** The services jarvis reads from the claim: a collection as it is,
      anything else as the comma-separated pieces of its string form. */
  function JarvisServices(attrs: map<string, Claim>, claim: string): (s: set<string>)
    ensures claim !in attrs ==> s == {}
    ensures claim in attrs && attrs[claim].Items? ==> s == set x | x in attrs[claim].items
    ensures claim in attrs && attrs[claim].Text? ==> s == CommaSet(attrs[claim].text)
  {
    match ClaimValue(attrs, claim)
    case Items(xs) => set x | x in xs
    case other => CommaSet(ClaimText(other))
  }

  /** The services wingbank reads from the claim: only a collection counts. */
  function WingbankServices(attrs: map<string, Claim>, claim: string): (s: set<string>)
    ensures claim in attrs && attrs[claim].Items? ==> s == set x | x in attrs[claim].items
    ensures claim !in attrs || !attrs[claim].Items? ==> s == {}
  {
    match ClaimValue(attrs, claim)
    case Items(xs) => set x | x in xs
    case _ => {}
  }

  function AccessDenied(c: ScopeConfig, traceId: Option<string>): Reply {
    Reject(403, "A403", "access denied " + c.serviceId, traceId)
  }

  function NoAccessScope(c: ScopeConfig, traceId: Option<string>): Reply {
    Reject(403, "A403", "no access scope " + c.serviceId, traceId)
  }

  function Unauthorized(c: ScopeConfig, traceId: Option<string>): Reply {
    Reject(401, "A401", "unauthorized access " + c.serviceId, traceId)
  }

  /** The jarvis filter. `rules` is the policy table in its visiting order,
      `antMatches` the table's path matcher. */
  function JarvisFilter(c: ScopeConfig, rules: seq<Rule>, path: string, verb: string, auth: Authentication,
                        traceId: Option<string>, antMatches: (string, string) -> bool): (r: FilterResult)
    ensures PolicyTable.Decision(rules, path, verb, PolicyTable.DenyFlag, antMatches) ==>
              r == Rejected(AccessDenied(c, traceId))
    ensures r == Continue <==>
              !PolicyTable.Decision(rules, path, verb, PolicyTable.DenyFlag, antMatches)
              && (PolicyTable.Decision(rules, path, verb, PolicyTable.PermitFlag, antMatches)
                  || Excluded(path, antMatches)
                  || (!auth.NoAuthentication? && c.serviceId in JarvisServices(TokenAttributes(auth), c.serviceClaim)))
    ensures r == Rejected(Unauthorized(c, traceId)) <==>
              !PolicyTable.Decision(rules, path, verb, PolicyTable.DenyFlag, antMatches)
              && !PolicyTable.Decision(rules, path, verb, PolicyTable.PermitFlag, antMatches)
              && !Excluded(path, antMatches)
              && auth.NoAuthentication?
  {
    if PolicyTable.Decision(rules, path, verb, PolicyTable.DenyFlag, antMatches) then
      Rejected(AccessDenied(c, traceId))
    else if PolicyTable.Decision(rules, path, verb, PolicyTable.PermitFlag, antMatches) || Excluded(path, antMatches) then
      Continue
    else if auth.NoAuthentication? then
      Rejected(Unauthorized(c, traceId))
    else if c.serviceId in JarvisServices(TokenAttributes(auth), c.serviceClaim) then
      Continue
    else
      Rejected(AccessDenied(c, traceId))
  }

  /** The wingbank filter: only the excluded paths bypass the check. */
  function WingbankFilter(c: ScopeConfig, path: string, auth: Authentication, traceId: Option<string>,
                          antMatches: (string, string) -> bool): (r: FilterResult)
    ensures r == Continue <==>
              Excluded(path, antMatches)
              || (!auth.NoAuthentication? && c.serviceId in WingbankServices(TokenAttributes(auth), c.serviceClaim))
    ensures r == Rejected(Unauthorized(c, traceId)) <==> !Excluded(path, antMatches) && auth.NoAuthentication?
    ensures r.Rejected? && !auth.NoAuthentication? ==> r == Rejected(NoAccessScope(c, traceId))
  {
    if Excluded(path, antMatches) then Continue
    else if auth.NoAuthentication? then Rejected(Unauthorized(c, traceId))
    else if c.serviceId in WingbankServices(TokenAttributes(auth), c.serviceClaim) then Continue
    else Rejected(NoAccessScope(c, traceId))
  }

  /** A policy deny in jarvis holds even for an excluded path and a token
      naming the service. */
  lemma JarvisDenyBeatsExclusion(c: ScopeConfig, rules: seq<Rule>, path: string, verb: string,
                                 auth: Authentication, traceId: Option<string>, antMatches: (string, string) -> bool)
    requires PolicyTable.Decision(rules, path, verb, PolicyTable.DenyFlag, antMatches)
    requires Excluded(path, antMatches)
    ensures JarvisFilter(c, rules, path, verb, auth, traceId, antMatches).Rejected?
    ensures JarvisFilter(c, rules, path, verb, auth, traceId, antMatches).reply.status == 403
  {
  }

  lemma BillingLedgerPieces(text: string)
    requires text == "billing,ledger"
    ensures CommaSet(text) == {"billing", "ledger"}
  {
    assert text[..7] == "billing";
    assert text[8..] == "ledger";
    CommaSetAt(text, 7);
  }

  lemma BillingLedgerServices(attrs: map<string, Claim>, claim: string, text: string)
    requires text == "billing,ledger"
    requires claim in attrs && attrs[claim] == Text(text)
    ensures JarvisServices(attrs, claim) == {"billing", "ledger"}
    ensures WingbankServices(attrs, claim) == {}
  {
    BillingLedgerPieces(text);
  }

  /** With an empty policy table, jarvis admits any token whose claim names
      the service. */
  lemma JarvisAdmitsNamedService(c: ScopeConfig, path: string, verb: string, attrs: map<string, Claim>,
                                 traceId: Option<string>, antMatches: (string, string) -> bool)
    requires c.serviceId in JarvisServices(attrs, c.serviceClaim)
    ensures JarvisFilter(c, [], path, verb, JwtToken(attrs, {}), traceId, antMatches) == Continue
  {
    assert !PolicyTable.Decision([], path, verb, PolicyTable.DenyFlag, antMatches) by {
      assert PolicyTable.FirstCovering([], path, antMatches).None?;
    }
  }

  /** Jarvis splits a comma-separated service claim and finds the service. */
  lemma JarvisAdmitsStringClaim(c: ScopeConfig, path: string, verb: string, text: string,
                                attrs: map<string, Claim>, traceId: Option<string>,
                                antMatches: (string, string) -> bool)
    requires c.serviceId == "billing" && text == "billing,ledger"
    requires c.serviceClaim in attrs && attrs[c.serviceClaim] == Text(text)
    ensures JarvisFilter(c, [], path, verb, JwtToken(attrs, {}), traceId, antMatches) == Continue
  {
    BillingLedgerServices(attrs, c.serviceClaim, text);
    JarvisAdmitsNamedService(c, path, verb, attrs, traceId, antMatches);
  }

  /** A service claim written as one comma-separated string admits the
      request in jarvis and refuses it in wingbank. */
  lemma StringClaimOnlyCountsInJarvis(c: ScopeConfig, path: string, verb: string, text: string,
                                      attrs: map<string, Claim>, traceId: Option<string>,
                                      antMatches: (string, string) -> bool)
    requires c.serviceId == "billing" && text == "billing,ledger"
    requires c.serviceClaim in attrs && attrs[c.serviceClaim] == Text(text)
    requires !Excluded(path, antMatches)
    ensures JarvisFilter(c, [], path, verb, JwtToken(attrs, {}), traceId, antMatches) == Continue
    ensures WingbankFilter(c, path, JwtToken(attrs, {}), traceId, antMatches) == Rejected(NoAccessScope(c, traceId))
  {
    JarvisAdmitsStringClaim(c, path, verb, text, attrs, traceId, antMatches);
    assert c.serviceId !in WingbankServices(attrs, c.serviceClaim);
  }

  /** A claim holding null reads in jarvis as the single service `null`. */
  lemma NullClaimNamesNull(attrs: map<string, Claim>, claim: string)
    requires claim in attrs && attrs[claim] == NullValue
    ensures JarvisServices(attrs, claim) == {"null"}
    ensures WingbankServices(attrs, claim) == {}
  {
    assert DelimitedList("null", ',') == ["null"];
  }

  /** An authentication other than a JWT or bearer token has no attributes,
      so outside the excluded paths wingbank refuses it. */
  lemma OtherAuthenticationRefused(c: ScopeConfig, path: string, auths: set<string>, traceId: Option<string>,
                                   antMatches: (string, string) -> bool)
    requires !Excluded(path, antMatches)
    ensures WingbankFilter(c, path, OtherAuthentication(auths), traceId, antMatches) == Rejected(NoAccessScope(c, traceId))
  {
  }
}

=== FILE: strings.dfy ===
/** The string operations of the Java and Spring libraries that the sidecar's
    logic relies on: blank tests, ASCII case folding, the two different ways of
    splitting a string (Java's `String.split` and Spring's delimited-list
    helpers), joining, and decimal rendering of integers. */
module Strings {
  import opened Wrappers

  /** `Character.isWhitespace`. */
  predicate IsWhitespace(c: char) {
    || c == ' ' || c == '\t' || c == '\n' || c == '\U{000B}' || c == '\U{000C}' || c == '\r'
    || ('\U{001C}' <= c <= '\U{001F}')
    || c == '\U{1680}' || ('\U{2000}' <= c <= '\U{2006}') || ('\U{2008}' <= c <= '\U{200A}')
    || c == '\U{2028}' || c == '\U{2029}' || c == '\U{205F}' || c == '\U{3000}'
  }

  /** Spring's `StringUtils.hasText` on a non-null string: some character is
      not whitespace. */
  predicate HasText(s: string) {
    exists i | 0 <= i < |s| :: !IsWhitespace(s[i])
  }

  /** Spring's `StringUtils.hasText` on a possibly-null string. */
  predicate OptHasText(s: Option<string>) {
    s.Some? && HasText(s.value)
  }

  /** Commons-lang `StringUtils.isNotEmpty` on a possibly-null string. */
  predicate IsNotEmpty(s: Option<string>) {
    s.Some? && |s.value| > 0
  }

  lemma HasTextIsNotEmpty(s: string)
    requires HasText(s)
    ensures |s| > 0
  {
  }

  /** ASCII lower-casing of one character. */
  function LowerChar(c: char): char {
    if 'A' <= c <= 'Z' then (c as int + 32) as char else c
  }

  function ToLower(s: string): (r: string)
    ensures |r| == |s|
    ensures forall i :: 0 <= i < |s| ==> r[i] == LowerChar(s[i])
  {
    seq(|s|, i requires 0 <= i < |s| => LowerChar(s[i]))
  }

  /** `String.equalsIgnoreCase` restricted to ASCII letters. */
  predicate EqualsIgnoreCase(a: string, b: string) {
    ToLower(a) == ToLower(b)
  }

  predicate StartsWith(s: string, prefix: string) {
    |prefix| <= |s| && s[..|prefix|] == prefix
  }

  predicate EndsWith(s: string, suffix: string) {
    |suffix| <= |s| && s[|s| - |suffix|..] == suffix
  }

  /** `String.contains`. */
  predicate Contains(s: string, sub: string)
    decreases |s|
  {
    StartsWith(s, sub) || (|s| > 0 && Contains(s[1..], sub))
  }

  /** `String.indexOf(c)` when the character occurs. */
  function IndexOf(s: string, c: char): (i: nat)
    requires c in s
    ensures i < |s| && s[i] == c && c !in s[..i]
  {
    if s[0] == c then 0
    else
      var j := IndexOf(s[1..], c);
      assert s[..j + 1] == [s[0]] + s[1..][..j];
      j + 1
  }

  /** An occurrence with none before it is the one `indexOf` finds. */
  lemma IndexOfAt(s: string, c: char, p: nat)
    requires p < |s| && s[p] == c && c !in s[..p]
    ensures c in s && IndexOf(s, c) == p
  {
    assert s[..p + 1][p] == c;
  }

  /** Joins `xs` with `sep` between consecutive elements. */
  function Join(sep: string, xs: seq<string>): string {
    if |xs| == 0 then ""
    else if |xs| == 1 then xs[0]
    else xs[0] + sep + Join(sep, xs[1..])
  }

  lemma {:induction false} JoinSnoc(sep: string, xs: seq<string>, x: string)
    requires |xs| > 0
    ensures Join(sep, xs + [x]) == Join(sep, xs) + sep + x
  {
    if |xs| == 1 {
      assert (xs + [x])[1..] == [x];
    } else {
      assert (xs + [x])[1..] == xs[1..] + [x];
      JoinSnoc(sep, xs[1..], x);
    }
  }

  /** Splits at every occurrence of `d`, keeping empty pieces: `n` delimiters
      give `n + 1` pieces. */
  function SplitAll(s: string, d: char): (parts: seq<string>)
    ensures |parts| > 0
    ensures forall i :: 0 <= i < |parts| ==> d !in parts[i]
    decreases |s|
  {
    if d !in s then [s]
    else
      var i := IndexOf(s, d);
      [s[..i]] + SplitAll(s[i + 1..], d)
  }

  /** Joining the pieces with the delimiter gives back the original string. */
  lemma {:induction false} SplitAllJoin(s: string, d: char)
    ensures Join([d], SplitAll(s, d)) == s
    decreases |s|
  {
    if d in s {
      var i := IndexOf(s, d);
      SplitAllJoin(s[i + 1..], d);
      assert s == s[..i] + [d] + s[i + 1..];
    }
  }

  /** Splitting at a first delimiter at `p` takes the text before it as the
      first piece. */
  lemma SplitAllAt(s: string, d: char, p: nat)
    requires p < |s| && s[p] == d && d !in s[..p]
    ensures SplitAll(s, d) == [s[..p]] + SplitAll(s[p + 1..], d)
  {
    IndexOfAt(s, d, p);
  }

  /** Splitting a join of delimiter-free pieces gives back the pieces. */
  lemma {:induction false} JoinSplitAll(xs: seq<string>, d: char)
    requires |xs| > 0
    requires forall i :: 0 <= i < |xs| ==> d !in xs[i]
    ensures SplitAll(Join([d], xs), d) == xs
  {
    if |xs| > 1 {
      var s := Join([d], xs);
      var rest := Join([d], xs[1..]);
      var p := |xs[0]|;
      assert s == xs[0] + [d] + rest;
      assert s[..p] == xs[0] && s[p] == d && s[p + 1..] == rest;
      SplitAllAt(s, d, p);
      JoinSplitAll(xs[1..], d);
      assert xs == [xs[0]] + xs[1..];
    }
  }

  /** A string with a single delimiter splits into the two sides. */
  lemma SplitAllOnce(s: string, d: char, p: nat)
    requires p < |s| && s[p] == d && d !in s[..p] && d !in s[p + 1..]
    ensures SplitAll(s, d) == [s[..p], s[p + 1..]]
  {
    IndexOfAt(s, d, p);
  }

  /** Drops empty strings from the end (the `limit == 0` rule of `String.split`). */
  function DropTrailingEmpty(xs: seq<string>): (r: seq<string>)
    ensures |r| <= |xs| && r == xs[..|r|]
    ensures |r| > 0 ==> r[|r| - 1] != ""
    ensures forall i :: |r| <= i < |xs| ==> xs[i] == ""
  {
    if |xs| == 0 then []
    else if xs[|xs| - 1] == "" then DropTrailingEmpty(xs[..|xs| - 1])
    else xs
  }

  /** Java `String.split` with a single literal character: the string itself
      when the character does not occur, otherwise all pieces with the
      trailing empty ones removed (so `"b=".split("=")` is `["b"]` and
      `"=".split("=")` is empty). */
  function JavaSplit(s: string, d: char): seq<string> {
    if d !in s then [s] else DropTrailingEmpty(SplitAll(s, d))
  }

  /** Spring `StringUtils.delimitedListToStringArray`: no pieces for the empty
      string, otherwise every piece, empty ones included and untrimmed. */
  function DelimitedList(s: string, d: char): (r: seq<string>)
    ensures s == "" <==> |r| == 0
  {
    if s == "" then [] else SplitAll(s, d)
  }

  /** Spring `StringUtils.commaDelimitedListToSet`. */
  function CommaSet(s: string): set<string> {
    set x | x in DelimitedList(s, ',')
  }

  /** A string with a single comma gives the set of its two sides. */
  lemma CommaSetAt(s: string, p: nat)
    requires p < |s| && s[p] == ','
    requires ',' !in s[..p] && ',' !in s[p + 1..]
    ensures CommaSet(s) == {s[..p], s[p + 1..]}
  {
    SplitAllOnce(s, ',', p);
  }

  /** Comma-free pieces joined by commas read back as the set of the
      pieces, unless the joined string is empty (which gives no pieces). */
  lemma CommaSetOfJoin(xs: seq<string>)
    requires |xs| > 0 && Join(",", xs) != ""
    requires forall i :: 0 <= i < |xs| ==> ',' !in xs[i]
    ensures CommaSet(Join(",", xs)) == set x | x in xs
  {
    JoinSplitAll(xs, ',');
  }

  /** What a `StringBuilder` holds after appending every element followed by
      `sep`, as the sidecar's builders do before cutting the last separator. */
  function Terminated(sep: string, xs: seq<string>): string {
    if |xs| == 0 then "" else xs[0] + sep + Terminated(sep, xs[1..])
  }

  lemma {:induction false} TerminatedSnoc(sep: string, xs: seq<string>, x: string)
    ensures Terminated(sep, xs + [x]) == Terminated(sep, xs) + x + sep
  {
    if |xs| == 0 {
      assert xs + [x] == [x];
    } else {
      assert (xs + [x])[1..] == xs[1..] + [x];
      TerminatedSnoc(sep, xs[1..], x);
    }
  }

  /** Cutting the final separator off the builder gives the joined string. */
  lemma {:induction false} TerminatedIsJoin(sep: string, xs: seq<string>)
    requires |xs| > 0
    ensures Terminated(sep, xs) == Join(sep, xs) + sep
  {
    if |xs| > 1 {
      TerminatedIsJoin(sep, xs[1..]);
    }
  }

  /** The first piece of Java `String.split` is the text before the first
      delimiter, provided that text is not empty. */
  lemma JavaSplitHead(s: string, d: char)
    requires d in s && IndexOf(s, d) > 0
    ensures |JavaSplit(s, d)| > 0 && JavaSplit(s, d)[0] == s[..IndexOf(s, d)]
  {
    var parts := SplitAll(s, d);
    assert parts[0] == s[..IndexOf(s, d)];
    assert parts[0] != "";
  }

  /** The rendering `AbstractCollection.toString` gives a list of strings. */
  function ListToString(xs: seq<string>): string {
    "[" + Join(", ", xs) + "]"
  }

  function DigitChar(d: nat): char
    requires d < 10
  {
    "0123456789"[d]
  }

  predicate IsDigit(c: char) {
    '0' <= c <= '9'
  }

  function DigitValue(c: char): nat
    requires IsDigit(c)
  {
    c as int - '0' as int
  }

  /** Decimal rendering of a natural number, as `String.valueOf(int)` gives it. */
  function NatToString(n: nat): (s: string)
    ensures |s| > 0
    ensures forall i :: 0 <= i < |s| ==> IsDigit(s[i])
    decreases n
  {
    if n < 10 then [DigitChar(n)] else NatToString(n / 10) + [DigitChar(n % 10)]
  }

  /** Decimal rendering of an integer, with a leading `-` when negative. */
  function IntToString(n: int): string {
    if n < 0 then "-" + NatToString(-n) else NatToString(n)
  }

  /** Reads a string of decimal digits back as a number. */
  function ParseNat(s: string): nat
    requires forall i :: 0 <= i < |s| ==> IsDigit(s[i])
  {
    if |s| == 0 then 0 else ParseNat(s[..|s| - 1]) * 10 + DigitValue(s[|s| - 1])
  }

  /** The decimal rendering reads back as the same number. */
  lemma {:induction false} NatToStringRoundTrip(n: nat)
    ensures ParseNat(NatToString(n)) == n
    decreases n
  {
    if n >= 10 {
      var s := NatToString(n);
      assert s[..|s| - 1] == NatToString(n / 10);
      NatToStringRoundTrip(n / 10);
    }
  }

  /** Distinct numbers render differently. */
  lemma NatToStringInjective(m: nat, n: nat)
    requires NatToString(m) == NatToString(n)
    ensures m == n
  {
    NatToStringRoundTrip(m);
    NatToStringRoundTrip(n);
  }
}

=== FILE: token_resolver.dfy ===
/** Choosing the authentication manager for a request
    (`CustomAuthenticationManagerResolver`): a bearer value shaped like a
    signed JWT (three dot-separated parts) goes to the JWT manager, anything
    else, including no Authorization header at all, to the opaque-token
    introspection manager. */
module TokenResolver {
  import opened Wrappers
  import opened Strings
  import opened Http
  import opened Failures

  /** The characters of the first two parts of the pattern: letters,
      digits, `-`, `_` and `=`. */
  predicate PartChar(c: char) {
    ('A' <= c <= 'Z') || ('a' <= c <= 'z') || ('0' <= c <= '9') || c == '-' || c == '_' || c == '='
  }

  /** The characters of the last part: those of the first two parts and
      `.`, `+` and `/`. */
  predicate TailChar(c: char) {
    PartChar(c) || c == '.' || c == '+' || c == '/'
  }

  predicate AllPartChars(s: string) {
    forall i :: 0 <= i < |s| ==> PartChar(s[i])
  }

  predicate AllTailChars(s: string) {
    forall i :: 0 <= i < |s| ==> TailChar(s[i])
  }

  /** The language of the token pattern: a non-empty part, a dot, a
      non-empty part, a dot, and a possibly empty tail; the whole string
      must match. */
  ghost predicate InJwtLanguage(t: string) {
    exists p, q | 0 < p && p + 1 < q < |t| ::
      t[p] == '.' && t[q] == '.'
      && AllPartChars(t[..p]) && AllPartChars(t[p + 1..q]) && AllTailChars(t[q + 1..])
  }

  /** The pattern test, computed by locating the first two dots: the first
      two parts cannot contain a dot, so those are the pattern's dots. */
  predicate MatchesJwtPattern(t: string) {
    '.' in t
    && var p := IndexOf(t, '.');
    var rest := t[p + 1..];
    '.' in rest
    && var q := IndexOf(rest, '.');
    p > 0 && q > 0
    && AllPartChars(t[..p]) && AllPartChars(rest[..q]) && AllTailChars(rest[q + 1..])
  }

  lemma NoDotInParts(s: string)
    requires AllPartChars(s)
    ensures '.' !in s
  {
  }

  /** What the computed test accepts lies in the pattern's language. */
  lemma MatchesJwtPatternSound(t: string)
    requires MatchesJwtPattern(t)
    ensures InJwtLanguage(t)
  {
    var p := IndexOf(t, '.');
    var rest := t[p + 1..];
    var q := IndexOf(rest, '.');
    assert t[p + 1 + q] == '.';
    assert t[p + 1..p + 1 + q] == rest[..q];
    assert t[p + 1 + q + 1..] == rest[q + 1..];
    assert AllPartChars(t[p + 1..p + 1 + q]);
  }

  /** Everything in the pattern's language passes the computed test. */
  lemma MatchesJwtPatternComplete(t: string, p: nat, q: nat)
    requires 0 < p && p + 1 < q < |t|
    requires t[p] == '.' && t[q] == '.'
    requires AllPartChars(t[..p]) && AllPartChars(t[p + 1..q]) && AllTailChars(t[q + 1..])
    ensures MatchesJwtPattern(t)
  {
    NoDotInParts(t[..p]);
    IndexOfAt(t, '.', p);
    var rest := t[p + 1..];
    NoDotInParts(t[p + 1..q]);
    assert rest[..q - p - 1] == t[p + 1..q];
    IndexOfAt(rest, '.', q - p - 1);
    assert rest[q - p..] == t[q + 1..];
  }

  /** The computed test accepts exactly the pattern's language. */
  lemma MatchesJwtPatternIsLanguage(t: string)
    ensures MatchesJwtPattern(t) <==> InJwtLanguage(t)
  {
    if MatchesJwtPattern(t) {
      MatchesJwtPatternSound(t);
    }
    if InJwtLanguage(t) {
      var p, q :| 0 < p && p + 1 < q < |t|
                  && t[p] == '.' && t[q] == '.'
                  && AllPartChars(t[..p]) && AllPartChars(t[p + 1..q]) && AllTailChars(t[q + 1..]);
      MatchesJwtPatternComplete(t, p, q);
    }
  }

  /** `isJwtToken`: the Authorization header's first value, with a leading
      `Bearer ` (exactly that case, one space) removed, has text and
      matches the pattern. */
  predicate IsJwtToken(authorization: Option<string>) {
    var token :=
      if OptHasText(authorization) && StartsWith(authorization.value, "Bearer ")
      then Some(authorization.value[7..]) else authorization;
    OptHasText(token) && MatchesJwtPattern(token.value)
  }

  /** The two managers, both wrapped in the delegating manager. */
  datatype Manager = JwtManager | OpaqueManager

  /** The resolver's configuration; the constructor checks it. */
  datatype Resolver = Resolver(jwkSetUri: string, introspectionUri: string, clientId: string, clientSecret: string)

  /** The constructor's checks, in order, each failing with its message. */
  function NewResolver(jwkSetUri: Option<string>, introspectionUri: Option<string>,
                       clientId: Option<string>, clientSecret: Option<string>): (r: Result<Resolver, Failure>)
    ensures r.Success? <==> OptHasText(jwkSetUri) && OptHasText(introspectionUri)
                            && OptHasText(clientId) && OptHasText(clientSecret)
    ensures !OptHasText(jwkSetUri) ==> r == Failure(IllegalArgument("Jwk set uri cannot be empty or null"))
    ensures OptHasText(jwkSetUri) && !OptHasText(introspectionUri) ==>
              r == Failure(IllegalArgument("Introspection uri cannot be empty or null"))
    ensures OptHasText(jwkSetUri) && OptHasText(introspectionUri) && !OptHasText(clientId) ==>
              r == Failure(IllegalArgument("Client id cannot be empty or null"))
    ensures (OptHasText(jwkSetUri) && OptHasText(introspectionUri) && OptHasText(clientId)
             && !OptHasText(clientSecret)) ==> r == Failure(IllegalArgument("Client secret cannot be empty or null"))
    ensures r.Success? ==> r.value == Resolver(jwkSetUri.value, introspectionUri.value, clientId.value, clientSecret.value)
  {
    if !OptHasText(jwkSetUri) then Failure(IllegalArgument("Jwk set uri cannot be empty or null"))
    else if !OptHasText(introspectionUri) then Failure(IllegalArgument("Introspection uri cannot be empty or null"))
    else if !OptHasText(clientId) then Failure(IllegalArgument("Client id cannot be empty or null"))
    else if !OptHasText(clientSecret) then Failure(IllegalArgument("Client secret cannot be empty or null"))
    else Success(Resolver(jwkSetUri.value, introspectionUri.value, clientId.value, clientSecret.value))
  }

  /** `resolve`: the manager for the request's headers. */
  function Resolve(headers: Headers): (m: Manager)
    ensures m == JwtManager <==> IsJwtToken(GetFirst(headers, "Authorization"))
  {
    if IsJwtToken(GetFirst(headers, "Authorization")) then JwtManager else OpaqueManager
  }

  /** A value without the prefix, split by its first two dots into parts of
      the right characters, is taken for a JWT. */
  lemma TokenAccepted(t: string, p: nat, q: nat)
    requires !StartsWith(t, "Bearer ")
    requires 0 < p && p + 1 < q < |t|
    requires t[p] == '.' && t[q] == '.'
    requires AllPartChars(t[..p]) && AllPartChars(t[p + 1..q]) && AllTailChars(t[q + 1..])
    ensures IsJwtToken(Some(t))
  {
    MatchesJwtPatternComplete(t, p, q);
    assert PartChar(t[..p][0]);
    assert !IsWhitespace(t[0]);
  }

  /** A value taken for a JWT is still taken for one behind `Bearer `. */
  lemma PrefixedTokenAccepted(t: string)
    requires OptHasText(Some(t)) && MatchesJwtPattern(t)
    ensures IsJwtToken(Some("Bearer " + t))
  {
    var b := "Bearer " + t;
    assert b[..7] == "Bearer ";
    assert b[7..] == t;
    assert !IsWhitespace(b[0]);
  }

  lemma PlainSignedToken()
    ensures IsJwtToken(Some("x.y.z")) && MatchesJwtPattern("x.y.z")
  {
    var t := "x.y.z";
    assert t[0] != "Bearer "[0];
    assert t[..1] == "x" && t[2..3] == "y" && t[4..] == "z";
    TokenAccepted(t, 1, 3);
  }

  /** A three-part token goes to the JWT manager with or without the
      `Bearer ` prefix. */
  lemma SignedTokenGoesToJwt(t: string)
    requires t == "x.y.z"
    ensures IsJwtToken(Some(t))
    ensures IsJwtToken(Some("Bearer " + t))
  {
    PlainSignedToken();
    PrefixedTokenAccepted(t);
  }

  /** The tail may be empty. */
  lemma EmptyTailGoesToJwt()
    ensures IsJwtToken(Some("a.b."))
  {
    var t := "a.b.";
    assert t[0] != "Bearer "[0];
    assert t[..1] == "a" && t[2..3] == "b" && t[4..] == "";
    TokenAccepted(t, 1, 3);
  }

  /** The tail may contain further dots. */
  lemma DottedTailGoesToJwt()
    ensures IsJwtToken(Some("a.b.c.d"))
  {
    var u := "a.b.c.d";
    assert u[0] != "Bearer "[0];
    assert u[..1] == "a" && u[2..3] == "b" && u[4..] == "c.d";
    TokenAccepted(u, 1, 3);
  }

  /** No header, an empty one, or a bare prefix go to the opaque manager. */
  lemma BlankTokensGoToOpaque()
    ensures !IsJwtToken(None)
    ensures !IsJwtToken(Some(""))
    ensures !IsJwtToken(Some("Bearer "))
  {
    var b := "Bearer ";
    assert HasText(b) by { assert !IsWhitespace(b[0]); }
    assert b[..7] == "Bearer ";
    assert b[7..] == "";
  }

  /** A value without dots goes to the opaque manager. */
  lemma DotlessTokenGoesToOpaque()
    ensures !IsJwtToken(Some("Bearer abc123"))
  {
    var b := "Bearer abc123";
    assert b[..7] == "Bearer ";
    assert b[7..] == "abc123";
    assert '.' !in "abc123";
  }

  /** A space before the first dot puts the value outside the pattern. */
  lemma SpaceBeforeFirstDot(u: string, i: nat)
    requires i < |u| && u[i] == ' ' && '.' !in u[..i + 1]
    ensures !MatchesJwtPattern(u)
  {
    if '.' in u {
      var p := IndexOf(u, '.');
      assert u[..p][i] == ' ';
    }
  }

  /** A lower-case `bearer` prefix is not removed, and its space keeps the
      whole value out of the pattern. */
  lemma LowerCasePrefixKept(t: string)
    requires t == "a.b.c"
    ensures !IsJwtToken(Some("bearer " + t))
  {
    var b := "bearer " + t;
    assert !StartsWith(b, "Bearer ") by {
      assert b[0] == 'b';
    }
    assert b[..7] == "bearer ";
    SpaceBeforeFirstDot(b, 6);
  }
}

=== FILE: wrappers.dfy ===
/** Failure-compatible wrappers used throughout the model: `Option` stands for a
    Java reference that may be null, `Result` for a call that may throw. */
module Wrappers {

  datatype Option<+T> = None | Some(value: T) {

    predicate IsFailure() {
      None?
    }

    function PropagateFailure<U>(): Option<U>
      requires None?
    {
      None
    }

    function Extract(): T
      requires Some?
    {
      value
    }

    /** `Optional.ofNullable(x).orElse(default)` */
    function GetOr(default: T): T {
      match this
      case Some(v) => v
      case None => default
    }
  }

  datatype Result<+R, +E> = Success(value: R) | Failure(error: E) {

    predicate IsFailure() {
      Failure?
    }

    function PropagateFailure<U>(): Result<U, E>
      requires Failure?
    {
      Failure(error)
    }

    function Extract(): R
      requires Success?
    {
      value
    }
  }
}
